=== FILE: README.md ===
# BHIMA core logic in Dafny

BHIMA is a hospital information management system: accounting, payroll,
stock, inventory and reporting, with a Node.js server and an AngularJS
client. This project models a selection of its logic and proves properties
about it. Each source file becomes one Dafny module:

- **Payroll postings.** `PayrollTaxes` models the employer payroll-tax
  voucher of one employee: the voucher, two balanced lines per tax rubric,
  and the posting call. `PayrollBenefits` models the benefit lines added to
  the salary commitment voucher.
- **Payslip report.** `Payslip` models the report builder: which template
  is chosen, the exchange rate, the run totals, the rubric totals, each
  employee's rubric lists and charge sums, and the enterprise charge total.
- **Grid pagination.** `GridPagination` models the client-side paginator,
  which serves one page of journal rows and drops a page whose first and
  last rows split a transaction.
- **Inventory change report.** `InventoryChanges` models how the change log
  is flattened into rows, filtered, grouped by inventory, and tallied by user.
- **Group subscriptions.** `Subscriptions` models the controller that
  replaces a debtor group's invoicing-fee or subsidy subscriptions in one
  transaction.
- **Archived reports.** `ArchivedReports` models the `%key%` e-mail
  templater, the archived-report e-mail and the barcode redirect.
- **Translation utilities.** `TranslationCompare` models the script that
  compares the English and French translation files. `TranslationSort`
  models the script that writes a translation file back with sorted keys
  and aligned values.
- **Client components.** `LotDuplicates` models the dialog that merges
  duplicate stock lots. `Indicator` models the indicator component that
  judges a value against optional bounds.

Shared modules:

- `Common`: Option and Result, filter and sum.
- `Money`: decimal rounding.
- `Strings`: the lexicographic order, sorting and joining.
- `JsValues`: the JavaScript values the controllers read, truthiness and
  property access.
- `Vouchers`: voucher lines and rubrics.
- `TranslationDicts`: translation dictionaries.

Where the source updates state in place, the model does too: the
paginator, the lot dialog, the indicator, the subscription table, the
comparison script's lists and the sorter's output file are classes whose
methods change their fields. Each such method is proved against a
function of the old state. Pure computations are functions, and the
properties are lemmas about them.

Where a piece of code behaves differently from what its comments or
documentation suggest, the model follows the code. One case is the
French miss list of `utilities/translation/tfcomp.js` (lines 177-185 and
189-197): it tests and prints the Node `path` module instead of the key
path. French entries are therefore never qualified by their parent key,
and nested comparisons receive the bare key as their path.
`TranslationCompare.FrMiss` models exactly that.

## Model

| member | source | states |
|---|---|---|
| Money.RoundDecimal | test/server-unit/util.spec.js:39-54 | the result is a whole number of units of the last kept decimal place |
| Money.RoundDecimalBounds | test/server-unit/util.spec.js:39-49 | rounding moves a value by more than minus half a unit and at most half a unit of the last place (halves round up) |
| Money.RoundDecimalExact | test/server-unit/util.spec.js:45-48 | a value that already has that many decimals is unchanged |
| Money.RoundDecimalExamples | test/server-unit/util.spec.js:39-54 | 12.125 rounds to 12.13, 12.125 and 12 at 2, 3 and 0 places; 12 stays 12; the default precision gives 12.1111 for 12.11111 |
| PayrollTaxes.TaxItemsShape | server/controllers/payroll/multiplePayroll/calculateEmployeePayrollTaxes.js:55-83 | two lines per tax rubric in rubric order: first a credit on its third-party account with no cost center, then a debit on its expense account with the employee's cost center; every line belongs to the voucher and ids are handed out in line order |
| PayrollTaxes.TaxItemsBalanced | server/controllers/payroll/multiplePayroll/calculateEmployeePayrollTaxes.js:64-82 | total debit and total credit of the lines both equal the sum of the rubric values, so the voucher balances |
| PayrollTaxes.CalculateEmployeePayrollTaxes | server/controllers/payroll/multiplePayroll/calculateEmployeePayrollTaxes.js:20-98 | no statement when no rubric applies; otherwise exactly three statements: the voucher insert (type 17, amount the rounded total), the balanced line insert, and the PostVoucher call on the voucher's uuid |
| PayrollBenefits.BenefitLinesShape | server/controllers/payroll/multiplePayroll/calculateEmployeeBenefits.js:27-49 | one line per benefit rubric, in order, each a debit on the rubric's expense account in the salary voucher |
| PayrollBenefits.BenefitLinesTotals | server/controllers/payroll/multiplePayroll/calculateEmployeeBenefits.js:39-48 | the lines debit the sum of the benefit values and credit nothing |
| PayrollBenefits.CalculateEmployeeBenefitsSpec | server/controllers/payroll/multiplePayroll/calculateEmployeeBenefits.js:21-50 | exactly one line per rubric the benefit predicate accepts, with its value, account and cost center, and the employee's cost center |
| PayrollBenefits.NoBenefitNoLine | server/controllers/payroll/multiplePayroll/calculateEmployeeBenefits.js:22-27 | with no benefit rubric there is no line |
| Payslip.SelectReportCases | server/controllers/payroll/reports/payslipGenerator.js:36-61 | the social-charge template and portrait orientation exactly when not a payslip and social charges are asked for; the payroll report otherwise; for payslips, the index variant exactly when the index payment system is on |
| Payslip.ResolveRate | server/controllers/payroll/reports/payslipGenerator.js:113-122 | no rate exactly when there is no exchange entry; otherwise only the last entry counts: its rate when its currency is the employee's, else 1 |
| Payslip.PeriodExchangeRate | server/controllers/payroll/reports/payslipGenerator.js:67-96 | the rate is the number 1 for the enterprise currency; otherwise the query's rate exactly as the text it arrived as when one is given, or else the looked-up number; for a spreadsheet, the query's conversion rate, or 1 when that is missing or zero |
| Payslip.ShouldRenderExchangeRate | server/controllers/payroll/reports/payslipGenerator.js:255-266 | the rate is shown exactly when the period rate is not strictly the number 1: never for the enterprise currency, always for a rate given as query text, otherwise exactly when the looked-up or spreadsheet rate differs from 1 (a missing or zero spreadsheet rate counts as 1) |
| Payslip.TextOneIsRendered | server/controllers/payroll/reports/payslipGenerator.js:94-96 | a query rate of "1" for a foreign currency is still shown, because the text is not strictly the number 1 |
| Payslip.AggregateRun | server/controllers/payroll/reports/payslipGenerator.js:105-138 | each employee's equivalents are their figures divided by their resolved rate; the totals are the sums of the converted figures, with taxable = base - basic, non-taxable = gross - base and deduction = gross - net; no totals when rates are missing for some employee |
| Payslip.RunTotalsReconcile | server/controllers/payroll/reports/payslipGenerator.js:133-138 | basic + taxable + non-taxable = gross and net + deduction = gross; the deduction and non-taxable totals are the sums of each employee's own differences |
| Payslip.AbbrTotalSpec | server/controllers/payroll/reports/payslipGenerator.js:151-169 | with rates, a rubric's total is the sum of the converted results of the rubrics with that abbreviation; without rates it is undefined exactly when such a rubric exists |
| Payslip.AbbrTotalRated | server/controllers/payroll/reports/payslipGenerator.js:151-163 | with rates, the total is the sum over the rubrics with that abbreviation of their converted result |
| Payslip.AbbrTotalUnrated | server/controllers/payroll/reports/payslipGenerator.js:151-169 | without rates, the total is not a number exactly when some rubric has the abbreviation, and 0 otherwise |
| Payslip.ListedFilter | server/controllers/payroll/reports/payslipGenerator.js:199-226 | each list the rubric loop builds is the rubrics of that employee that fall in the list's category, in order |
| Payslip.ClassifyRubrics | server/controllers/payroll/reports/payslipGenerator.js:174-231 | the loop builds the employee's taxable, non-taxable, discount and charge lists and the two charge sums of the slip |
| Payslip.SlipPartition | server/controllers/payroll/reports/payslipGenerator.js:199-231 | only the employee's rubrics are listed; a non-discount rubric is taxable exactly when it is not social care and non-taxable otherwise; a discount is listed and in exactly one charge list (the employee's exactly when is_employee); the two charge sums add up to the discount total |
| Payslip.ListedMembers | server/controllers/payroll/reports/payslipGenerator.js:199-226 | a rubric is in a list exactly when it is among the rubrics and belongs to the employee and the list's category |
| Payslip.ChargeSums | server/controllers/payroll/reports/payslipGenerator.js:213-224 | the employee and enterprise charge sums add up to the sum of the discount results |
| Payslip.AddEnterpriseCharge | server/controllers/payroll/reports/payslipGenerator.js:243 | adding one slip's enterprise charge extends the running total by that employee |
| Payslip.EnterpriseChargesSnoc | server/controllers/payroll/reports/payslipGenerator.js:243 | the enterprise charge total over one more employee is the previous total plus that employee's charges |
| Payslip.BuildSlips | server/controllers/payroll/reports/payslipGenerator.js:150-265 | one slip per employee with its converted sums at that employee's rate, and TotalChargeEnterprise is the sum of every employee's enterprise charges |
| GridPagination.SliceIndex | client/src/js/services/grid/GridPagination.js:63 | a slice bound is clamped into the list, and a negative bound counts from the end |
| GridPagination.SliceLength | client/src/js/services/grid/GridPagination.js:63 | a slice holds at most end - start rows, and exactly that many when the range lies within the list |
| GridPagination.UpperBoundDefined | client/src/js/services/grid/GridPagination.js:65-70 | when the row after the page exists, the page's last index is page × size, within the list |
| GridPagination.PageStart | client/src/js/services/grid/GridPagination.js:35-63 | page n starts at row (n - 1) × 25 |
| GridPagination.PageShape | client/src/js/services/grid/GridPagination.js:63-75 | the page is the slice of at most 25 rows, unless its bounding rows share a transaction; then every row of that transaction is dropped |
| GridPagination.SplitTransactionLeavesPage | client/src/js/services/grid/GridPagination.js:46-75 | a page whose rows all belong to one transaction split at its boundaries comes out empty |
| GridPagination.GridOptions.constructor | client/src/js/services/grid/GridPagination.js:87 | the grid options start empty, with internal pagination and the given API hook |
| GridPagination.PaginationService.constructor | client/src/js/services/grid/GridPagination.js:27-41 | the service starts with external pagination off, no grid, no rows and no page fetcher |
| GridPagination.PaginationService.FetchPage | client/src/js/services/grid/GridPagination.js:53-84 | the grid shows the requested page, the total is the number of rows, and the page size is the page's length (at most 25) |
| GridPagination.PaginationService.PaginationInstance | client/src/js/services/grid/GridPagination.js:86-92 | the service keeps the grid and rows and wraps the grid's API hook, changing nothing else of the grid |
| GridPagination.PaginationService.RegisterApi | client/src/js/services/grid/GridPagination.js:92-113 | the API is remembered, the page sizes are set, external pagination binds the page fetcher, and the cached hook is handed on when there is one |
| InventoryChanges.FilterDistinct | server/controllers/inventory/reports/changes.js:154-157 | dropping properties keeps keys distinct |
| InventoryChanges.FilterLookup | server/controllers/inventory/reports/changes.js:154-157 | dropping other properties keeps the value read at a key |
| InventoryChanges.FilterDropsKey | server/controllers/inventory/reports/changes.js:154-157 | a dropped key is gone |
| InventoryChanges.FormatKeysSpec | server/controllers/inventory/reports/changes.js:153-160 | the four removed keys are gone; `label` holds the old text; every other key keeps its value; keys stay distinct |
| InventoryChanges.GetValueSpec | server/controllers/inventory/reports/changes.js:169-194 | an ordinary key compares the two records' own values; type and unit compare the old text with the nested object's `text`, failing when that object is missing; the group compares with the nested `name`, or the empty text when that is falsy; tags compare the two rendered tag lists and fail when either does |
| InventoryChanges.QuotedNames | server/controllers/inventory/reports/changes.js:173-176 | each tag's name, in order, as a template literal prints it, wrapped in double quotes; an unmodelled failure exactly when some tag's name cannot be read or printed by the model (a number, array or object name) |
| InventoryChanges.TagList | server/controllers/inventory/reports/changes.js:173-176 | a tag list renders as its quoted names joined by a comma and two spaces inside brackets; a value that is not an array throws |
| InventoryChanges.TagListExample | server/controllers/inventory/reports/changes.js:173-176 | two tags render as ["a",  "b"], no tags as [], and a missing list throws |
| InventoryChanges.KeyRowsSpec | server/controllers/inventory/reports/changes.js:31-39 | one row per key, in order, with the column label, the user and both values; a failure exactly when some key's lookup fails |
| InventoryChanges.RecordRowsSpec | server/controllers/inventory/reports/changes.js:26-40 | a record yields one row per key of its formatted new state, compared with its formatted old state |
| InventoryChanges.TransformSpec | server/controllers/inventory/reports/changes.js:25-41 | the rows of all records, concatenated in record order; a failure exactly when some record fails |
| InventoryChanges.FilterChangelogSpec | server/controllers/inventory/reports/changes.js:109-111 | the changelog keeps exactly the rows with both values set and a key other than updated_by, in order |
| InventoryChanges.GroupStepContents | server/controllers/inventory/reports/changes.js:45-55 | one reduce step appends the row to its uuid's group and leaves the others |
| InventoryChanges.GroupStepKeys | server/controllers/inventory/reports/changes.js:45-55 | after one step the groups' keys are the uuids seen so far |
| InventoryChanges.GroupStep | server/controllers/inventory/reports/changes.js:45-55 | a reduce step keeps the grouping invariant |
| InventoryChanges.AddToGroup | server/controllers/inventory/reports/changes.js:47-54 | the callback keeps the grouping invariant for one more row |
| InventoryChanges.GroupByUuid | server/controllers/inventory/reports/changes.js:44-57 | the groups' keys are exactly the uuids of the rows, and each group is the non-empty, in-order list of that uuid's rows |
| InventoryChanges.Flagged | server/controllers/inventory/reports/changes.js:118-123 | each change is kept, in order, with its unit-price mark set exactly when its column is the unit-price label and one of its two values is a number |
| InventoryChanges.AttachLogs | server/controllers/inventory/reports/changes.js:116-124 | each inventory gets its group of the changelog, flagged, or no logs when it has none |
| InventoryChanges.ReportedInventories | server/controllers/inventory/reports/changes.js:114-127 | the report keeps exactly the inventories with at least one change in the changelog |
| InventoryChanges.UsersOf | server/controllers/inventory/reports/changes.js:130-134 | the users of the changelog, each once, and no one else |
| InventoryChanges.FirstIndex | server/controllers/inventory/reports/changes.js:130-134 | the position of a user's first change: that row is theirs and no earlier one is |
| InventoryChanges.UsersOfOrder | server/controllers/inventory/reports/changes.js:130-134 | the users are listed in the order of their first change |
| InventoryChanges.Tally | server/controllers/inventory/reports/changes.js:129-135 | one entry per user |
| InventoryChanges.InsertByCountPerm | server/controllers/inventory/reports/changes.js:136 | an insertion adds the entry and keeps the others and the total |
| InventoryChanges.InsertByCountBound | server/controllers/inventory/reports/changes.js:136 | an insertion keeps all counts under a common bound |
| InventoryChanges.InsertByCountSorted | server/controllers/inventory/reports/changes.js:136 | an insertion keeps the counts non-increasing |
| InventoryChanges.InsertByCountStable | server/controllers/inventory/reports/changes.js:136 | an insertion puts the entry before the others with the same count |
| InventoryChanges.SortByCountDescSpec | server/controllers/inventory/reports/changes.js:136 | the sort leaves counts non-increasing, keeps the same entries and the total, and keeps equal counts in their original order |
| InventoryChanges.SortByCountDescSorted | server/controllers/inventory/reports/changes.js:136 | the sorted counts are non-increasing |
| InventoryChanges.SortByCountDescPerm | server/controllers/inventory/reports/changes.js:136 | the sort is a permutation and keeps the total |
| InventoryChanges.SortByCountDescStable | server/controllers/inventory/reports/changes.js:136 | entries with equal counts keep their order |
| InventoryChanges.SumCountsUsers | server/controllers/inventory/reports/changes.js:129-135 | the users' counts add up to the number of changes |
| InventoryChanges.UserChangesSpec | server/controllers/inventory/reports/changes.js:129-136 | one entry per user with their number of changes, sorted by count descending (ties in order of first appearance), and the counts add up to the number of changes |
| InventoryChanges.TallyStep | server/controllers/inventory/reports/changes.js:131 | one reduce step raises the user's count by one and keeps the counts equal to the users' numbers of changes |
| InventoryChanges.CountChange | server/controllers/inventory/reports/changes.js:130-133 | after one change the users and their counts are those of the changelog so far |
| InventoryChanges.UserChanges | server/controllers/inventory/reports/changes.js:129-136 | the tally sorted by count descending |
| Subscriptions.FindDetails | server/controllers/groups.js:28 | no table exactly when no table has that name; otherwise the table with that name |
| Subscriptions.Prepared | server/controllers/groups.js:66-72 | one prepared table per table |
| Subscriptions.Registry.constructor | server/controllers/groups.js:4-17 | at load time the table holds the declared tables with their statements prepared |
| Subscriptions.Registry.PrepareQueries | server/controllers/groups.js:66-72 | every table gets its statements and the registry stays valid |
| Subscriptions.Transaction.AddQuery | server/controllers/groups.js:49-54 | a query is appended to the transaction |
| Subscriptions.IndexName | server/controllers/groups.js:80-84 | an array index names a non-empty key |
| Subscriptions.ParseEntries | server/controllers/groups.js:80-84 | one row per truthy entry, each for the group; an id has a row exactly when its entry is truthy |
| Subscriptions.ParseEntriesAppend | server/controllers/groups.js:81-83 | rows keep the order of the entries |
| Subscriptions.ParseEntriesEmpty | server/controllers/groups.js:82 | no rows exactly when no entry is truthy |
| JsValues.OwnEntries | server/controllers/groups.js:81 | `Object.entries` of an object lists exactly its own properties, each as often as it occurs |
| JsValues.OwnEntriesIndexFirst | server/controllers/groups.js:81 | array-index keys (canonical integers below 2^32 - 1) come before all other keys, in ascending numeric order |
| JsValues.OwnEntriesNamed | server/controllers/groups.js:81 | the other keys keep their insertion order |
| JsValues.SortIndexed | server/controllers/groups.js:81 | the index-keyed properties rearranged into ascending numeric order |
| Subscriptions.ParseFromMapIdOrder | server/controllers/groups.js:80-84 | a body listing ids 7 then 3 inserts the rows for 3 then 7, because ids are array-index keys |
| Subscriptions.UpdateSubscriptions | server/controllers/groups.js:26-58 | the method throws or runs the transaction of the update, as the update function states |
| Subscriptions.PreparedStatements | server/controllers/groups.js:66-72 | each prepared table deletes by its entity column and inserts into its own columns |
| Subscriptions.UpdateErrors | server/controllers/groups.js:28-42 | a TypeError for a missing body, then a bad request for an unknown table, then a bad request for missing subscriptions, in that order; otherwise success |
| Subscriptions.UpdateQueries | server/controllers/groups.js:44-54 | a successful update deletes the group's rows, then inserts one row per subscribed id when there is any |
| Subscriptions.FindPrepared | server/controllers/groups.js:28-72 | looking a key up among the prepared tables finds the prepared form of its declared table |
| Subscriptions.LoadedTables | server/controllers/groups.js:4-17 | once loaded, the table holds the invoicing-fee and subsidy tables with their statements |
| ArchivedReports.IndexOfFrom | server/controllers/report.js:138 | the first occurrence at or after the start, or -1 when there is none |
| ArchivedReports.ReplaceFirstSpec | server/controllers/report.js:138 | a text without the pattern is unchanged; otherwise its first occurrence is replaced by the expanded replacement |
| ArchivedReports.ReplaceOnlyFirst | server/controllers/report.js:138 | later occurrences are kept |
| ArchivedReports.ExpandPlain | server/controllers/report.js:138 | a replacement without `$` is inserted as it is |
| ArchivedReports.TemplateUnchanged | server/controllers/report.js:136-139 | with no value, or no placeholder present, the text is unchanged |
| ArchivedReports.TemplateOrderMatters | server/controllers/report.js:137-138 | a value can bring in a later key's placeholder, which is then filled; an earlier one's is not |
| ArchivedReports.ReplaceWhole | server/controllers/report.js:138 | a text that is exactly the pattern becomes the plain replacement |
| ArchivedReports.DollarAmpersand | server/controllers/report.js:138 | a value `$&` puts back the placeholder it replaces |
| ArchivedReports.TemplateFour | server/controllers/report.js:137-138 | four values are four replacements in turn |
| ArchivedReports.FillAll | server/controllers/report.js:125-172 | filling the four placeholders of a body whose texts hold no `%` gives the body with the values in place |
| ArchivedReports.FillFilename | server/controllers/report.js:164-172 | the first fill puts the filename in place |
| ArchivedReports.FillDate | server/controllers/report.js:164-172 | the date fills its placeholder although it comes after the user's in the text |
| ArchivedReports.FillUser | server/controllers/report.js:164-172 | the user fills its placeholder |
| ArchivedReports.FillRequestor | server/controllers/report.js:164-172 | the requestor fills the last placeholder |
| ArchivedReports.EmailMessage | server/controllers/report.js:125-172 | when the label and the names hold no `%`, the e-mail text is the body with the label, user, date and requestor in place |
| ArchivedReports.EmailTexts | server/controllers/report.js:125-133 | the fixed texts of the body hold no `%` |
| ArchivedReports.EmailArchived | server/controllers/report.js:147-178 | the e-mail goes to the given address, its subject is the label and date, and its one attachment is the report's PDF |
| ArchivedReports.BarcodeRedirect | server/controllers/report.js:187-195 | a TypeError for a missing result, a bad request when there is no redirect path, otherwise the redirect path |
| TranslationCompare.IndexOf | utilities/translation/tfcomp.js:100 | -1 exactly when the name is absent; otherwise its first index |
| TranslationCompare.BuildJsonFileArray | utilities/translation/tfcomp.js:96-125 | one entry per English file, paired with the French file of the same name when there is one, then one entry per French-only file, in directory order |
| TranslationCompare.BuildJsonFilesSpec | utilities/translation/tfcomp.js:96-125 | the file list is the function of the two listings that the method computes |
| TranslationCompare.PrefixAll | utilities/translation/tfcomp.js:168-172 | each English entry is indented and qualified by its key path |
| TranslationCompare.Unprefixed | utilities/translation/tfcomp.js:179-183 | each French entry is only indented |
| TranslationCompare.KeyLists | utilities/translation/tfcomp.js:146-163 | the keys French lacks, English lacks and both share are sorted and hold exactly those keys |
| TranslationCompare.PrefixAllMember | utilities/translation/tfcomp.js:166-174 | a qualified key is listed exactly when the key is |
| TranslationCompare.TopLevelEnglishEntries | utilities/translation/tfcomp.js:149-174 | a key only French has is listed under the path exactly when English lacks it |
| TranslationCompare.EnglishEmpty | utilities/translation/tfcomp.js:136-143 | an English side without keys misses all of French's keys, and French misses nothing |
| TranslationCompare.FrenchEmpty | utilities/translation/tfcomp.js:136-143 | a French side without keys misses all of English's keys, and English misses nothing |
| TranslationCompare.SelfCompare | utilities/translation/tfcomp.js:127-201 | a dictionary compared with itself misses nothing at any depth |
| TranslationCompare.NestedMisses | utilities/translation/tfcomp.js:166-199 | keys missing one level down are reported under the shared key on the English side and unqualified on the French side |
| TranslationCompare.SameOneKey | utilities/translation/tfcomp.js:149-163 | two one-key dictionaries with the same key miss nothing at the top and share that key |
| TranslationCompare.Comparison.constructor | utilities/translation/tfcomp.js:19-94 | the script's output is the report of the file list built from the two listings |
| TranslationCompare.Comparison.CheckSubDict | utilities/translation/tfcomp.js:127-201 | the comparison appends its misses to the two lists and changes nothing else |
| TranslationCompare.Comparison.AppendMissingFromEn | utilities/translation/tfcomp.js:166-174 | the keys only French has are appended, qualified |
| TranslationCompare.Comparison.AppendMissingFromFr | utilities/translation/tfcomp.js:177-185 | the keys only English has are appended, unqualified |
| TranslationCompare.Comparison.DescendCommon | utilities/translation/tfcomp.js:188-199 | the shared keys add what their nested comparisons add |
| TranslationCompare.Comparison.DescendKey | utilities/translation/tfcomp.js:189-197 | one shared key adds its nested comparison's misses when either value is a dictionary |
| TranslationCompare.Comparison.CollectMisses | utilities/translation/tfcomp.js:41-56 | the miss lists become the file pair's misses, and a file without a counterpart is recorded |
| TranslationCompare.Comparison.RecordMissingFile | utilities/translation/tfcomp.js:51-56 | a file without a counterpart is added to its language's missing-file list |
| TranslationCompare.Comparison.CompareBoth | utilities/translation/tfcomp.js:44-50 | the miss lists become the comparison of the two dictionaries |
| TranslationCompare.ReportList | utilities/translation/tfcomp.js:59-64 | a non-empty list is sorted and reported under its header |
| TranslationCompare.Comparison.ReportMisses | utilities/translation/tfcomp.js:58-72 | the two sections are appended and the lists sorted |
| TranslationCompare.Comparison.CompareFile | utilities/translation/tfcomp.js:38-73 | one file's report is appended and its missing file recorded |
| TranslationCompare.Comparison.CompareFiles | utilities/translation/tfcomp.js:38-73 | the reports of all files are appended in order, and the missing files are collected |
| TranslationCompare.Comparison.CompareNext | utilities/translation/tfcomp.js:38-73 | one more file extends the report and the missing-file lists |
| TranslationCompare.Comparison.ReportMissingFiles | utilities/translation/tfcomp.js:75-87 | the closing sections list the files each language lacks, sorted |
| TranslationCompare.FileReportEmpty | utilities/translation/tfcomp.js:58-72 | a file's report is empty exactly when it misses no key |
| TranslationCompare.FileReportsEmpty | utilities/translation/tfcomp.js:38-73 | the file reports are empty exactly when no file misses a key |
| TranslationCompare.ReportEmpty | utilities/translation/tfcomp.js:38-94 | the script reports nothing exactly when every file has its counterpart and misses no key |
| TranslationCompare.MissingFiles | utilities/translation/tfcomp.js:44-56 | the closing sections list exactly the French-only files and no English file |
| TranslationDicts.Keys | utilities/translation/tfcomp.js:146 | the keys of a dictionary, in order |
| TranslationDicts.ValueOf | utilities/translation/tfcomp.js:190-191 | the value of a present key |
| TranslationDicts.SortedKeys | utilities/translation/tfcomp.js:146-147 | the keys sorted, the same keys |
| TranslationDicts.KeysSorted | utilities/translation/tfsort.js:29 | the sorted keys are in ascending order |
| TranslationDicts.AsDict | utilities/translation/tfcomp.js:136-143 | a string compares as an empty dictionary |
| TranslationSort.OutputFile.constructor | utilities/translation/tfsort.js:67 | a freshly opened output file is empty |
| TranslationSort.OutputFile.Write | utilities/translation/tfsort.js:39-63 | a write appends the text |
| TranslationSort.Padding | utilities/translation/tfsort.js:19-25 | n spaces |
| TranslationSort.MaxLen | utilities/translation/tfsort.js:33-37 | the length of the longest key |
| TranslationSort.NSpaces | utilities/translation/tfsort.js:19-25 | the loop builds n spaces |
| TranslationSort.MaxKeyLen | utilities/translation/tfsort.js:30-37 | the loop finds the longest key's length |
| TranslationSort.WriteSortedDict | utilities/translation/tfsort.js:28-64 | the file gains the rendering of the dictionary with sorted keys |
| TranslationSort.WriteLine | utilities/translation/tfsort.js:40-62 | one entry's line is appended |
| TranslationSort.WriteEntry | utilities/translation/tfsort.js:43-61 | a nested dictionary is written recursively, a string as an aligned quoted line |
| TranslationSort.SortFile | utilities/translation/tfsort.js:67-72 | the file holds the rendering of the dictionary |
| TranslationSort.RenderShape | utilities/translation/tfsort.js:39-63 | the output is an opening brace, the entries, and a closing brace at the indent |
| TranslationSort.LinesJoin | utilities/translation/tfsort.js:40-62 | the entries are the sorted keys' lines joined by commas and newlines |
| TranslationSort.EntryKey | utilities/translation/tfsort.js:45-55 | each line starts with the indented, quoted key |
| TranslationSort.LeafLine | utilities/translation/tfsort.js:33-37 | a string value's colon is at the level's common column, after the padding |
| TranslationSort.SameWidth | utilities/translation/tfsort.js:29-37 | sorting the keys keeps the longest key's length, so the padding the script computes from the sorted keys aligns every string entry of the level |
| LotDuplicates.DuplicateLotsModal.constructor | client/src/modules/stock/lots/modals/duplicates.modal.js:9-20 | the dialog starts with the lot read and its duplicates as rows, none merged |
| LotDuplicates.DuplicateLotsModal.Startup | client/src/modules/stock/lots/modals/duplicates.modal.js:22-36 | the lot read is remembered and its duplicates listed, only it selected |
| LotDuplicates.DuplicateLotsModal.NewRows | client/src/modules/stock/lots/modals/duplicates.modal.js:29-33 | a fresh row per duplicate, in order |
| LotDuplicates.DuplicateLotsModal.SelectLot | client/src/modules/stock/lots/modals/duplicates.modal.js:38-44 | the chosen lot becomes the lot to keep, it alone is selected and it is not merged |
| LotDuplicates.DuplicateLotsModal.ChooseRow | client/src/modules/stock/lots/modals/duplicates.modal.js:40-43 | the loop marks the chosen row and clears its merge mark |
| LotDuplicates.DuplicateLotsModal.SetAllSelected | client/src/modules/stock/lots/modals/duplicates.modal.js:13 | the checkbox's binding changes and nothing else |
| LotDuplicates.DuplicateLotsModal.SelectAll | client/src/modules/stock/lots/modals/duplicates.modal.js:46-52 | every lot but the one to keep takes the checkbox's value |
| LotDuplicates.DuplicateLotsModal.MarkRows | client/src/modules/stock/lots/modals/duplicates.modal.js:47-51 | the loop sets the merge marks |
| LotDuplicates.DuplicateLotsModal.SetMerge | client/src/modules/stock/lots/modals/duplicates.modal.js:29-33 | the view's checkbox on one row changes just that row's merge mark, for any row including the lot to keep |
| LotDuplicates.DuplicateLotsModal.Submit | client/src/modules/stock/lots/modals/duplicates.modal.js:54-73 | nothing for an invalid form, a warning when no lot is marked, otherwise a merge request into the lot to keep; that lot is left out of the merge list whenever it is unmarked, as the controller's own steps leave it |
| LotDuplicates.StartRows | client/src/modules/stock/lots/modals/duplicates.modal.js:29-33 | one row per duplicate |
| LotDuplicates.MergeList | client/src/modules/stock/lots/modals/duplicates.modal.js:58-60 | exactly the uuids of the rows marked for merging; empty exactly when none is marked |
| LotDuplicates.SelectedKnown | client/src/modules/stock/lots/modals/duplicates.modal.js:22-67 | a non-empty merge list implies a lot to keep |
| LotDuplicates.TargetNotMerged | client/src/modules/stock/lots/modals/duplicates.modal.js:58-67 | for rows where the lot to keep is unmarked, it is not in the merge list |
| LotDuplicates.MergeListAppend | client/src/modules/stock/lots/modals/duplicates.modal.js:58-60 | the merge list keeps row order |
| LotDuplicates.StartupRows | client/src/modules/stock/lots/modals/duplicates.modal.js:29-33 | the rows are the duplicates in order, a row is selected exactly when its lot is the lot read, and none is merged |
| LotDuplicates.SelectExactlyOne | client/src/modules/stock/lots/modals/duplicates.modal.js:40-43 | with distinct uuids, exactly the chosen row is selected and it is not merged |
| LotDuplicates.SelectAllMarks | client/src/modules/stock/lots/modals/duplicates.modal.js:46-52 | checking marks every lot but the one to keep, unchecking clears every mark but the kept lot's, which stays as it was; lots and selection are untouched |
| LotDuplicates.StepsKeepTarget | client/src/modules/stock/lots/modals/duplicates.modal.js:38-52 | choosing a lot clears every mark, so the lot to keep is unmarked and nothing is to be merged |
| LotDuplicates.SubmitOutcomes | client/src/modules/stock/lots/modals/duplicates.modal.js:54-67 | the three outcomes of submit, with a valid merge request |
| LotDuplicates.SelectAllKeepsTarget | client/src/modules/stock/lots/modals/duplicates.modal.js:46-52 | the select-all checkbox never marks the lot to keep, so an unmarked lot to keep stays unmarked |
| LotDuplicates.KeptLotMarkedIsSent | client/src/modules/stock/lots/modals/duplicates.modal.js:54-67 | submit has no guard of its own: a lot to keep that the view marked is sent in its own merge list |
| Indicator.IndicatorController.constructor | client/src/js/components/bhIndicator/bhIndicator.js:6-23 | the bindings are set and the verdict is undefined |
| Indicator.IndicatorController.ApplyBoundRules | client/src/js/components/bhIndicator/bhIndicator.js:26-36 | the three rules in order |
| Indicator.IndicatorController.OnInit | client/src/js/components/bhIndicator/bhIndicator.js:25-41 | the verdict of `$onInit` |
| Indicator.IndicatorController.OnChanges | client/src/js/components/bhIndicator/bhIndicator.js:43-57 | for a change record that carries the current value, a truthy value with a bound is judged against the bounds and anything else leaves the verdict |
| Indicator.IndicatorController.SetValue | client/src/js/components/bhIndicator/bhIndicator.js:9 | the parent rebinds `value`; the bounds and the verdict stay |
| Indicator.IndicatorController.ValueChanged | client/src/js/components/bhIndicator/bhIndicator.js:43-57 | after `$onInit`, a new value followed by its `$onChanges` call: a truthy value with a bound gets a fresh verdict, anything else keeps the previous one |
| Indicator.StaleVerdict | client/src/js/components/bhIndicator/bhIndicator.js:43-57 | a value that was acceptable, changed to 0, keeps its old verdict although 0 is below the minimum |
| Indicator.InitDecides | client/src/js/components/bhIndicator/bhIndicator.js:26-40 | for a truthy value, `$onInit` decides exactly whether it lies within the given bounds |
| Indicator.InitWithoutBounds | client/src/js/components/bhIndicator/bhIndicator.js:38-40 | without bounds any value is acceptable |
| Indicator.InitFalsyValue | client/src/js/components/bhIndicator/bhIndicator.js:25-37 | with a bound, a falsy value leaves the verdict as it was |
| Indicator.ChangesDecide | client/src/js/components/bhIndicator/bhIndicator.js:43-57 | a change to a truthy value with a bound decides as `$onInit` does; otherwise the verdict stays |
| Indicator.ZeroMinimumIsABound | client/src/js/components/bhIndicator/bhIndicator.js:15-28 | a minimum of "0" is a bound, so a negative value is rejected |

## Left out

- JavaScript numbers are modelled as exact reals (`Money`, `Payslip`, `Vouchers`), so floating-point rounding, NaN and -0 are not modelled. A figure the code leaves undefined, or a sum that becomes NaN, is modelled as None.
- `util.roundDecimal` is not part of this model. `Money.RoundDecimal` follows its unit tests in test/server-unit/util.spec.js: halves round up.
- The payroll helpers of `common.js` (isPayrollTaxRubric, isCNSSRubric, isBenefitRubric) are not part of this model. They are parameters. `sumRubricValues` is taken as the sum of the rubric values.
- The translated descriptions (fmtI18nDescription), the shared voucher properties and the debug logging of the payroll postings are left out.
- `db.uuid()` becomes a counter: ids are numbered in the order they are requested, from a first id the caller passes.
- The database queries, the HTTP layer (`req`, `res`, `next`), the ReportManager and exchange-rate lookups, the mailer and `moment` date formatting are left out. Their results are parameters.
- The SQL text of the modelled queries is written with normalised whitespace.
- report.js: `keys`, `list`, `sendArchived`, `deleteArchived` and `barcodeLookup` are only database, filesystem and HTTP calls, so they are left out.
- payslipGenerator.js: the recomputed daily salary and daily worked value (lines 179-180) are left out.
- payslipGenerator.js: the index system's other profits (lines 187-197) are left out.
- payslipGenerator.js: the per-item ratePercentage, chargeEmployee and chargeEnterprise fields (lines 201, 215, 219) are left out.
- payslipGenerator.js: the holiday and off-day lists (lines 245-252) are left out.
- Payslip.Rate: exchange rates in the rate list are assumed positive; a zero rate, which the source would divide by to give Infinity, and a negative rate are outside the model.
- payslipGenerator.js: the currency fields (lines 73, 77, 257-262) and the parseInt of currency ids are left out.
- changes.js: a change state that is not an object, or a tag name that is not a string, is reported as an unmodelled failure instead of the JavaScript result.
- changes.js: `Object.keys`/`Object.entries` order is taken as insertion order. This assumes user names and record keys are not integer-like.
- changes.js: the column map of inventory labels is a parameter.
- Subscriptions.FindDetails / Subscriptions.UpdateSubscriptions: the source looks a table name up in a plain object literal, so inherited names such as `constructor` or `toString` are truthy and pass its unknown-key check. The model looks names up only among the declared tables and answers BadRequest for them.
- groups.js: the module-load `prepareQueries()` is modelled by the registry constructor. Transaction execution is left out: the model returns the queries.
- Indicator: the `value` binding is assumed to be a number, or undefined or null, and the attribute texts are assumed to read as numbers; a string value compared with an attribute text as strings, or a non-numeric text compared with a number, is not modelled. The other bindings (`key`, `label`, `valueSymbol`, `decimals`, `description`, `calcul`, `norm`, `dependencies` and `periodicValues`) only feed the view and are left out.
- LotDuplicates: the view's checkboxes are modelled only through `SetMerge` and `SetAllSelected`. The promises, `Notify`, `$translate`, closing the dialog, the success message and `cancel` are left out. Failed reads are None.
- GridPagination: only the API callbacks the service registers are modelled; the UI-grid internals are not.
- Translation utilities: file reads, `JSON.parse`, the command-line arguments, console output and the exit code are left out.
- Translation utilities: dictionary values are only strings and nested dictionaries; null, numbers and arrays are not modelled.
- TranslationDicts.ValueOf: a dictionary is assumed not to repeat a key, as every object `JSON.parse` yields; for a repeated key it reads the first entry, where `JSON.parse` keeps the last, and the rendering and miss lists would list the key twice.
- Translation utilities: `path.resolve(dir, name)` is simplified to the directory, a slash and the name.
- TranslationCompare.Comparison.constructor: the miss lists start empty, not null; the null initial state only matters before the first file.
- TranslationSort.SortFile: the re-read and `JSON.parse` check after writing, and the error callbacks, are left out.

=== FILE: archived_reports.dfy ===
/** The archived-report controller's own logic: the `%key%` templater of
    the notification email, the subject and attachment of that email, and the
    guard of the barcode redirect. The database lookup of the report, the
    date formatting, the mailer and the barcode lookup are outside the model:
    their results are parameters. */
module ArchivedReports {
  import opened Common
  import opened JsValues

  // ---------------------------------------------------------------------
  // String.prototype.replace with a string pattern
  // ---------------------------------------------------------------------

  /** `pat` occurs in `s` starting at `i`. */
  predicate OccursAt(s: string, pat: string, i: nat)
  {
    i + |pat| <= |s| && s[i..i + |pat|] == pat
  }

  /** `s.indexOf(pat, from)`: the first occurrence at or after `from`, or -1. */
  function IndexOfFrom(s: string, pat: string, from: nat): (r: int)
    requires from <= |s|
    decreases |s| - from
    ensures r == -1 || (from <= r <= |s| && OccursAt(s, pat, r))
    ensures r == -1 ==> forall i :: from <= i <= |s| ==> !OccursAt(s, pat, i)
    ensures r >= 0 ==> forall i :: from <= i < r ==> !OccursAt(s, pat, i)
  {
    if OccursAt(s, pat, from) then from
    else if from == |s| then -1
    else IndexOfFrom(s, pat, from + 1)
  }

  function IndexOf(s: string, pat: string): int
  {
    IndexOfFrom(s, pat, 0)
  }

  /** The replacement text of a match: `$$`, `$&`, `` $` `` and `$'` stand for a
      dollar, the match, the text before it and the text after it; a string
      pattern has no captures, so every other `$` is kept as it is. */
  function Expand(rep: string, matched: string, before: string, after: string): string
  {
    if rep == [] then ""
    else if rep[0] == '$' && |rep| >= 2 && rep[1] == '$' then "$" + Expand(rep[2..], matched, before, after)
    else if rep[0] == '$' && |rep| >= 2 && rep[1] == '&' then matched + Expand(rep[2..], matched, before, after)
    else if rep[0] == '$' && |rep| >= 2 && rep[1] == '`' then before + Expand(rep[2..], matched, before, after)
    else if rep[0] == '$' && |rep| >= 2 && rep[1] == '\'' then after + Expand(rep[2..], matched, before, after)
    else [rep[0]] + Expand(rep[1..], matched, before, after)
  }

  /** `s.replace(pat, rep)` with a string pattern: only the first occurrence
      is replaced. */
  function ReplaceFirst(s: string, pat: string, rep: string): string
  {
    var i := IndexOf(s, pat);
    if i < 0 then s
    else s[..i] + Expand(rep, pat, s[..i], s[i + |pat|..]) + s[i + |pat|..]
  }

  // ---------------------------------------------------------------------
  // template
  // ---------------------------------------------------------------------

  /** One property of the values object, in key order. */
  datatype TemplateValue = TemplateValue(key: string, value: string)

  function Placeholder(key: string): string
  {
    "%" + key + "%"
  }

  /** template(str, values): for each key in order, the first `%key%` of the
      text so far becomes the key's value. */
  function Template(str: string, values: seq<TemplateValue>): string
    decreases values
  {
    if values == [] then str
    else Template(ReplaceFirst(str, Placeholder(values[0].key), values[0].value), values[1..])
  }

  // ---------------------------------------------------------------------
  // emailArchived
  // ---------------------------------------------------------------------

  /** The archived report as the lookup returns it. */
  datatype ArchivedReport = ArchivedReport(reportLabel: string, link: string, displayName: string)

  datatype Attachment = Attachment(filename: string, path: string)

  /** What is handed to the mailer. */
  datatype Email = Email(address: string, subject: string, message: string, attachments: seq<Attachment>)

  const EmailOpening := "Hello!\n\nPlease find the attached report \""
  const EmailByUser := "\" produced by "
  const EmailOnDate := " on "
  const EmailRequestedBy := ".\n\nThis email was requested by "
  const EmailClosing := ".\n\nThanks,\nbhi.ma\n"

  /** REPORT_EMAIL, the body with its four placeholders. */
  const ReportEmail := Concat([EmailOpening, Placeholder("filename"), EmailByUser, Placeholder("user"),
    EmailOnDate, Placeholder("date"), EmailRequestedBy, Placeholder("requestor"), EmailClosing])

  /** The pieces of a text, one after the other. */
  function Concat(pieces: seq<string>): string
  {
    if pieces == [] then "" else pieces[0] + Concat(pieces[1..])
  }

  /** The template parameters, in the order the object literal lists them. */
  function Parameters(filename: string, date: string, user: string, requestor: string): seq<TemplateValue>
  {
    [TemplateValue("filename", filename), TemplateValue("date", date),
     TemplateValue("user", user), TemplateValue("requestor", requestor)]
  }

  /** emailArchived: `date` is the report's timestamp formatted as
      YYYY-MM-DD and `requestor` the display name of the session's user. */
  function EmailArchived(address: string, report: ArchivedReport, date: string, requestor: string): (e: Email)
    ensures e.address == address
    ensures e.subject == report.reportLabel + " - " + date
    ensures e.attachments == [Attachment(report.reportLabel + ".pdf", report.link)]
  {
    var filename := report.reportLabel + ".pdf";
    var message := Template(ReportEmail, Parameters(filename, date, report.displayName, requestor));
    Email(address, report.reportLabel + " - " + date, message, [Attachment(filename, report.link)])
  }

  // ---------------------------------------------------------------------
  // barcodeRedirect
  // ---------------------------------------------------------------------

  const NoRedirectMessage := "This barcode document does not support redirect"

  /** barcodeRedirect: the target of the redirect, given the barcode
      lookup's result. */
  function BarcodeRedirect(result: JsValue): (r: Result<JsValue, Thrown>)
    ensures r == Err(TypeError) <==> result == Undefined || result == Null
    ensures r == Err(BadRequest(NoRedirectMessage, None)) <==>
      GetProp(result, "_redirectPath").Some? && !Truthy(GetProp(result, "_redirectPath").value)
    ensures r.Ok? ==> result.Obj? && r.value == Lookup(result.props, "_redirectPath") && Truthy(r.value)
  {
    var path := GetProp(result, "_redirectPath");
    if path.None? then Err(TypeError)
    else if !Truthy(path.value) then Err(BadRequest(NoRedirectMessage, None))
    else Ok(path.value)
  }

  // ---------------------------------------------------------------------
  // Properties of the templater
  // ---------------------------------------------------------------------

  /** `String.prototype.replace` finds the first occurrence: the result is
      the text before it, the expanded replacement and the text after it;
      without an occurrence the text is unchanged. */
  lemma ReplaceFirstSpec(s: string, pat: string, rep: string)
    ensures (forall i :: 0 <= i <= |s| ==> !OccursAt(s, pat, i)) ==> ReplaceFirst(s, pat, rep) == s
    ensures forall i :: 0 <= i <= |s| && OccursAt(s, pat, i) && (forall j :: 0 <= j < i ==> !OccursAt(s, pat, j)) ==>
      ReplaceFirst(s, pat, rep) == s[..i] + Expand(rep, pat, s[..i], s[i + |pat|..]) + s[i + |pat|..]
  {
    var k := IndexOf(s, pat);
    forall i | 0 <= i <= |s| && OccursAt(s, pat, i) && (forall j :: 0 <= j < i ==> !OccursAt(s, pat, j))
      ensures ReplaceFirst(s, pat, rep) == s[..i] + Expand(rep, pat, s[..i], s[i + |pat|..]) + s[i + |pat|..]
    {
      assert k == i;
    }
  }

  /** Only the first occurrence is replaced: every later occurrence that does
      not overlap it is still there, shifted by the change in length. */
  lemma ReplaceOnlyFirst(s: string, pat: string, rep: string, i: nat, j: nat)
    requires i <= |s| && OccursAt(s, pat, i) && forall k :: 0 <= k < i ==> !OccursAt(s, pat, k)
    requires i + |pat| <= j && OccursAt(s, pat, j)
    ensures var e := Expand(rep, pat, s[..i], s[i + |pat|..]);
      OccursAt(ReplaceFirst(s, pat, rep), pat, j - |pat| + |e|)
  {
    assert IndexOf(s, pat) == i;
    var e := Expand(rep, pat, s[..i], s[i + |pat|..]);
    var tail := s[i + |pat|..];
    assert ReplaceFirst(s, pat, rep) == s[..i] + e + tail;
    OccursInSuffix(s, pat, i + |pat|, j);
    OccursAfter(s[..i] + e, tail, pat, j - i - |pat|);
  }

  lemma OccursInSuffix(s: string, pat: string, from: nat, j: nat)
    requires from <= j && OccursAt(s, pat, j)
    ensures OccursAt(s[from..], pat, j - from)
  {
    assert s[from..][j - from..j - from + |pat|] == s[j..j + |pat|];
  }

  lemma OccursAfter(head: string, tail: string, pat: string, t: nat)
    requires OccursAt(tail, pat, t)
    ensures OccursAt(head + tail, pat, |head| + t)
  {
    assert (head + tail)[|head| + t..|head| + t + |pat|] == tail[t..t + |pat|];
  }

  /** A replacement without `$` is inserted as it is. */
  lemma {:induction false} ExpandPlain(rep: string, matched: string, before: string, after: string)
    requires forall i :: 0 <= i < |rep| ==> rep[i] != '$'
    ensures Expand(rep, matched, before, after) == rep
  {
    if rep != [] {
      ExpandPlain(rep[1..], matched, before, after);
      assert rep == [rep[0]] + rep[1..];
    }
  }

  /** With no value, or when no key's placeholder occurs, the text is
      returned unchanged. */
  lemma {:induction false} TemplateUnchanged(str: string, values: seq<TemplateValue>)
    requires forall k, i :: 0 <= k < |values| && 0 <= i <= |str| ==> !OccursAt(str, Placeholder(values[k].key), i)
    ensures Template(str, values) == str
  {
    if values != [] {
      ReplaceFirstSpec(str, Placeholder(values[0].key), values[0].value);
      TemplateUnchanged(str, values[1..]);
    }
  }

  /** A value can bring in the placeholder of a later key, which is then
      replaced too: the result depends on the order of the keys. */
  lemma TemplateOrderMatters()
    ensures Template("%a%", [TemplateValue("a", "%b%"), TemplateValue("b", "x")]) == "x"
    ensures Template("%a%", [TemplateValue("b", "x"), TemplateValue("a", "%b%")]) == "%b%"
  {
    ReplaceWhole("%a%", "%b%");
    ReplaceWhole("%b%", "x");
    assert Placeholder("a") == "%a%" && Placeholder("b") == "%b%";
    assert !OccursAt("%a%", "%b%", 0);
    ReplaceFirstSpec("%a%", "%b%", "x");
  }

  /** A text that is exactly the pattern becomes the plain replacement. */
  lemma ReplaceWhole(pat: string, rep: string)
    requires forall i :: 0 <= i < |rep| ==> rep[i] != '$'
    ensures ReplaceFirst(pat, pat, rep) == rep
  {
    assert OccursAt(pat, pat, 0);
    ExpandPlain(rep, pat, [], []);
    assert pat[..0] == [] && pat[|pat|..] == [];
  }

  /** The `$&` of a value puts back the placeholder it replaces. */
  lemma DollarAmpersand()
    ensures Template("%a%", [TemplateValue("a", "$&")]) == "%a%"
  {
    assert OccursAt("%a%", "%a%", 0);
  }

  // ---------------------------------------------------------------------
  // The email body
  // ---------------------------------------------------------------------

  /** Every `%` of `a` has a next character in `a`, and it is not `c`. */
  predicate Guarded(a: string, c: char)
  {
    forall i :: 0 <= i < |a| && a[i] == '%' ==> i + 1 < |a| && a[i + 1] != c
  }

  predicate NoPercent(a: string)
  {
    forall i :: 0 <= i < |a| ==> a[i] != '%'
  }

  predicate Plain(v: string)
  {
    forall i :: 0 <= i < |v| ==> v[i] != '%' && v[i] != '$'
  }

  /** A placeholder right after a guarded text is its first occurrence, so
      a plain value takes its place. */
  lemma ReplaceAfterGuarded(a: string, key: string, c: string, v: string)
    requires key != [] && Guarded(a, key[0]) && Plain(v)
    ensures ReplaceFirst(a + (Placeholder(key) + c), Placeholder(key), v) == a + (v + c)
  {
    var p := Placeholder(key);
    var s := a + (p + c);
    assert OccursAt(s, p, |a|);
    assert p[0] == '%' && p[1] == key[0];
    forall j | 0 <= j < |a| ensures !OccursAt(s, p, j) {
      assert s[j] == a[j];
      if j + 1 < |a| {
        assert s[j + 1] == a[j + 1];
      }
    }
    assert IndexOf(s, p) == |a|;
    ExpandPlain(v, p, s[..|a|], s[|a| + |p|..]);
    assert s[..|a|] == a;
    assert s[|a| + |p|..] == c;
    AppendAssoc(a, v, c);
  }

  lemma GuardedAppend(a: string, b: string, c: char)
    requires Guarded(a, c) && Guarded(b, c)
    ensures Guarded(a + b, c)
  {
    forall i | 0 <= i < |a + b| && (a + b)[i] == '%' ensures i + 1 < |a + b| && (a + b)[i + 1] != c {
      if i >= |a| {
        assert (a + b)[i] == b[i - |a|];
      }
    }
  }

  lemma {:induction false} GuardedConcat(pieces: seq<string>, c: char)
    requires forall i :: 0 <= i < |pieces| ==> Guarded(pieces[i], c)
    ensures Guarded(Concat(pieces), c)
  {
    if pieces != [] {
      GuardedConcat(pieces[1..], c);
      GuardedAppend(pieces[0], Concat(pieces[1..]), c);
    }
  }

  /** A text is the pieces before one piece, that piece, and the pieces after. */
  lemma {:induction false} ConcatSplit(pieces: seq<string>, k: nat)
    requires k < |pieces|
    ensures Concat(pieces) == Concat(pieces[..k]) + (pieces[k] + Concat(pieces[k + 1..]))
  {
    if k == 0 {
      assert pieces[..0] == [] && pieces[1..] == pieces[k + 1..];
      EmptyAppend(pieces[0] + Concat(pieces[1..]));
    } else {
      var tail := pieces[1..];
      ConcatSplit(tail, k - 1);
      assert tail[..k - 1] == pieces[1..k] && tail[k - 1] == pieces[k] && tail[k..] == pieces[k + 1..];
      assert pieces[..k][0] == pieces[0] && pieces[..k][1..] == pieces[1..k];
      AppendAssoc(pieces[0], Concat(pieces[1..k]), pieces[k] + Concat(pieces[k + 1..]));
    }
  }

  /** A placeholder piece whose preceding text is guarded becomes the value. */
  lemma ReplacePiece(pieces: seq<string>, k: nat, key: string, v: string)
    requires k < |pieces| && pieces[k] == Placeholder(key) && key != []
    requires Guarded(Concat(pieces[..k]), key[0]) && Plain(v)
    ensures ReplaceFirst(Concat(pieces), Placeholder(key), v) == Concat(pieces[k := v])
  {
    var filled := pieces[k := v];
    ConcatSplit(pieces, k);
    ConcatSplit(filled, k);
    assert filled[..k] == pieces[..k] && filled[k + 1..] == pieces[k + 1..];
    ReplaceAfterGuarded(Concat(pieces[..k]), key, Concat(pieces[k + 1..]), v);
  }

  /** The four fills of the email body, for any texts around the
      placeholders that hold no `%`, the one after `%user%` not starting with
      the `d` of `%date%`. */
  lemma FillAll(t0: string, t1: string, t2: string, t3: string, t4: string,
                fn: string, date: string, user: string, requestor: string)
    requires NoPercent(t0) && NoPercent(t1) && NoPercent(t2) && NoPercent(t3) && t2 != [] && t2[0] != 'd'
    requires Plain(fn) && Plain(date) && Plain(user) && Plain(requestor)
    ensures Template(Concat([t0, Placeholder("filename"), t1, Placeholder("user"), t2, Placeholder("date"),
                             t3, Placeholder("requestor"), t4]), Parameters(fn, date, user, requestor))
      == Concat([t0, fn, t1, user, t2, date, t3, requestor, t4])
  {
    var pf, pu, pd, pr := Placeholder("filename"), Placeholder("user"), Placeholder("date"), Placeholder("requestor");
    FillFilename(t0, t1, t2, t3, t4, fn);
    FillDate(t0, t1, t2, t3, t4, fn, date);
    FillUser(t0, t1, t2, t3, t4, fn, date, user);
    FillRequestor(t0, t1, t2, t3, t4, fn, date, user, requestor);
    TemplateFour(Concat([t0, pf, t1, pu, t2, pd, t3, pr, t4]), Parameters(fn, date, user, requestor));
  }

  lemma FillFilename(t0: string, t1: string, t2: string, t3: string, t4: string, fn: string)
    requires NoPercent(t0) && Plain(fn)
    ensures var pu, pd, pr := Placeholder("user"), Placeholder("date"), Placeholder("requestor");
      ReplaceFirst(Concat([t0, Placeholder("filename"), t1, pu, t2, pd, t3, pr, t4]), Placeholder("filename"), fn)
      == Concat([t0, fn, t1, pu, t2, pd, t3, pr, t4])
  {
    var p0 := [t0, Placeholder("filename"), t1, Placeholder("user"), t2, Placeholder("date"), t3, Placeholder("requestor"), t4];
    assert p0[..1] == [t0];
    GuardedConcat([t0], 'f');
    ReplacePiece(p0, 1, "filename", fn);
    assert p0[1 := fn] == [t0, fn, t1, Placeholder("user"), t2, Placeholder("date"), t3, Placeholder("requestor"), t4];
  }

  lemma FillDate(t0: string, t1: string, t2: string, t3: string, t4: string, fn: string, date: string)
    requires NoPercent(t0) && NoPercent(t1) && NoPercent(t2) && t2 != [] && t2[0] != 'd'
    requires Plain(fn) && Plain(date)
    ensures var pu, pd, pr := Placeholder("user"), Placeholder("date"), Placeholder("requestor");
      ReplaceFirst(Concat([t0, fn, t1, pu, t2, pd, t3, pr, t4]), pd, date)
      == Concat([t0, fn, t1, pu, t2, date, t3, pr, t4])
  {
    var pu := Placeholder("user");
    var p1 := [t0, fn, t1, pu, t2, Placeholder("date"), t3, Placeholder("requestor"), t4];
    var before := p1[..5];
    assert before == [t0, fn, t1, pu, t2];
    assert before[..3] == [t0, fn, t1] && before[4..] == [t2];
    ConcatSplit(before, 3);
    GuardedConcat([t0, fn, t1], 'd');
    assert Guarded(pu + Concat([t2]), 'd') by {
      assert Concat([t2]) == t2 + "";
      var g := pu + Concat([t2]);
      assert pu == "%user%";
      forall i | 0 <= i < |g| && g[i] == '%' ensures i + 1 < |g| && g[i + 1] != 'd' {
      }
    }
    GuardedAppend(Concat([t0, fn, t1]), pu + Concat([t2]), 'd');
    ReplacePiece(p1, 5, "date", date);
    assert p1[5 := date] == [t0, fn, t1, pu, t2, date, t3, Placeholder("requestor"), t4];
  }

  lemma FillUser(t0: string, t1: string, t2: string, t3: string, t4: string, fn: string, date: string, user: string)
    requires NoPercent(t0) && NoPercent(t1) && Plain(fn) && Plain(user)
    ensures var pu, pr := Placeholder("user"), Placeholder("requestor");
      ReplaceFirst(Concat([t0, fn, t1, pu, t2, date, t3, pr, t4]), pu, user)
      == Concat([t0, fn, t1, user, t2, date, t3, pr, t4])
  {
    var p2 := [t0, fn, t1, Placeholder("user"), t2, date, t3, Placeholder("requestor"), t4];
    assert p2[..3] == [t0, fn, t1];
    GuardedConcat([t0, fn, t1], 'u');
    ReplacePiece(p2, 3, "user", user);
    assert p2[3 := user] == [t0, fn, t1, user, t2, date, t3, Placeholder("requestor"), t4];
  }

  lemma FillRequestor(t0: string, t1: string, t2: string, t3: string, t4: string,
                      fn: string, date: string, user: string, requestor: string)
    requires NoPercent(t0) && NoPercent(t1) && NoPercent(t2) && NoPercent(t3)
    requires Plain(fn) && Plain(date) && Plain(user) && Plain(requestor)
    ensures ReplaceFirst(Concat([t0, fn, t1, user, t2, date, t3, Placeholder("requestor"), t4]), Placeholder("requestor"), requestor)
      == Concat([t0, fn, t1, user, t2, date, t3, requestor, t4])
  {
    var p3 := [t0, fn, t1, user, t2, date, t3, Placeholder("requestor"), t4];
    assert p3[..7] == [t0, fn, t1, user, t2, date, t3];
    GuardedConcat(p3[..7], 'r');
    ReplacePiece(p3, 7, "requestor", requestor);
    assert p3[7 := requestor] == [t0, fn, t1, user, t2, date, t3, requestor, t4];
  }

  /** The notification text: when the label and the three names hold no `%`
      and no `$`, each appears in place of its placeholder. */
  lemma EmailMessage(address: string, report: ArchivedReport, date: string, requestor: string)
    requires Plain(report.reportLabel) && Plain(report.displayName) && Plain(date) && Plain(requestor)
    ensures EmailArchived(address, report, date, requestor).message ==
      Concat([EmailOpening, report.reportLabel + ".pdf", EmailByUser, report.displayName, EmailOnDate, date,
              EmailRequestedBy, requestor, EmailClosing])
  {
    var fn := report.reportLabel + ".pdf";
    assert Plain(fn) by {
      forall i | 0 <= i < |fn| ensures fn[i] != '%' && fn[i] != '$' {
        if i >= |report.reportLabel| {
          assert fn[i] == ".pdf"[i - |report.reportLabel|];
        }
      }
    }
    EmailTexts();
    FillAll(EmailOpening, EmailByUser, EmailOnDate, EmailRequestedBy, EmailClosing,
            fn, date, report.displayName, requestor);
  }

  lemma EmailTexts()
    ensures NoPercent(EmailOpening) && NoPercent(EmailByUser) && NoPercent(EmailOnDate)
    ensures NoPercent(EmailRequestedBy) && EmailOnDate != [] && EmailOnDate[0] != 'd'
  {
  }

  /** Four values are four replacements in turn. */
  lemma TemplateFour(str: string, values: seq<TemplateValue>)
    requires |values| == 4
    ensures Template(str, values) ==
      ReplaceFirst(ReplaceFirst(ReplaceFirst(ReplaceFirst(str,
        Placeholder(values[0].key), values[0].value),
        Placeholder(values[1].key), values[1].value),
        Placeholder(values[2].key), values[2].value),
        Placeholder(values[3].key), values[3].value)
  {
    var s1 := ReplaceFirst(str, Placeholder(values[0].key), values[0].value);
    var s2 := ReplaceFirst(s1, Placeholder(values[1].key), values[1].value);
    var s3 := ReplaceFirst(s2, Placeholder(values[2].key), values[2].value);
    var s4 := ReplaceFirst(s3, Placeholder(values[3].key), values[3].value);
    assert Template(str, values) == Template(s1, values[1..]);
    assert Template(s1, values[1..]) == Template(s2, values[2..]);
    assert Template(s2, values[2..]) == Template(s3, values[3..]);
    assert Template(s3, values[3..]) == Template(s4, []);
  }
}

=== FILE: common.dfy ===
/** Shared value types: optional values, results with an error, and the
    sequence helpers (filter, sum) that several modules use. */
module Common {

  datatype Option<+T> = None | Some(value: T)

  datatype Result<+T, +E> = Ok(value: T) | Err(error: E)

  /** Order-preserving filter, as JavaScript's Array.prototype.filter. */
  function Filter<T>(s: seq<T>, p: T -> bool): (r: seq<T>)
    ensures |r| <= |s|
    ensures forall x :: x in r ==> x in s && p(x)
    ensures forall x :: x in s && p(x) ==> x in r
  {
    if s == [] then [] else (if p(s[0]) then [s[0]] else []) + Filter(s[1..], p)
  }

  lemma {:induction false} FilterAppend<T>(a: seq<T>, b: seq<T>, p: T -> bool)
    ensures Filter(a + b, p) == Filter(a, p) + Filter(b, p)
  {
    if a == [] {
      assert a + b == b;
    } else {
      assert (a + b)[1..] == a[1..] + b;
      FilterAppend(a[1..], b, p);
    }
  }

  /** Filtering the prefix `s[..i+1]` adds `s[i]` when it passes. */
  lemma FilterSnoc<T>(s: seq<T>, i: nat, p: T -> bool)
    requires i < |s|
    ensures Filter(s[..i + 1], p) == Filter(s[..i], p) + (if p(s[i]) then [s[i]] else [])
  {
    assert s[..i + 1] == s[..i] + [s[i]];
    FilterAppend(s[..i], [s[i]], p);
  }

  /** A filter that no element passes yields the empty sequence, and one that
      every element passes yields the input. */
  lemma {:induction false} FilterAllOrNone<T>(s: seq<T>, p: T -> bool)
    ensures (forall i :: 0 <= i < |s| ==> !p(s[i])) ==> Filter(s, p) == []
    ensures (forall i :: 0 <= i < |s| ==> p(s[i])) ==> Filter(s, p) == s
  {
    if s != [] {
      FilterAllOrNone(s[1..], p);
      assert forall i :: 0 <= i < |s[1..]| ==> s[1..][i] == s[i + 1];
    }
  }

  /** Filtering by a predicate and by its complement splits the elements
      between the two results. */
  lemma {:induction false} FilterSplit<T>(s: seq<T>, p: T -> bool, q: T -> bool)
    requires forall x :: q(x) == !p(x)
    ensures multiset(Filter(s, p)) + multiset(Filter(s, q)) == multiset(s)
  {
    if s != [] {
      FilterSplit(s[1..], p, q);
      SplitStep(s, Filter(s[1..], p), Filter(s[1..], q), Filter(s, p), Filter(s, q), p(s[0]));
    }
  }

  /** One step of FilterSplit: the head joins exactly one of the two sides. */
  lemma SplitStep<T>(s: seq<T>, a: seq<T>, b: seq<T>, fa: seq<T>, fb: seq<T>, inA: bool)
    requires s != []
    requires multiset(a) + multiset(b) == multiset(s[1..])
    requires fa == (if inA then [s[0]] else []) + a
    requires fb == (if inA then [] else [s[0]]) + b
    ensures multiset(fa) + multiset(fb) == multiset(s)
  {
    assert s == [s[0]] + s[1..];
  }

  /** A rearrangement of a filter's result holds only elements that pass. */
  lemma FilterRearranged<T>(s: seq<T>, p: T -> bool, t: seq<T>)
    requires multiset(t) == multiset(Filter(s, p))
    ensures forall x :: x in t ==> p(x)
  {
    forall x | x in t ensures p(x) {
      assert x in multiset(Filter(s, p));
    }
  }

  /** Sum of a real-valued measure over a sequence. */
  function SumOf<T>(s: seq<T>, f: T -> real): real
  {
    if s == [] then 0.0 else f(s[0]) + SumOf(s[1..], f)
  }

  lemma {:induction false} SumOfAppend<T>(a: seq<T>, b: seq<T>, f: T -> real)
    ensures SumOf(a + b, f) == SumOf(a, f) + SumOf(b, f)
  {
    if a == [] {
      assert a + b == b;
    } else {
      assert (a + b)[1..] == a[1..] + b;
      SumOfAppend(a[1..], b, f);
    }
  }

  lemma SumOfPair<T>(a: T, b: T, f: T -> real)
    ensures SumOf([a, b], f) == f(a) + f(b)
  {
    assert [a, b][1..] == [b];
    assert [b][1..] == [];
    assert SumOf([b], f) == f(b) + SumOf([], f);
  }

  lemma SumOfSnoc<T>(s: seq<T>, i: nat, f: T -> real)
    requires i < |s|
    ensures SumOf(s[..i + 1], f) == SumOf(s[..i], f) + f(s[i])
  {
    assert s[..i + 1] == s[..i] + [s[i]];
    SumOfAppend(s[..i], [s[i]], f);
  }

  /** The strings `f` gives for the elements, concatenated in order. */
  function ConcatMap<T>(s: seq<T>, f: T -> string): string
  {
    if s == [] then "" else ConcatMap(s[..|s| - 1], f) + f(s[|s| - 1])
  }

  /** A concatenation is empty exactly when every part is. */
  lemma {:induction false} ConcatMapEmpty<T>(s: seq<T>, f: T -> string)
    ensures ConcatMap(s, f) == "" <==> forall i :: 0 <= i < |s| ==> f(s[i]) == ""
  {
    if s != [] {
      var init, last := s[..|s| - 1], s[|s| - 1];
      ConcatMapEmpty(init, f);
      assert |ConcatMap(s, f)| == |ConcatMap(init, f)| + |f(last)|;
      assert forall i :: 0 <= i < |init| ==> init[i] == s[i];
    }
  }

  /** Concatenation is associative; stated for the places where the solver
      would otherwise have to find it on its own. */
  lemma AppendAssoc<T>(a: seq<T>, b: seq<T>, c: seq<T>)
    ensures a + b + c == a + (b + c)
  {
  }

  /** A prefix one longer is the prefix and the next element. */
  lemma PrefixSnoc<T>(s: seq<T>, i: nat)
    requires i < |s|
    ensures s[..i + 1] == s[..i] + [s[i]]
  {
  }

  /** The two unit laws of concatenation, called where a sequence built by
      appending to an empty accumulator must be matched to its parts. */
  lemma EmptyAppend<T>(s: seq<T>)
    ensures [] + s == s
  {
  }

  lemma AppendEmpty<T>(s: seq<T>)
    ensures s + [] == s
  {
  }

  /** The complement of a predicate. */
  function Not<T>(p: T -> bool): T -> bool
  {
    x => !p(x)
  }

  /** The sum over the two halves of a partition by `p` is the whole sum. */
  lemma {:induction false} SumOfPartition<T>(s: seq<T>, p: T -> bool, f: T -> real)
    ensures SumOf(Filter(s, p), f) + SumOf(Filter(s, Not(p)), f) == SumOf(s, f)
  {
    if s != [] {
      SumOfPartition(s[1..], p, f);
      assert Not(p)(s[0]) == !p(s[0]);
      assert SumOf([s[0]], f) == f(s[0]) by { assert [s[0]][1..] == []; }
      if p(s[0]) {
        assert Filter(s, p) == [s[0]] + Filter(s[1..], p);
        assert Filter(s, Not(p)) == Filter(s[1..], Not(p));
        SumOfAppend([s[0]], Filter(s[1..], p), f);
      } else {
        assert Filter(s, p) == Filter(s[1..], p);
        assert Filter(s, Not(p)) == [s[0]] + Filter(s[1..], Not(p));
        SumOfAppend([s[0]], Filter(s[1..], Not(p)), f);
      }
    }
  }

  /** Filtering twice is filtering once by the conjunction. */
  lemma {:induction false} FilterFilter<T>(s: seq<T>, p: T -> bool, q: T -> bool, pq: T -> bool)
    requires forall x :: pq(x) == (p(x) && q(x))
    ensures Filter(Filter(s, p), q) == Filter(s, pq)
  {
    if s != [] {
      FilterFilter(s[1..], p, q, pq);
      var rest := Filter(s[1..], p);
      if p(s[0]) {
        assert Filter(s, p) == [s[0]] + rest;
        assert ([s[0]] + rest)[1..] == rest;
        assert Filter([s[0]] + rest, q) == (if q(s[0]) then [s[0]] else []) + Filter(rest, q);
      } else {
        assert Filter(s, p) == rest;
      }
      assert Filter(s, pq) == (if pq(s[0]) then [s[0]] else []) + Filter(s[1..], pq);
    }
  }
}

=== FILE: grid_pagination.dfy ===
/** The transaction-respecting pagination of the client's data grids:
    client/src/js/services/grid/GridPagination.js */
module GridPagination {
  import opened Common

  /** The page size and the page sizes offered by the grid. */
  const PAGE_SIZE: int := 25
  const PAGE_SIZES: seq<int> := [25, 50, 75, 100]
  /** The page `fetchPage` loads first in external mode. */
  const FIRST_PAGE: int := 1

  /** A journal row: the grid only looks at its transaction id. */
  datatype Row = Row(uuid: nat, transId: string)

  // ---------------------------------------------------------------------
  // Array.prototype.slice

  /** A `slice` bound: a negative one counts back from the end; the result is
      clamped to the array. */
  function SliceIndex(i: int, len: nat): (k: nat)
    ensures k <= len
    ensures 0 <= i <= len ==> k == i
    ensures i > len ==> k == len
    ensures i < 0 ==> k == (if len + i < 0 then 0 else len + i)
  {
    if i < 0 then (if len + i < 0 then 0 else len + i)
    else if i > len then len
    else i
  }

  /** `s.slice(start, end)`. */
  function Slice<T>(s: seq<T>, start: int, end: int): seq<T>
  {
    var b := SliceIndex(start, |s|);
    var e := SliceIndex(end, |s|);
    if b < e then s[b..e] else []
  }

  /** A slice whose end does not precede its start never holds more than
      `end - start` elements, and for non-negative bounds it is the elements
      from `start` up to `end`, both cut at the end of the array. */
  lemma SliceLength<T>(s: seq<T>, start: int, end: int)
    requires start <= end
    ensures |Slice(s, start, end)| <= end - start
    ensures 0 <= start ==>
      Slice(s, start, end) == (if start < |s| then s[start..(if end < |s| then end else |s|)] else [])
  {
  }

  // ---------------------------------------------------------------------
  // The page computed by fetchPage (lines 53-84)

  function OutsideTransaction(transId: string): Row -> bool
  {
    (row: Row) => row.transId != transId
  }

  /** Whether the row at the page's upper bound and the one after it exist and
      belong to the same transaction, i.e. a transaction runs past the page. */
  predicate SplitAtBoundary(transactions: seq<Row>, newPage: int)
  {
    var upperBound := (newPage - 1) * PAGE_SIZE + PAGE_SIZE;
    0 <= upperBound && upperBound + 1 < |transactions|
    && transactions[upperBound].transId == transactions[upperBound + 1].transId
  }

  /** The rows of page `newPage`: the optimistic slice, less every row of the
      transaction that runs past its upper bound. */
  function PageOf(transactions: seq<Row>, newPage: int): seq<Row>
  {
    var start := (newPage - 1) * PAGE_SIZE;
    var slice := Slice(transactions, start, start + PAGE_SIZE);
    if SplitAtBoundary(transactions, newPage)
    then Filter(slice, OutsideTransaction(transactions[newPage * PAGE_SIZE].transId))
    else slice
  }

  /** The comparison element exists only at a non-negative index, so the
      upper-bound element exists whenever it does: the page is well defined
      for every page number. */
  lemma UpperBoundDefined(transactions: seq<Row>, newPage: int)
    requires 0 <= (newPage - 1) * PAGE_SIZE + PAGE_SIZE + 1 < |transactions|
    ensures 0 <= (newPage - 1) * PAGE_SIZE + PAGE_SIZE == newPage * PAGE_SIZE
  {
  }

  /** Page `newPage` (counted from 1) begins at row (newPage - 1) * 25: its
      slice is the rows from there up to 25 further, cut at the end. */
  lemma PageStart(transactions: seq<Row>, newPage: int)
    requires newPage >= 1
    ensures var start := (newPage - 1) * PAGE_SIZE;
      var slice := Slice(transactions, start, start + PAGE_SIZE);
      && start >= 0
      && slice == (if start < |transactions|
                   then transactions[start..(if start + PAGE_SIZE < |transactions| then start + PAGE_SIZE else |transactions|)]
                   else [])
  {
    SliceLength(transactions, (newPage - 1) * PAGE_SIZE, (newPage - 1) * PAGE_SIZE + PAGE_SIZE);
  }

  /** A page is the slice, or the slice less the rows of the transaction at its
      upper bound exactly when that transaction also holds the next row; in
      either case it keeps the slice's order and holds at most 25 rows. */
  lemma PageShape(transactions: seq<Row>, newPage: int)
    ensures var start := (newPage - 1) * PAGE_SIZE;
      var slice := Slice(transactions, start, start + PAGE_SIZE);
      var page := PageOf(transactions, newPage);
      && |page| <= |slice| <= PAGE_SIZE
      && (!SplitAtBoundary(transactions, newPage) ==> page == slice)
      && (SplitAtBoundary(transactions, newPage) ==>
            var cut := transactions[newPage * PAGE_SIZE].transId;
            && page == Filter(slice, OutsideTransaction(cut))
            && (forall row :: row in page ==> row in slice && row.transId != cut)
            && (forall row :: row in slice && row.transId != cut ==> row in page))
  {
    var start := (newPage - 1) * PAGE_SIZE;
    SliceLength(transactions, start, start + PAGE_SIZE);
    if SplitAtBoundary(transactions, newPage) {
      var cut := transactions[newPage * PAGE_SIZE].transId;
      forall row ensures OutsideTransaction(cut)(row) == (row.transId != cut) { }
    }
  }

  /** A row whose transaction is split at the boundary never appears on the
      page, even when it lies inside the slice; in particular a transaction
      longer than a page empties it. */
  lemma SplitTransactionLeavesPage(transactions: seq<Row>, newPage: int)
    requires newPage >= 1
    requires SplitAtBoundary(transactions, newPage)
    requires forall i :: (newPage - 1) * PAGE_SIZE <= i < newPage * PAGE_SIZE ==>
      transactions[i].transId == transactions[newPage * PAGE_SIZE].transId
    ensures PageOf(transactions, newPage) == []
  {
    var start := (newPage - 1) * PAGE_SIZE;
    var slice := Slice(transactions, start, start + PAGE_SIZE);
    var cut := transactions[newPage * PAGE_SIZE].transId;
    PageStart(transactions, newPage);
    assert slice == transactions[start..start + PAGE_SIZE];
    forall k | 0 <= k < |slice| ensures !OutsideTransaction(cut)(slice[k]) {
      assert slice[k] == transactions[start + k];
    }
    FilterAllOrNone(slice, OutsideTransaction(cut));
  }

  // ---------------------------------------------------------------------
  // Grid options and the service's module state (lines 27-41, 86-114)

  /** The grid API object handed to `onRegisterApi`. */
  datatype Api = Api(id: nat)

  /** What a grid's `onRegisterApi` holds: nothing, a callback of the page
      (named by an id), or the service's wrapper around the callback it found. */
  datatype ApiCallback = Absent | PageCallback(id: nat) | PaginationHook(cached: ApiCallback)

  class GridOptions {
    var data: seq<Row>
    var totalItems: int
    var paginationPageSize: int
    var paginationPageSizes: seq<int>
    var useExternalPagination: bool
    var onRegisterApi: ApiCallback

    constructor(onRegisterApi: ApiCallback)
      ensures this.onRegisterApi == onRegisterApi
      ensures data == [] && paginationPageSizes == [] && !useExternalPagination
    {
      this.onRegisterApi := onRegisterApi;
      data := [];
      totalItems := 0;
      paginationPageSize := 0;
      paginationPageSizes := [];
      useExternalPagination := false;
    }
  }

  /** The service's closure: the grid it was last attached to, that grid's
      transactions, and the grid API it was last given. */
  class PaginationService {
    /** Fixed to false: the grids use the library's own pagination. */
    const useExternalPagination: bool
    var gridApi: Option<Api>
    var serviceGridOptions: GridOptions?
    var serviceTransactions: seq<Row>
    /** Whether `fetchPage` has been bound to the API's page-change event. */
    var fetchPageBound: bool

    constructor()
      ensures !useExternalPagination
      ensures gridApi == None && serviceGridOptions == null && serviceTransactions == [] && !fetchPageBound
    {
      useExternalPagination := false;
      gridApi := None;
      serviceGridOptions := null;
      serviceTransactions := [];
      fetchPageBound := false;
    }

    /** fetchPage: shows page `newPage` of the service's transactions on the
        service's grid; the transactions themselves are left as they are. */
    method FetchPage(newPage: int)
      requires serviceGridOptions != null
      modifies serviceGridOptions
      ensures serviceGridOptions.data == PageOf(serviceTransactions, newPage)
      ensures serviceGridOptions.totalItems == |serviceTransactions|
      ensures serviceGridOptions.paginationPageSize == |serviceGridOptions.data| <= PAGE_SIZE
      ensures serviceGridOptions.paginationPageSizes == [|serviceGridOptions.data|]
      ensures serviceGridOptions.useExternalPagination == old(serviceGridOptions.useExternalPagination)
      ensures serviceGridOptions.onRegisterApi == old(serviceGridOptions.onRegisterApi)
    {
      var pageSize := PAGE_SIZE;
      var currentRowIndex := (newPage - 1) * pageSize;
      var data := Slice(serviceTransactions, currentRowIndex, currentRowIndex + pageSize);

      var upperBound := currentRowIndex + pageSize;
      if 0 <= upperBound + 1 < |serviceTransactions| {
        UpperBoundDefined(serviceTransactions, newPage);
        var upperBoundElement := serviceTransactions[upperBound];
        var comparisonElement := serviceTransactions[upperBound + 1];
        if upperBoundElement.transId == comparisonElement.transId {
          data := Filter(data, OutsideTransaction(upperBoundElement.transId));
        }
      }

      PageShape(serviceTransactions, newPage);
      serviceGridOptions.data := data;
      serviceGridOptions.totalItems := |serviceTransactions|;
      serviceGridOptions.paginationPageSize := |data|;
      serviceGridOptions.paginationPageSizes := [|data|];
    }

    /** paginationInstance: remembers the grid and its transactions and wraps
        the grid's `onRegisterApi` callback. */
    method PaginationInstance(gridOptions: GridOptions, transactions: seq<Row>)
      modifies this, gridOptions
      ensures serviceGridOptions == gridOptions && serviceTransactions == transactions
      ensures gridApi == old(gridApi) && fetchPageBound == old(fetchPageBound)
      ensures gridOptions.onRegisterApi == PaginationHook(old(gridOptions.onRegisterApi))
      ensures gridOptions.data == old(gridOptions.data)
      ensures gridOptions.paginationPageSize == old(gridOptions.paginationPageSize)
      ensures gridOptions.paginationPageSizes == old(gridOptions.paginationPageSizes)
      ensures gridOptions.useExternalPagination == old(gridOptions.useExternalPagination)
    {
      var cacheGridApi := gridOptions.onRegisterApi;
      serviceGridOptions := gridOptions;
      serviceTransactions := transactions;
      gridOptions.onRegisterApi := PaginationHook(cacheGridApi);
    }

    /** The wrapper installed by paginationInstance, called by the grid with
        its API: it sets the standard page sizes on the grid it was created
        for, loads the first page in external mode, and returns the callback
        it wrapped for the caller to run next (None when there was none). */
    method RegisterApi(gridOptions: GridOptions, cached: ApiCallback, api: Api) returns (next: Option<ApiCallback>)
      requires serviceGridOptions != null
      modifies this, gridOptions, serviceGridOptions
      ensures gridApi == Some(api)
      ensures serviceGridOptions == old(serviceGridOptions) && serviceTransactions == old(serviceTransactions)
      ensures next == (if cached == Absent then None else Some(cached))
      ensures !useExternalPagination ==>
        && gridOptions.paginationPageSizes == PAGE_SIZES && gridOptions.paginationPageSize == PAGE_SIZE
        && gridOptions.data == old(gridOptions.data) && gridOptions.totalItems == old(gridOptions.totalItems)
        && serviceGridOptions.data == old(serviceGridOptions.data)
        && serviceGridOptions.totalItems == old(serviceGridOptions.totalItems)
        && gridOptions.useExternalPagination == old(gridOptions.useExternalPagination)
        && fetchPageBound == old(fetchPageBound)
      ensures useExternalPagination ==>
        && gridOptions.useExternalPagination
        && fetchPageBound
        && serviceGridOptions.data == PageOf(serviceTransactions, FIRST_PAGE)
    {
      gridApi := Some(api);
      gridOptions.paginationPageSizes := PAGE_SIZES;
      gridOptions.paginationPageSize := PAGE_SIZE;

      if useExternalPagination {
        gridOptions.useExternalPagination := true;
        fetchPageBound := true;
        FetchPage(FIRST_PAGE);
      }

      next := if cached != Absent then Some(cached) else None;
    }
  }
}

=== FILE: indicator.dfy ===
/** The indicator component's verdict on its value: `isAcceptable` says
    whether the value lies within the optional minimum and maximum. The
    value binding is a number, or undefined or null (None); it is truthy
    when it is a non-zero number. A bound is an attribute text: absent or
    empty (None, falsy), or the text of a number, which is truthy even when
    it reads "0" and is compared with the value as a number. The verdict
    itself is undefined (None) until one of the rules assigns it. */
module Indicator {
  import opened Common

  predicate TruthyNumber(v: Option<real>)
  {
    v.Some? && v.value != 0.0
  }

  /** The value lies within the bounds that are given. */
  predicate WithinBounds(v: real, minValue: Option<real>, maxValue: Option<real>)
  {
    (minValue.None? || v >= minValue.value) && (maxValue.None? || v <= maxValue.value)
  }

  /** The three bound rules that `$onInit` and `$onChanges` share, applied in
      order to the current verdict. */
  function BoundRules(value: Option<real>, minValue: Option<real>, maxValue: Option<real>, current: Option<bool>): Option<bool>
  {
    var afterMin := if TruthyNumber(value) && minValue.Some? && maxValue.None? then Some(value.value >= minValue.value) else current;
    var afterMax := if TruthyNumber(value) && minValue.None? && maxValue.Some? then Some(value.value <= maxValue.value) else afterMin;
    if TruthyNumber(value) && minValue.Some? && maxValue.Some? then Some(value.value >= minValue.value && value.value <= maxValue.value)
    else afterMax
  }

  /** `$onInit`: the bound rules, then any value is acceptable without bounds. */
  function InitVerdict(value: Option<real>, minValue: Option<real>, maxValue: Option<real>, current: Option<bool>): Option<bool>
  {
    if minValue.None? && maxValue.None? then Some(true) else BoundRules(value, minValue, maxValue, current)
  }

  /** A change of the value binding, as `$onChanges` receives it. */
  datatype Change = Change(currentValue: Option<real>)

  /** The bindings a `$onChanges` call reports: only the value's is read. */
  datatype Changes = Changes(value: Option<Change>)

  /** `$onChanges`: the bound rules, only for a change to a truthy value. */
  function ChangesVerdict(changes: Changes, value: Option<real>, minValue: Option<real>, maxValue: Option<real>, current: Option<bool>): Option<bool>
  {
    if changes.value.Some? && TruthyNumber(changes.value.value.currentValue) then BoundRules(value, minValue, maxValue, current)
    else current
  }

  class IndicatorController {
    var value: Option<real>
    var minValue: Option<real>
    var maxValue: Option<real>
    var isAcceptable: Option<bool>

    /** The controller with its bindings; the verdict is undefined. */
    constructor(value: Option<real>, minValue: Option<real>, maxValue: Option<real>)
      ensures this.value == value && this.minValue == minValue && this.maxValue == maxValue
      ensures isAcceptable == None
    {
      this.value := value;
      this.minValue := minValue;
      this.maxValue := maxValue;
      isAcceptable := None;
    }

    /** The three bound rules, one assignment after another. */
    method ApplyBoundRules()
      modifies this
      ensures isAcceptable == BoundRules(value, minValue, maxValue, old(isAcceptable))
      ensures value == old(value) && minValue == old(minValue) && maxValue == old(maxValue)
    {
      if TruthyNumber(value) && minValue.Some? && maxValue.None? {
        isAcceptable := Some(value.value >= minValue.value);
      }
      if TruthyNumber(value) && minValue.None? && maxValue.Some? {
        isAcceptable := Some(value.value <= maxValue.value);
      }
      if TruthyNumber(value) && minValue.Some? && maxValue.Some? {
        isAcceptable := Some(value.value >= minValue.value && value.value <= maxValue.value);
      }
    }

    /** `$onInit`. */
    method OnInit()
      modifies this
      ensures isAcceptable == InitVerdict(value, minValue, maxValue, old(isAcceptable))
      ensures value == old(value) && minValue == old(minValue) && maxValue == old(maxValue)
    {
      ApplyBoundRules();
      if minValue.None? && maxValue.None? {
        isAcceptable := Some(true);
      }
    }

    /** The framework's write of the one-way `value` binding when the
        parent's expression changes; nothing else changes. */
    method SetValue(v: Option<real>)
      modifies this
      ensures value == v && isAcceptable == old(isAcceptable)
      ensures minValue == old(minValue) && maxValue == old(maxValue)
    {
      value := v;
    }

    /** A digest that moves the value binding after `$onInit`: the framework
        stores the new value, then calls `$onChanges` with it. A new truthy
        value with some bound is judged afresh; a new falsy value (0,
        undefined or null) leaves the previous verdict in place, even though
        it was about the old value. */
    method ValueChanged(v: Option<real>)
      modifies this
      ensures value == v && minValue == old(minValue) && maxValue == old(maxValue)
      ensures TruthyNumber(v) && (minValue.Some? || maxValue.Some?) ==>
        isAcceptable == Some(WithinBounds(v.value, minValue, maxValue))
      ensures !TruthyNumber(v) || (minValue.None? && maxValue.None?) ==> isAcceptable == old(isAcceptable)
    {
      SetValue(v);
      OnChanges(Changes(Some(Change(v))));
      ChangesDecide(Changes(Some(Change(v))), v, minValue, maxValue, old(isAcceptable));
    }

    /** `$onChanges`: the framework has already stored a changed value in the
        binding when it reports the change. */
    method OnChanges(changes: Changes)
      requires changes.value.Some? ==> changes.value.value.currentValue == value
      modifies this
      ensures isAcceptable == ChangesVerdict(changes, value, minValue, maxValue, old(isAcceptable))
      ensures value == old(value) && minValue == old(minValue) && maxValue == old(maxValue)
    {
      if changes.value.Some? && TruthyNumber(changes.value.value.currentValue) {
        ApplyBoundRules();
      }
    }
  }

  // ---------------------------------------------------------------------
  // Properties
  // ---------------------------------------------------------------------

  /** For a truthy value, whichever bounds are given, `$onInit` decides
      exactly whether the value lies within them: `value >= min` with a
      minimum only, `value <= max` with a maximum only, both with both, and
      acceptable with neither. */
  lemma InitDecides(value: Option<real>, minValue: Option<real>, maxValue: Option<real>, current: Option<bool>)
    requires TruthyNumber(value)
    ensures InitVerdict(value, minValue, maxValue, current) == Some(WithinBounds(value.value, minValue, maxValue))
  {
  }

  /** Without bounds `$onInit` accepts any value, zero and undefined too. */
  lemma InitWithoutBounds(value: Option<real>, current: Option<bool>)
    ensures InitVerdict(value, None, None, current) == Some(true)
  {
  }

  /** With some bound, a falsy value (0, undefined or null) leaves the
      verdict as it was, so a fresh controller's stays undefined. */
  lemma InitFalsyValue(value: Option<real>, minValue: Option<real>, maxValue: Option<real>, current: Option<bool>)
    requires !TruthyNumber(value) && (minValue.Some? || maxValue.Some?)
    ensures InitVerdict(value, minValue, maxValue, current) == current
  {
  }

  /** A change to a truthy value with some bound decides as `$onInit` does;
      without bounds the verdict is left as it was, since `$onChanges` has
      no rule for that case; any other change leaves it too. */
  lemma ChangesDecide(changes: Changes, value: Option<real>, minValue: Option<real>, maxValue: Option<real>, current: Option<bool>)
    requires changes.value.Some? ==> changes.value.value.currentValue == value
    ensures TruthyNumber(value) && changes.value.Some? && (minValue.Some? || maxValue.Some?) ==>
      ChangesVerdict(changes, value, minValue, maxValue, current) == Some(WithinBounds(value.value, minValue, maxValue))
    ensures minValue.None? && maxValue.None? ==> ChangesVerdict(changes, value, minValue, maxValue, current) == current
    ensures !(changes.value.Some? && TruthyNumber(value)) ==> ChangesVerdict(changes, value, minValue, maxValue, current) == current
  {
  }

  /** The verdict can go stale: a value of 5 with minimum 1 is accepted,
      and moving the value to 0, which is below the minimum, keeps that
      verdict because 0 is falsy. */
  lemma StaleVerdict()
    ensures var first := InitVerdict(Some(5.0), Some(1.0), None, None);
      && first == Some(true)
      && ChangesVerdict(Changes(Some(Change(Some(0.0)))), Some(0.0), Some(1.0), None, first) == Some(true)
      && !WithinBounds(0.0, Some(1.0), None)
  {
  }

  /** A zero minimum is a bound: the text "0" is truthy, so a negative value
      is rejected although the number 0 itself would be falsy. */
  lemma ZeroMinimumIsABound()
    ensures InitVerdict(Some(-1.0), Some(0.0), None, None) == Some(false)
  {
  }
}

=== FILE: inventory_changes.dfy ===
/** The inventory change report: flattening of the inventory change log,
    filtering, grouping by inventory, unit-price flagging and the per-user
    tally: server/controllers/inventory/reports/changes.js */
module InventoryChanges {
  import opened Common
  import opened JsValues
  import opened Strings

  const UNIT_PRICE_LABEL: string := "FORM.LABELS.UNIT_PRICE"
  const UPDATED_BY: string := "updated_by"

  /** Why flattening a log record stops: a TypeError the code would throw, or
      a value whose string conversion the model leaves out. */
  datatype Failure = TypeError | Unmodelled

  // ---------------------------------------------------------------------
  // formatKeys (lines 153-160)

  predicate Removed(key: string)
  {
    key == "group_uuid" || key == "type_id" || key == "unit_id" || key == "text"
  }

  function NotRemoved(p: Property): bool { !Removed(p.key) }

  /** The record without `group_uuid`, `type_id`, `unit_id` and `text`, with
      `label` set to the text when the text is truthy. */
  function FormatKeys(record: seq<Property>): seq<Property>
  {
    var text := Lookup(record, "text");
    var rest := Filter(record, NotRemoved);
    if Truthy(text) then SetProp(rest, "label", text) else rest
  }

  /** Dropping properties keeps the keys distinct. */
  lemma {:induction false} FilterDistinct(props: seq<Property>, p: Property -> bool)
    requires DistinctKeys(props)
    ensures DistinctKeys(Filter(props, p))
  {
    if props != [] {
      HeadKeyNotInTail(props);
      FilterDistinct(props[1..], p);
      var rest := Filter(props[1..], p);
      if p(props[0]) {
        var r := Filter(props, p);
        assert r == [props[0]] + rest;
        forall i, j | 0 <= i < j < |r| ensures r[i].key != r[j].key {
          assert r[j] == rest[j - 1];
          if i == 0 {
            assert r[j] in props[1..];
            assert r[j].key in KeysOf(props[1..]);
          } else {
            assert r[i] == rest[i - 1];
          }
        }
      }
    }
  }

  /** Dropping properties other than `key` keeps the value read at `key`. */
  lemma {:induction false} FilterLookup(props: seq<Property>, p: Property -> bool, key: string)
    requires forall q: Property :: q.key == key ==> p(q)
    ensures Lookup(Filter(props, p), key) == Lookup(props, key)
  {
    if props != [] {
      FilterLookup(props[1..], p, key);
      var rest := Filter(props[1..], p);
      if p(props[0]) {
        assert Filter(props, p) == [props[0]] + rest;
        assert ([props[0]] + rest)[1..] == rest;
      } else {
        assert props[0].key != key;
        assert Filter(props, p) == rest;
      }
    }
  }

  lemma {:induction false} FilterDropsKey(props: seq<Property>, p: Property -> bool, key: string)
    requires forall q: Property :: q.key == key ==> !p(q)
    ensures key !in KeysOf(Filter(props, p))
  {
  }

  /** formatKeys: the removed keys are gone; `label` is the text when the text
      is truthy and the record's own `label` otherwise; every other key reads
      as in the record; keys stay distinct. */
  lemma FormatKeysSpec(record: seq<Property>)
    requires DistinctKeys(record)
    ensures var r := FormatKeys(record);
      && DistinctKeys(r)
      && (forall k :: Removed(k) ==> k !in KeysOf(r))
      && Lookup(r, "label") == (if Truthy(Lookup(record, "text")) then Lookup(record, "text") else Lookup(record, "label"))
      && (forall k :: !Removed(k) && k != "label" ==> Lookup(r, k) == Lookup(record, k))
  {
    var text := Lookup(record, "text");
    var rest := Filter(record, NotRemoved);
    FilterDistinct(record, NotRemoved);
    FilterLookup(record, NotRemoved, "label");
    forall k | !Removed(k) ensures Lookup(rest, k) == Lookup(record, k) {
      FilterLookup(record, NotRemoved, k);
    }
    forall k | Removed(k) ensures k !in KeysOf(rest) {
      FilterDropsKey(record, NotRemoved, k);
    }
    if Truthy(text) {
      SetPropLookup(rest, "label", text);
    }
  }

  // ---------------------------------------------------------------------
  // getValue (lines 169-194)

  datatype Change = Change(from: JsValue, to: JsValue)

  /** The `"name"` entries of a tag list. */
  function QuotedNames(tags: seq<JsValue>): (r: Result<seq<string>, Failure>)
    ensures r.Ok? <==> forall i :: 0 <= i < |tags| ==>
      GetProp(tags[i], "name").Some? && TemplateString(GetProp(tags[i], "name").value).Some?
    ensures r.Ok? ==> |r.value| == |tags| && forall i :: 0 <= i < |tags| ==>
      r.value[i] == "\"" + TemplateString(GetProp(tags[i], "name").value).value + "\""
  {
    if tags == [] then Ok([])
    else match GetProp(tags[0], "name")
      case None => Err(Failure.TypeError)
      case Some(name) =>
        match TemplateString(name)
        case None => Err(Unmodelled)
        case Some(s) =>
          match QuotedNames(tags[1..])
          case Err(e) => Err(e)
          case Ok(rest) => Ok(["\"" + s + "\""] + rest)
  }

  /** `[${tags.map(tag => `"${tag.name}"`).join(',  ')}]`; a tag list that is
      not an array throws. */
  function TagList(tags: JsValue): (r: Result<JsValue, Failure>)
    ensures !tags.Arr? ==> r == Err(Failure.TypeError)
    ensures tags.Arr? ==> (r.Ok? <==> QuotedNames(tags.items).Ok?)
    ensures r.Ok? ==> r.value == Str("[" + Join(QuotedNames(tags.items).value, ",  ") + "]")
  {
    if !tags.Arr? then Err(Failure.TypeError)
    else match QuotedNames(tags.items)
      case Err(e) => Err(e)
      case Ok(names) => Ok(Str("[" + Join(names, ",  ") + "]"))
  }

  /** `o.field` where `o` is read from a record: throws when `o` is null or undefined. */
  function Field(record: seq<Property>, key: string, field: string): Result<JsValue, Failure>
  {
    match GetProp(Lookup(record, key), field)
    case None => Err(Failure.TypeError)
    case Some(v) => Ok(v)
  }

  function GetValue(last: seq<Property>, current: seq<Property>, key: string): Result<Change, Failure>
  {
    if key == "tags" then
      match TagList(Lookup(last, "tags"))
      case Err(e) => Err(e)
      case Ok(from) =>
        match TagList(Lookup(current, "tags"))
        case Err(e) => Err(e)
        case Ok(to) => Ok(Change(from, to))
    else if key == "inventoryGroup" then
      match Field(current, "inventoryGroup", "name")
      case Err(e) => Err(e)
      case Ok(name) => Ok(Change(Or(Lookup(last, "groupName"), Str("")), Or(name, Str(""))))
    else if key == "inventoryType" then
      match Field(current, "inventoryType", "text")
      case Err(e) => Err(e)
      case Ok(text) => Ok(Change(Lookup(last, "type"), text))
    else if key == "inventoryUnit" then
      match Field(current, "inventoryUnit", "text")
      case Err(e) => Err(e)
      case Ok(text) => Ok(Change(Lookup(last, "unit"), text))
    else Ok(Change(Lookup(last, key), Lookup(current, key)))
  }

  /** getValue: an ordinary key compares the two records' own values; the four
      special keys read their old value from a flat field of the old record
      and their new value from a field of an object of the new record, the
      group name defaulting to the empty string on both sides. */
  lemma GetValueSpec(last: seq<Property>, current: seq<Property>, key: string)
    ensures key !in {"tags", "inventoryGroup", "inventoryType", "inventoryUnit"} ==>
      GetValue(last, current, key) == Ok(Change(Lookup(last, key), Lookup(current, key)))
    ensures key == "inventoryType" ==>
      (GetValue(last, current, key).Ok? <==> Lookup(current, "inventoryType") !in {Undefined, Null})
      && (GetValue(last, current, key).Ok? ==>
            GetValue(last, current, key).value
              == Change(Lookup(last, "type"), GetProp(Lookup(current, "inventoryType"), "text").value))
    ensures key == "inventoryUnit" ==>
      (GetValue(last, current, key).Ok? <==> Lookup(current, "inventoryUnit") !in {Undefined, Null})
      && (GetValue(last, current, key).Ok? ==>
            GetValue(last, current, key).value
              == Change(Lookup(last, "unit"), GetProp(Lookup(current, "inventoryUnit"), "text").value))
    ensures key == "inventoryGroup" ==>
      (GetValue(last, current, key).Ok? <==> Lookup(current, "inventoryGroup") !in {Undefined, Null})
      && (GetValue(last, current, key).Ok? ==>
            var c, name := GetValue(last, current, key).value, GetProp(Lookup(current, "inventoryGroup"), "name").value;
            && (Truthy(Lookup(last, "groupName")) ==> c.from == Lookup(last, "groupName"))
            && (!Truthy(Lookup(last, "groupName")) ==> c.from == Str(""))
            && (Truthy(name) ==> c.to == name)
            && (!Truthy(name) ==> c.to == Str("")))
    ensures key == "tags" ==>
      var from, to := TagList(Lookup(last, "tags")), TagList(Lookup(current, "tags"));
      && (GetValue(last, current, key).Ok? <==> from.Ok? && to.Ok?)
      && (GetValue(last, current, key).Ok? ==> GetValue(last, current, key).value == Change(from.value, to.value))
  {
  }

  /** A tag list renders as its quoted names between brackets, separated by a
      comma and two spaces; a missing tag list throws. */
  lemma TagListExample()
    ensures TagList(Arr([Obj([Property("name", Str("a"))]), Obj([Property("name", Str("b"))])]))
         == Ok(Str("[\"a\",  \"b\"]"))
    ensures TagList(Arr([])) == Ok(Str("[]"))
    ensures TagList(Undefined) == Err(Failure.TypeError)
  {
    var a := Obj([Property("name", Str("a"))]);
    var b := Obj([Property("name", Str("b"))]);
    assert GetProp(a, "name") == Some(Str("a"));
    assert GetProp(b, "name") == Some(Str("b"));
    var qa := "\"" + "a" + "\"";
    var qb := "\"" + "b" + "\"";
    assert QuotedNames([]) == Ok([]);
    assert [b][1..] == [] && [a, b][1..] == [b];
    assert QuotedNames([b]) == Ok([qb] + []);
    assert [qb] + [] == [qb];
    assert QuotedNames([a, b]) == Ok([qa] + [qb]);
    assert [qa] + [qb] == [qa, qb];
    assert [qa, qb][1..] == [qb];
    assert Join([qb], ",  ") == qb;
    assert Join([qa, qb], ",  ") == qa + ",  " + qb;
    var text := "[" + (qa + ",  " + qb) + "]";
    assert text == "[\"a\",  \"b\"]" by {
      assert |qa| == 3 && |qb| == 3;
      assert |text| == 11;
      assert text[0] == '[' && text[1] == '"' && text[2] == 'a' && text[3] == '"' && text[4] == ',';
      assert text[5] == ' ' && text[6] == ' ' && text[7] == '"' && text[8] == 'b' && text[9] == '"';
      assert text[10] == ']';
    }
    assert "[" + Join([], ",  ") + "]" == "[]";
  }

  // ---------------------------------------------------------------------
  // transformChangeLogRecords (lines 25-41)

  /** One `inventory_log` row with its `changes` column already parsed. */
  datatype LogRecord = LogRecord(uuid: string, last: JsValue, current: JsValue, logTimestamp: string, userName: string)

  /** One changelog row. `col` is the column label the inventory column map
      gives the key, None when it has none. */
  datatype ChangeRow = ChangeRow(
    key: string,
    uuid: string,
    col: Option<string>,
    value: Change,
    date: string,
    userName: string,
    update: bool)

  /** formatKeys on a parsed value: destructuring null or undefined throws;
      other non-objects are not modelled. */
  function FormatValue(v: JsValue): Result<seq<Property>, Failure>
  {
    match v
    case Obj(props) => Ok(FormatKeys(props))
    case Undefined => Err(Failure.TypeError)
    case Null => Err(Failure.TypeError)
    case _ => Err(Unmodelled)
  }

  function KeyRows(record: LogRecord, prev: seq<Property>, next: seq<Property>, keys: seq<string>, cols: map<string, string>)
    : Result<seq<ChangeRow>, Failure>
  {
    if keys == [] then Ok([])
    else
      match GetValue(prev, next, keys[0])
      case Err(e) => Err(e)
      case Ok(value) =>
        var col := if keys[0] in cols then Some(cols[keys[0]]) else None;
        match KeyRows(record, prev, next, keys[1..], cols)
        case Err(e) => Err(e)
        case Ok(rest) => Ok([ChangeRow(keys[0], record.uuid, col, value, record.logTimestamp, record.userName, true)] + rest)
  }

  /** The rows of one log record: one per key of the formatted new state. */
  function RecordRows(record: LogRecord, cols: map<string, string>): Result<seq<ChangeRow>, Failure>
  {
    match FormatValue(record.last)
    case Err(e) => Err(e)
    case Ok(prev) =>
      match FormatValue(record.current)
      case Err(e) => Err(e)
      case Ok(next) => KeyRows(record, prev, next, KeysOf(next), cols)
  }

  function TransformChangeLogRecords(records: seq<LogRecord>, cols: map<string, string>): Result<seq<ChangeRow>, Failure>
  {
    if records == [] then Ok([])
    else
      match RecordRows(records[0], cols)
      case Err(e) => Err(e)
      case Ok(rows) =>
        match TransformChangeLogRecords(records[1..], cols)
        case Err(e) => Err(e)
        case Ok(rest) => Ok(rows + rest)
  }

  lemma {:induction false} KeyRowsSpec(record: LogRecord, prev: seq<Property>, next: seq<Property>, keys: seq<string>, cols: map<string, string>)
    ensures KeyRows(record, prev, next, keys, cols).Ok? <==> forall i :: 0 <= i < |keys| ==> GetValue(prev, next, keys[i]).Ok?
    ensures KeyRows(record, prev, next, keys, cols).Ok? ==>
      var rows := KeyRows(record, prev, next, keys, cols).value;
      && |rows| == |keys|
      && forall i :: 0 <= i < |keys| ==>
           rows[i] == ChangeRow(keys[i], record.uuid, if keys[i] in cols then Some(cols[keys[i]]) else None,
                                GetValue(prev, next, keys[i]).value, record.logTimestamp, record.userName, true)
  {
    if keys != [] {
      KeyRowsSpec(record, prev, next, keys[1..], cols);
      assert forall i :: 1 <= i < |keys| ==> keys[1..][i - 1] == keys[i];
    }
  }

  /** transformChangeLogRecords for one record: when neither state throws,
      exactly one row per key of the formatted new state, in key order, each
      carrying the record's uuid, timestamp and user, the key's column label,
      the key's old and new values, and `update` set. */
  lemma RecordRowsSpec(record: LogRecord, cols: map<string, string>)
    requires record.last.Obj? && record.current.Obj?
    ensures var prev := FormatKeys(record.last.props);
      var next := FormatKeys(record.current.props);
      var keys := KeysOf(next);
      && (RecordRows(record, cols).Ok? <==> forall i :: 0 <= i < |keys| ==> GetValue(prev, next, keys[i]).Ok?)
      && (RecordRows(record, cols).Ok? ==>
            var rows := RecordRows(record, cols).value;
            && |rows| == |keys|
            && forall i :: 0 <= i < |rows| ==>
                 && rows[i].key == keys[i] && rows[i].uuid == record.uuid
                 && rows[i].date == record.logTimestamp && rows[i].userName == record.userName
                 && rows[i].update
                 && rows[i].col == (if keys[i] in cols then Some(cols[keys[i]]) else None)
                 && rows[i].value == GetValue(prev, next, keys[i]).value)
  {
    var prev := FormatKeys(record.last.props);
    var next := FormatKeys(record.current.props);
    assert FormatValue(record.last) == Ok(prev);
    assert FormatValue(record.current) == Ok(next);
    assert RecordRows(record, cols) == KeyRows(record, prev, next, KeysOf(next), cols);
    KeyRowsSpec(record, prev, next, KeysOf(next), cols);
  }

  /** The rows a record contributes: none when it fails. */
  function RowsOf(record: LogRecord, cols: map<string, string>): seq<ChangeRow>
  {
    if RecordRows(record, cols).Ok? then RecordRows(record, cols).value else []
  }

  /** The records' rows, concatenated in record order. */
  function AllRows(records: seq<LogRecord>, cols: map<string, string>): seq<ChangeRow>
  {
    if records == [] then [] else RowsOf(records[0], cols) + AllRows(records[1..], cols)
  }

  /** The records' rows are concatenated in record order; the whole
      transformation fails exactly when one record's rows fail. */
  lemma {:induction false} TransformSpec(records: seq<LogRecord>, cols: map<string, string>)
    ensures TransformChangeLogRecords(records, cols).Ok? <==> forall i :: 0 <= i < |records| ==> RecordRows(records[i], cols).Ok?
    ensures TransformChangeLogRecords(records, cols).Ok? ==>
      TransformChangeLogRecords(records, cols).value == AllRows(records, cols)
  {
    if records != [] {
      var rest := records[1..];
      TransformSpec(rest, cols);
      assert forall i :: 1 <= i < |records| ==> rest[i - 1] == records[i];
      assert (forall i :: 0 <= i < |records| ==> RecordRows(records[i], cols).Ok?)
        <==> RecordRows(records[0], cols).Ok? && forall i :: 0 <= i < |rest| ==> RecordRows(rest[i], cols).Ok?;
    }
  }

  // ---------------------------------------------------------------------
  // Filtering (lines 109-111)

  function HasValues(row: ChangeRow): bool { row.value.to != Null && row.value.from != Null }
  function NotUpdatedBy(row: ChangeRow): bool { row.key != UPDATED_BY }
  function Reportable(row: ChangeRow): bool { HasValues(row) && NotUpdatedBy(row) }

  /** The two filters of the changelog: rows whose old or new value is null
      and rows of the `updated_by` key are dropped (undefined values stay);
      the rest keep their order. */
  lemma FilterChangelogSpec(rows: seq<ChangeRow>)
    ensures var changelog := Filter(Filter(rows, HasValues), NotUpdatedBy);
      && changelog == Filter(rows, Reportable)
      && (forall row :: row in changelog ==> row.value.from != Null && row.value.to != Null && row.key != UPDATED_BY)
      && (forall row :: row in rows && row.value.from != Null && row.value.to != Null && row.key != UPDATED_BY ==> row in changelog)
  {
    FilterFilter(rows, HasValues, NotUpdatedBy, Reportable);
  }

  // ---------------------------------------------------------------------
  // groupBy (lines 44-56)

  function HasUuid(uuid: string): ChangeRow -> bool
  {
    (row: ChangeRow) => row.uuid == uuid
  }

  /** Every row is in the group of its uuid, in order, and there is a group
      exactly for each uuid that occurs. */
  ghost predicate Grouped(groups: map<string, seq<ChangeRow>>, rows: seq<ChangeRow>)
  {
    && (forall u :: u in groups <==> exists j :: 0 <= j < |rows| && rows[j].uuid == u)
    && (forall u :: u in groups ==> groups[u] == Filter(rows, HasUuid(u)) && groups[u] != [])
  }

  /** One step of the reduce, on the groups' contents: the row's group gains
      the row, the other groups are unchanged. */
  lemma GroupStepContents(groups: map<string, seq<ChangeRow>>, rows: seq<ChangeRow>, x: ChangeRow)
    requires Grouped(groups, rows)
    ensures var g := groups[x.uuid := (if x.uuid in groups then groups[x.uuid] else []) + [x]];
      forall u :: u in g ==> g[u] == Filter(rows + [x], HasUuid(u)) && g[u] != []
  {
    var g := groups[x.uuid := (if x.uuid in groups then groups[x.uuid] else []) + [x]];
    forall u | u in g ensures g[u] == Filter(rows + [x], HasUuid(u)) && g[u] != [] {
      FilterAppend(rows, [x], HasUuid(u));
      assert Filter([x], HasUuid(u)) == (if u == x.uuid then [x] else []) by {
        assert [x][1..] == [];
      }
      if u == x.uuid && x.uuid !in groups {
        forall j | 0 <= j < |rows| ensures !HasUuid(x.uuid)(rows[j]) { }
        FilterAllOrNone(rows, HasUuid(x.uuid));
      }
    }
  }

  /** One step of the reduce, on the groups' keys: the row's uuid has a group. */
  lemma GroupStepKeys(groups: map<string, seq<ChangeRow>>, rows: seq<ChangeRow>, x: ChangeRow)
    requires forall u :: u in groups <==> exists j :: 0 <= j < |rows| && rows[j].uuid == u
    ensures var g := groups[x.uuid := (if x.uuid in groups then groups[x.uuid] else []) + [x]];
      forall u :: u in g <==> exists j :: 0 <= j < |rows + [x]| && (rows + [x])[j].uuid == u
  {
    var rs := rows + [x];
    forall u | u in groups ensures exists j :: 0 <= j < |rs| && rs[j].uuid == u {
      var j :| 0 <= j < |rows| && rows[j].uuid == u;
      assert rs[j] == rows[j];
    }
    assert rs[|rows|] == x;
    forall u | exists j :: 0 <= j < |rs| && rs[j].uuid == u
      ensures u == x.uuid || u in groups
    {
      var j :| 0 <= j < |rs| && rs[j].uuid == u;
      if j < |rows| { assert rs[j] == rows[j]; }
    }
  }

  lemma GroupStep(groups: map<string, seq<ChangeRow>>, rows: seq<ChangeRow>, x: ChangeRow)
    requires Grouped(groups, rows)
    ensures Grouped(groups[x.uuid := (if x.uuid in groups then groups[x.uuid] else []) + [x]], rows + [x])
  {
    GroupStepContents(groups, rows, x);
    GroupStepKeys(groups, rows, x);
  }

  /** The reduce's callback: a uuid seen for the first time gets an empty
      group, then the row joins its uuid's group. */
  method AddToGroup(groups: map<string, seq<ChangeRow>>, ghost rows: seq<ChangeRow>, row: ChangeRow)
    returns (groups': map<string, seq<ChangeRow>>)
    requires Grouped(groups, rows)
    ensures Grouped(groups', rows + [row])
  {
    GroupStep(groups, rows, row);
    ghost var target := groups[row.uuid := (if row.uuid in groups then groups[row.uuid] else []) + [row]];
    groups' := groups;
    if row.uuid !in groups' {
      groups' := groups'[row.uuid := []];
    }
    groups' := groups'[row.uuid := groups'[row.uuid] + [row]];
    assert forall u :: u in groups' <==> u in target;
    assert forall u :: u in groups' ==> groups'[u] == target[u];
  }

  /** groupBy(changelog, 'uuid'): every row goes to the group of its uuid, in
      changelog order, and there is a group exactly for the uuids that occur. */
  method GroupByUuid(rows: seq<ChangeRow>) returns (groups: map<string, seq<ChangeRow>>)
    ensures forall u :: u in groups <==> exists i :: 0 <= i < |rows| && rows[i].uuid == u
    ensures forall u :: u in groups ==> groups[u] == Filter(rows, HasUuid(u)) && groups[u] != []
  {
    groups := map[];
    var i := 0;
    while i < |rows|
      invariant 0 <= i <= |rows|
      invariant Grouped(groups, rows[..i])
    {
      var row := rows[i];
      PrefixSnoc(rows, i);
      groups := AddToGroup(groups, rows[..i], row);
      i := i + 1;
    }
    assert rows[..i] == rows;
  }

  // ---------------------------------------------------------------------
  // Attaching logs and flagging unit prices (lines 116-127)

  /** An inventory row of the report query; only its uuid matters here. */
  datatype Inventory = Inventory(uuid: string, code: string)

  /** A changelog row with its `is_unit_price` mark (false: not set). */
  datatype LoggedChange = LoggedChange(row: ChangeRow, isUnitPrice: bool)

  datatype InventoryReport = InventoryReport(inventory: Inventory, logs: seq<LoggedChange>)

  predicate IsUnitPriceChange(row: ChangeRow)
  {
    row.col == Some(UNIT_PRICE_LABEL) && (row.value.to.Num? || row.value.from.Num?)
  }

  function Flagged(logs: seq<ChangeRow>): (r: seq<LoggedChange>)
    ensures |r| == |logs|
    ensures forall i :: 0 <= i < |logs| ==> r[i].row == logs[i]
    ensures forall i :: 0 <= i < |logs| ==>
      (r[i].isUnitPrice <==> logs[i].col == Some(UNIT_PRICE_LABEL) && (logs[i].value.from.Num? || logs[i].value.to.Num?))
  {
    seq(|logs|, i requires 0 <= i < |logs| => LoggedChange(logs[i], IsUnitPriceChange(logs[i])))
  }

  function HasLogs(report: InventoryReport): bool { report.logs != [] }

  /** The `forEach` over inventories: each gets its group of the changelog (or
      none), every log of it marked when it is a numeric unit-price change. */
  method AttachLogs(inventories: seq<Inventory>, changeMap: map<string, seq<ChangeRow>>) returns (reports: seq<InventoryReport>)
    ensures |reports| == |inventories|
    ensures forall i :: 0 <= i < |inventories| ==>
      reports[i] == InventoryReport(inventories[i],
        Flagged(if inventories[i].uuid in changeMap then changeMap[inventories[i].uuid] else []))
  {
    reports := [];
    var i := 0;
    while i < |inventories|
      invariant 0 <= i <= |inventories|
      invariant |reports| == i
      invariant forall k :: 0 <= k < i ==>
        reports[k] == InventoryReport(inventories[k],
          Flagged(if inventories[k].uuid in changeMap then changeMap[inventories[k].uuid] else []))
    {
      var inventory := inventories[i];
      var logs := if inventory.uuid in changeMap then changeMap[inventory.uuid] else [];
      var flagged: seq<LoggedChange> := [];
      var j := 0;
      while j < |logs|
        invariant 0 <= j <= |logs|
        invariant flagged == Flagged(logs[..j])
      {
        var log := logs[j];
        var isUnitPrice := false;
        if log.col == Some(UNIT_PRICE_LABEL) && (log.value.to.Num? || log.value.from.Num?) {
          isUnitPrice := true;
        }
        flagged := flagged + [LoggedChange(log, isUnitPrice)];
        j := j + 1;
      }
      assert logs[..j] == logs;
      reports := reports + [InventoryReport(inventory, flagged)];
      i := i + 1;
    }
  }

  /** The inventories reported: exactly those with at least one change in
      the filtered changelog, in query order, each listing its changes in
      changelog order. */
  lemma ReportedInventories(inventories: seq<Inventory>, changelog: seq<ChangeRow>, changeMap: map<string, seq<ChangeRow>>,
                            reports: seq<InventoryReport>)
    requires forall u :: u in changeMap <==> exists i :: 0 <= i < |changelog| && changelog[i].uuid == u
    requires forall u :: u in changeMap ==> changeMap[u] == Filter(changelog, HasUuid(u)) && changeMap[u] != []
    requires |reports| == |inventories|
    requires forall i :: 0 <= i < |inventories| ==>
      reports[i] == InventoryReport(inventories[i],
        Flagged(if inventories[i].uuid in changeMap then changeMap[inventories[i].uuid] else []))
    ensures forall r :: r in Filter(reports, HasLogs) ==>
      && r.inventory in inventories
      && (exists i :: 0 <= i < |changelog| && changelog[i].uuid == r.inventory.uuid)
      && r.logs == Flagged(Filter(changelog, HasUuid(r.inventory.uuid)))
    ensures forall inv :: inv in inventories && (exists i :: 0 <= i < |changelog| && changelog[i].uuid == inv.uuid) ==>
      exists r :: r in Filter(reports, HasLogs) && r.inventory == inv
  {
  }

  // ---------------------------------------------------------------------
  // The per-user tally (lines 129-136)

  datatype UserCount = UserCount(user: string, numberOfChanges: nat)

  function ByUser(user: string): ChangeRow -> bool
  {
    (row: ChangeRow) => row.userName == user
  }

  /** The number of changelog rows of a user. */
  function CountOf(rows: seq<ChangeRow>, user: string): nat
  {
    |Filter(rows, ByUser(user))|
  }

  /** The users of the changelog in order of first appearance, which is the
      order of the tally object's keys. */
  function UsersOf(rows: seq<ChangeRow>): (users: seq<string>)
    ensures forall i, j :: 0 <= i < j < |users| ==> users[i] != users[j]
    ensures forall u :: u in users <==> exists i :: 0 <= i < |rows| && rows[i].userName == u
  {
    if rows == [] then []
    else
      var prefix := rows[..|rows| - 1];
      var last := rows[|rows| - 1].userName;
      var users := UsersOf(prefix);
      assert forall i :: 0 <= i < |prefix| ==> prefix[i] == rows[i];
      if last in users then users else users + [last]
  }

  /** The index of a user's first change. */
  function FirstIndex(rows: seq<ChangeRow>, u: string): (k: nat)
    requires exists i :: 0 <= i < |rows| && rows[i].userName == u
    ensures k < |rows| && rows[k].userName == u
    ensures forall m :: 0 <= m < k ==> rows[m].userName != u
    decreases |rows|
  {
    if rows[0].userName == u then 0
    else
      assert exists i :: 0 <= i < |rows[1..]| && rows[1..][i].userName == u by {
        var i :| 0 <= i < |rows| && rows[i].userName == u;
        assert rows[1..][i - 1] == rows[i];
      }
      1 + FirstIndex(rows[1..], u)
  }

  /** A user's first change in a prefix of the changelog is their first change. */
  lemma FirstIndexPrefix(rows: seq<ChangeRow>, n: nat, u: string)
    requires n <= |rows| && exists i :: 0 <= i < n && rows[i].userName == u
    ensures exists i :: 0 <= i < |rows| && rows[i].userName == u
    ensures FirstIndex(rows[..n], u) == FirstIndex(rows, u)
  {
    var i :| 0 <= i < n && rows[i].userName == u;
    assert rows[..n][i] == rows[i];
    var k1 := FirstIndex(rows[..n], u);
    assert rows[k1] == rows[..n][k1];
    assert forall m :: 0 <= m < k1 ==> rows[m] == rows[..n][m];
  }

  /** The users are listed in the order of their first change. */
  lemma {:induction false} UsersOfOrder(rows: seq<ChangeRow>)
    ensures forall i, j :: 0 <= i < j < |UsersOf(rows)| ==>
      UsersOf(rows)[i] in UsersOf(rows) && UsersOf(rows)[j] in UsersOf(rows) &&
      FirstIndex(rows, UsersOf(rows)[i]) < FirstIndex(rows, UsersOf(rows)[j])
  {
    if rows != [] {
      var n := |rows| - 1;
      var prefix, last := rows[..n], rows[n].userName;
      UsersOfOrder(prefix);
      var before, users := UsersOf(prefix), UsersOf(rows);
      assert forall i :: 0 <= i < |prefix| ==> prefix[i] == rows[i];
      forall i, j | 0 <= i < j < |users|
        ensures users[i] in users && users[j] in users && FirstIndex(rows, users[i]) < FirstIndex(rows, users[j])
      {
        assert users[i] in before;
        FirstIndexPrefix(rows, n, users[i]);
        if j < |before| {
          FirstIndexPrefix(rows, n, users[j]);
        } else {
          assert users[j] == last && last !in before;
          assert FirstIndex(rows, users[j]) == n;
        }
      }
    }
  }

  /** The tally: each user with the number of their changes. */
  function Tally(rows: seq<ChangeRow>): (entries: seq<UserCount>)
    ensures |entries| == |UsersOf(rows)|
  {
    var users := UsersOf(rows);
    seq(|users|, i requires 0 <= i < |users| => UserCount(users[i], CountOf(rows, users[i])))
  }

  /** Places `x` before the first entry whose count does not exceed its own. */
  function InsertByCount(x: UserCount, s: seq<UserCount>): seq<UserCount>
  {
    if s == [] then [x]
    else if s[0].numberOfChanges <= x.numberOfChanges then [x] + s
    else [s[0]] + InsertByCount(x, s[1..])
  }

  /** `sort((a, b) => b.numberOfChanges - a.numberOfChanges)`: a stable sort
      by decreasing count. */
  function SortByCountDesc(s: seq<UserCount>): seq<UserCount>
  {
    if s == [] then [] else InsertByCount(s[0], SortByCountDesc(s[1..]))
  }

  predicate NonIncreasing(s: seq<UserCount>)
  {
    forall i, j :: 0 <= i < j < |s| ==> s[i].numberOfChanges >= s[j].numberOfChanges
  }

  function HasCount(c: nat): UserCount -> bool
  {
    (e: UserCount) => e.numberOfChanges == c
  }

  function TotalCount(s: seq<UserCount>): nat
  {
    if s == [] then 0 else s[0].numberOfChanges + TotalCount(s[1..])
  }

  lemma {:induction false} InsertByCountPerm(x: UserCount, s: seq<UserCount>)
    ensures multiset(InsertByCount(x, s)) == multiset(s) + multiset{x}
    ensures TotalCount(InsertByCount(x, s)) == x.numberOfChanges + TotalCount(s)
  {
    if s != [] && s[0].numberOfChanges > x.numberOfChanges {
      InsertByCountPerm(x, s[1..]);
      assert s == [s[0]] + s[1..];
      assert InsertByCount(x, s)[1..] == InsertByCount(x, s[1..]);
    }
  }

  lemma NonIncreasingTail(s: seq<UserCount>)
    requires s != [] && NonIncreasing(s)
    ensures NonIncreasing(s[1..])
  {
    assert forall k :: 1 <= k < |s| ==> s[1..][k - 1] == s[k];
  }

  lemma {:induction false} InsertByCountBound(x: UserCount, s: seq<UserCount>, bound: nat)
    requires x.numberOfChanges <= bound
    requires forall k :: 0 <= k < |s| ==> s[k].numberOfChanges <= bound
    ensures forall k :: 0 <= k < |InsertByCount(x, s)| ==> InsertByCount(x, s)[k].numberOfChanges <= bound
  {
    if s != [] && s[0].numberOfChanges > x.numberOfChanges {
      InsertByCountBound(x, s[1..], bound);
      var r := InsertByCount(x, s);
      assert forall k :: 1 <= k < |r| ==> r[k] == InsertByCount(x, s[1..])[k - 1];
    }
  }

  lemma {:induction false} InsertByCountSorted(x: UserCount, s: seq<UserCount>)
    requires NonIncreasing(s)
    ensures NonIncreasing(InsertByCount(x, s))
  {
    if s != [] && s[0].numberOfChanges > x.numberOfChanges {
      var rest := InsertByCount(x, s[1..]);
      NonIncreasingTail(s);
      InsertByCountSorted(x, s[1..]);
      InsertByCountBound(x, s[1..], s[0].numberOfChanges);
      var r := InsertByCount(x, s);
      assert r == [s[0]] + rest;
      forall i, j | 0 <= i < j < |r| ensures r[i].numberOfChanges >= r[j].numberOfChanges {
        if i > 0 { assert r[i] == rest[i - 1]; }
        assert r[j] == rest[j - 1];
      }
    }
  }

  lemma {:induction false} InsertByCountStable(x: UserCount, s: seq<UserCount>, c: nat)
    requires NonIncreasing(s)
    ensures Filter(InsertByCount(x, s), HasCount(c)) == Filter([x] + s, HasCount(c))
  {
    if s == [] {
    } else if s[0].numberOfChanges <= x.numberOfChanges {
    } else {
      var rest := InsertByCount(x, s[1..]);
      NonIncreasingTail(s);
      InsertByCountStable(x, s[1..], c);
      assert InsertByCount(x, s) == [s[0]] + rest;
      assert ([s[0]] + rest)[1..] == rest;
      assert ([x] + s[1..])[1..] == s[1..];
      assert ([x] + s)[1..] == s;
      assert s[1..] == s[1..];
    }
  }

  /** The sort: counts in non-increasing order, the same entries, the same
      total, and entries of equal count in their original order. */
  lemma SortByCountDescSpec(s: seq<UserCount>)
    ensures var r := SortByCountDesc(s);
      && NonIncreasing(r)
      && multiset(r) == multiset(s)
      && TotalCount(r) == TotalCount(s)
      && forall c :: Filter(r, HasCount(c)) == Filter(s, HasCount(c))
  {
    SortByCountDescSorted(s);
    SortByCountDescPerm(s);
    forall c ensures Filter(SortByCountDesc(s), HasCount(c)) == Filter(s, HasCount(c)) {
      SortByCountDescStable(s, c);
    }
  }

  lemma {:induction false} SortByCountDescSorted(s: seq<UserCount>)
    ensures NonIncreasing(SortByCountDesc(s))
  {
    if s != [] {
      SortByCountDescSorted(s[1..]);
      InsertByCountSorted(s[0], SortByCountDesc(s[1..]));
    }
  }

  lemma {:induction false} SortByCountDescPerm(s: seq<UserCount>)
    ensures multiset(SortByCountDesc(s)) == multiset(s)
    ensures TotalCount(SortByCountDesc(s)) == TotalCount(s)
  {
    if s != [] {
      SortByCountDescPerm(s[1..]);
      InsertByCountPerm(s[0], SortByCountDesc(s[1..]));
      assert s == [s[0]] + s[1..];
    }
  }

  lemma {:induction false} SortByCountDescStable(s: seq<UserCount>, c: nat)
    ensures Filter(SortByCountDesc(s), HasCount(c)) == Filter(s, HasCount(c))
  {
    if s != [] {
      var sorted := SortByCountDesc(s[1..]);
      SortByCountDescStable(s[1..], c);
      SortByCountDescSorted(s[1..]);
      InsertByCountStable(s[0], sorted, c);
      assert ([s[0]] + sorted)[1..] == sorted;
    }
  }

  /** The sum of the users' counts over a list of distinct users. */
  function SumCounts(users: seq<string>, rows: seq<ChangeRow>): nat
  {
    if users == [] then 0 else CountOf(rows, users[0]) + SumCounts(users[1..], rows)
  }

  lemma CountOfSnoc(rows: seq<ChangeRow>, x: ChangeRow, user: string)
    ensures CountOf(rows + [x], user) == CountOf(rows, user) + (if x.userName == user then 1 else 0)
  {
    FilterAppend(rows, [x], ByUser(user));
    assert [x][1..] == [];
  }

  lemma {:induction false} SumCountsSnocRow(users: seq<string>, rows: seq<ChangeRow>, x: ChangeRow)
    requires forall i, j :: 0 <= i < j < |users| ==> users[i] != users[j]
    ensures SumCounts(users, rows + [x]) == SumCounts(users, rows) + (if x.userName in users then 1 else 0)
  {
    if users != [] {
      assert forall i :: 1 <= i < |users| ==> users[1..][i - 1] == users[i];
      SumCountsSnocRow(users[1..], rows, x);
      CountOfSnoc(rows, x, users[0]);
      assert users == [users[0]] + users[1..];
    }
  }

  lemma {:induction false} SumCountsSnocUser(users: seq<string>, user: string, rows: seq<ChangeRow>)
    ensures SumCounts(users + [user], rows) == SumCounts(users, rows) + CountOf(rows, user)
  {
    if users == [] {
      assert [user][1..] == [];
    } else {
      assert (users + [user])[1..] == users[1..] + [user];
      SumCountsSnocUser(users[1..], user, rows);
    }
  }

  /** Every change is counted once: the users' counts add up to the length
      of the changelog. */
  lemma {:induction false} SumCountsUsers(rows: seq<ChangeRow>)
    ensures SumCounts(UsersOf(rows), rows) == |rows|
  {
    if rows != [] {
      var prefix := rows[..|rows| - 1];
      var x := rows[|rows| - 1];
      assert rows == prefix + [x];
      SumCountsUsers(prefix);
      var users := UsersOf(prefix);
      SumCountsSnocRow(users, prefix, x);
      if x.userName !in users {
        SumCountsSnocUser(users, x.userName, rows);
        assert forall i :: 0 <= i < |prefix| ==> prefix[i].userName != x.userName;
        FilterAllOrNone(prefix, ByUser(x.userName));
        CountOfSnoc(prefix, x, x.userName);
      }
    }
  }

  lemma {:induction false} TotalCountTally(users: seq<string>, rows: seq<ChangeRow>, entries: seq<UserCount>)
    requires |entries| == |users|
    requires forall i :: 0 <= i < |users| ==> entries[i] == UserCount(users[i], CountOf(rows, users[i]))
    ensures TotalCount(entries) == SumCounts(users, rows)
  {
    if users != [] {
      TotalCountTally(users[1..], rows, entries[1..]);
    }
  }

  /** userChanges: one entry per user of the changelog with their number of
      changes, counts non-increasing, adding up to the changelog's length,
      users with the same count in order of first appearance. */
  lemma UserChangesSpec(changelog: seq<ChangeRow>)
    ensures var r := SortByCountDesc(Tally(changelog));
      && NonIncreasing(r)
      && TotalCount(r) == |changelog|
      && (forall e :: e in r ==> e.numberOfChanges == CountOf(changelog, e.user) && e.user in UsersOf(changelog))
      && (forall u :: u in UsersOf(changelog) ==> UserCount(u, CountOf(changelog, u)) in r)
      && forall c :: Filter(r, HasCount(c)) == Filter(Tally(changelog), HasCount(c))
  {
    var tally := Tally(changelog);
    var r := SortByCountDesc(tally);
    SortByCountDescSpec(tally);
    TotalCountTally(UsersOf(changelog), changelog, tally);
    SumCountsUsers(changelog);
    forall e | e in r ensures e.numberOfChanges == CountOf(changelog, e.user) && e.user in UsersOf(changelog) {
      assert e in multiset(tally);
    }
    forall u | u in UsersOf(changelog) ensures UserCount(u, CountOf(changelog, u)) in r {
      var k :| 0 <= k < |UsersOf(changelog)| && UsersOf(changelog)[k] == u;
      assert tally[k] in multiset(r);
    }
  }

  lemma UsersOfSnoc(rows: seq<ChangeRow>, x: ChangeRow)
    ensures UsersOf(rows + [x]) == if x.userName in UsersOf(rows) then UsersOf(rows) else UsersOf(rows) + [x.userName]
  {
    assert (rows + [x])[..|rows|] == rows;
  }

  /** One step of the reduce: the user's count goes up by one, starting from
      zero for a user not seen before. */
  lemma TallyStep(rows: seq<ChangeRow>, x: ChangeRow, counts: map<string, nat>)
    requires forall u :: u in counts <==> u in UsersOf(rows)
    requires forall u :: u in counts ==> counts[u] == CountOf(rows, u)
    ensures var next := counts[x.userName := (if x.userName in counts then counts[x.userName] else 0) + 1];
      && (forall u :: u in next <==> u in UsersOf(rows + [x]))
      && (forall u :: u in next ==> next[u] == CountOf(rows + [x], u))
  {
    UsersOfSnoc(rows, x);
    forall u ensures CountOf(rows + [x], u) == CountOf(rows, u) + (if x.userName == u then 1 else 0) {
      CountOfSnoc(rows, x, u);
    }
    if x.userName !in counts {
      forall j | 0 <= j < |rows| ensures !ByUser(x.userName)(rows[j]) { }
      FilterAllOrNone(rows, ByUser(x.userName));
    }
    var next := counts[x.userName := (if x.userName in counts then counts[x.userName] else 0) + 1];
    forall u | u in next ensures next[u] == CountOf(rows + [x], u) {
      if u != x.userName {
        assert next[u] == counts[u];
      }
    }
  }

  /** One step of the reduce: the user's count goes up by one; a user not
      seen before is added, after the users seen so far. */
  method CountChange(users: seq<string>, counts: map<string, nat>, ghost rows: seq<ChangeRow>, log: ChangeRow)
    returns (users': seq<string>, counts': map<string, nat>)
    requires users == UsersOf(rows)
    requires forall u :: u in counts <==> u in users
    requires forall u :: u in counts ==> counts[u] == CountOf(rows, u)
    ensures users' == UsersOf(rows + [log])
    ensures forall u :: u in counts' <==> u in users'
    ensures forall u :: u in counts' ==> counts'[u] == CountOf(rows + [log], u)
  {
    TallyStep(rows, log, counts);
    UsersOfSnoc(rows, log);
    users' := users;
    if log.userName !in counts {
      users' := users + [log.userName];
    }
    counts' := counts[log.userName := (if log.userName in counts then counts[log.userName] else 0) + 1];
  }

  /** The reduce, `Object.entries` and `map` of the tally, then the sort. */
  method UserChanges(changelog: seq<ChangeRow>) returns (userChanges: seq<UserCount>)
    ensures userChanges == SortByCountDesc(Tally(changelog))
  {
    var users: seq<string> := [];
    var counts: map<string, nat> := map[];
    var i := 0;
    while i < |changelog|
      invariant 0 <= i <= |changelog|
      invariant users == UsersOf(changelog[..i])
      invariant forall u :: u in counts <==> u in users
      invariant forall u :: u in counts ==> counts[u] == CountOf(changelog[..i], u)
    {
      var log := changelog[i];
      PrefixSnoc(changelog, i);
      users, counts := CountChange(users, counts, changelog[..i], log);
      i := i + 1;
    }
    assert changelog[..i] == changelog;
    var entries := seq(|users|, k requires 0 <= k < |users| => UserCount(users[k], counts[users[k]]));
    assert users == UsersOf(changelog);
    assert entries == Tally(changelog);
    userChanges := SortByCountDesc(entries);
  }
}

=== FILE: js_values.dfy ===
/** The JavaScript values the modelled code reads from parsed JSON and
    database rows, with the language rules it relies on: truthiness,
    property access, property assignment and template-literal conversion.
    Objects keep their properties in insertion order; `OwnEntries` gives
    the order in which `Object.keys` and `Object.entries` report them. */
module JsValues {
  import opened Common

  datatype JsValue =
    | Undefined
    | Null
    | Bool(b: bool)
    | Num(n: real)
    | Str(s: string)
    | Arr(items: seq<JsValue>)
    | Obj(props: seq<Property>)

  datatype Property = Property(key: string, value: JsValue)

  /** An error a controller throws: a TypeError from reading a property of
      null or undefined, or a BadRequest with its message and, when given,
      its translation key. */
  datatype Thrown = TypeError | BadRequest(message: string, code: Option<string>)

  /** JavaScript truthiness (NaN and -0 are not modelled). */
  predicate Truthy(v: JsValue)
  {
    match v
    case Undefined => false
    case Null => false
    case Bool(b) => b
    case Num(n) => n != 0.0
    case Str(s) => s != ""
    case Arr(_) => true
    case Obj(_) => true
  }

  /** `a || b` */
  function Or(a: JsValue, b: JsValue): (r: JsValue)
    ensures Truthy(a) ==> r == a
    ensures !Truthy(a) ==> r == b
  {
    if Truthy(a) then a else b
  }

  function KeysOf(props: seq<Property>): (keys: seq<string>)
    ensures |keys| == |props|
    ensures forall i :: 0 <= i < |props| ==> keys[i] == props[i].key
  {
    if props == [] then [] else [props[0].key] + KeysOf(props[1..])
  }

  predicate IsDigit(c: char) { '0' <= c <= '9' }

  predicate AllDigits(s: string) { forall i :: 0 <= i < |s| ==> IsDigit(s[i]) }

  /** The number a string of decimal digits spells. */
  function DigitsValue(s: string): nat
    requires AllDigits(s)
    decreases |s|
  {
    if s == [] then 0 else DigitsValue(s[..|s| - 1]) * 10 + (s[|s| - 1] as int - '0' as int)
  }

  /** An array index: the canonical decimal text ("0", or digits without a
      leading zero) of an integer below 2^32 - 1. */
  predicate IsIndexKey(k: string)
  {
    |k| > 0 && AllDigits(k) && (k[0] == '0' ==> |k| == 1) && DigitsValue(k) < 0xFFFF_FFFF
  }

  predicate IsIndexProp(p: Property) { IsIndexKey(p.key) }

  predicate IsNamedProp(p: Property) { !IsIndexKey(p.key) }

  /** The numeric value of an array-index key; other keys read as 0. */
  function KeyValue(p: Property): nat
  {
    if IsIndexKey(p.key) then DigitsValue(p.key) else 0
  }

  predicate IndexAscending(ps: seq<Property>)
  {
    forall i, j :: 0 <= i < j < |ps| ==> KeyValue(ps[i]) <= KeyValue(ps[j])
  }

  /** Inserts a property before the first one whose key value is not smaller. */
  function InsertIndexed(p: Property, ps: seq<Property>): (r: seq<Property>)
    ensures multiset(r) == multiset(ps) + multiset{p}
    ensures r[0] == p || (ps != [] && r[0] == ps[0])
  {
    if ps == [] || KeyValue(p) <= KeyValue(ps[0]) then [p] + ps
    else
      assert ps == [ps[0]] + ps[1..];
      [ps[0]] + InsertIndexed(p, ps[1..])
  }

  lemma {:induction false} InsertIndexedAscending(p: Property, ps: seq<Property>)
    requires IndexAscending(ps)
    ensures IndexAscending(InsertIndexed(p, ps))
  {
    if ps == [] || KeyValue(p) <= KeyValue(ps[0]) {
      var r := [p] + ps;
      assert forall k :: 1 <= k < |r| ==> r[k] == ps[k - 1];
    } else {
      var rest := InsertIndexed(p, ps[1..]);
      InsertIndexedAscending(p, ps[1..]);
      assert KeyValue(ps[0]) <= KeyValue(rest[0]) by {
        if rest[0] != p {
          assert rest[0] == ps[1..][0] == ps[1];
        }
      }
      var r := [ps[0]] + rest;
      assert forall k :: 1 <= k < |r| ==> r[k] == rest[k - 1];
      assert forall k :: 0 <= k < |rest| ==> KeyValue(rest[0]) <= KeyValue(rest[k]);
    }
  }

  function SortIndexed(ps: seq<Property>): (r: seq<Property>)
    ensures multiset(r) == multiset(ps)
    ensures IndexAscending(r)
  {
    if ps == [] then []
    else
      assert ps == [ps[0]] + ps[1..];
      InsertIndexedAscending(ps[0], SortIndexed(ps[1..]));
      InsertIndexed(ps[0], SortIndexed(ps[1..]))
  }

  /** The order in which `Object.keys` and `Object.entries` list an
      object's own properties: the array-index keys first, in ascending
      numeric order, then the other keys in insertion order. */
  function OwnEntries(props: seq<Property>): (r: seq<Property>)
    ensures multiset(r) == multiset(props)
  {
    FilterSplit(props, IsIndexProp, IsNamedProp);
    SortIndexed(Filter(props, IsIndexProp)) + Filter(props, IsNamedProp)
  }

  /** The array-index keys come first, in ascending numeric order. */
  lemma OwnEntriesIndexFirst(props: seq<Property>)
    ensures var r := OwnEntries(props);
      forall i, j :: 0 <= i < j < |r| && IsIndexKey(r[j].key) ==>
        IsIndexKey(r[i].key) && KeyValue(r[i]) <= KeyValue(r[j])
  {
    var indexed := SortIndexed(Filter(props, IsIndexProp));
    var named := Filter(props, IsNamedProp);
    var r := OwnEntries(props);
    assert r == indexed + named;
    FilterRearranged(props, IsIndexProp, indexed);
    forall j | |indexed| <= j < |r| ensures !IsIndexKey(r[j].key) {
      assert r[j] == named[j - |indexed|];
      assert r[j] in named;
    }
    forall i, j | 0 <= i < j < |r| && IsIndexKey(r[j].key)
      ensures IsIndexKey(r[i].key) && KeyValue(r[i]) <= KeyValue(r[j])
    {
      assert r[i] == indexed[i] && r[j] == indexed[j];
      assert indexed[i] in indexed;
    }
  }

  /** The other keys keep their insertion order. */
  lemma OwnEntriesNamed(props: seq<Property>)
    ensures Filter(OwnEntries(props), IsNamedProp) == Filter(props, IsNamedProp)
  {
    var indexed := SortIndexed(Filter(props, IsIndexProp));
    var named := Filter(props, IsNamedProp);
    FilterRearranged(props, IsIndexProp, indexed);
    forall i | 0 <= i < |indexed| ensures !IsNamedProp(indexed[i]) {
      assert indexed[i] in indexed;
    }
    forall i | 0 <= i < |named| ensures IsNamedProp(named[i]) {
      assert named[i] in named;
    }
    FilterAppend(indexed, named, IsNamedProp);
    FilterAllOrNone(indexed, IsNamedProp);
    FilterAllOrNone(named, IsNamedProp);
    assert OwnEntries(props) == indexed + named;
  }

  /** An object's property list: no key occurs twice. */
  predicate DistinctKeys(props: seq<Property>)
  {
    forall i, j :: 0 <= i < j < |props| ==> props[i].key != props[j].key
  }

  /** `o[key]` on an object: the property's value, or undefined. */
  function Lookup(props: seq<Property>, key: string): (r: JsValue)
    ensures key !in KeysOf(props) ==> r == Undefined
    ensures forall i :: 0 <= i < |props| && props[i].key == key && DistinctKeys(props) ==> r == props[i].value
  {
    if props == [] then Undefined
    else if props[0].key == key then props[0].value
    else
      assert forall i :: 1 <= i < |props| ==> props[i] == props[1..][i - 1];
      Lookup(props[1..], key)
  }

  /** `v[key]`: None when `v` is null or undefined (a TypeError). A
      primitive or an array has no property of the names used here. */
  function GetProp(v: JsValue, key: string): (r: Option<JsValue>)
    ensures r == None <==> v == Undefined || v == Null
    ensures v.Obj? ==> r == Some(Lookup(v.props, key))
  {
    match v
    case Undefined => None
    case Null => None
    case Obj(props) => Some(Lookup(props, key))
    case _ => Some(Undefined)
  }

  /** `o[key] = value`: an existing property keeps its place, a new one goes last. */
  function SetProp(props: seq<Property>, key: string, value: JsValue): (r: seq<Property>)
    ensures key in KeysOf(props) ==> KeysOf(r) == KeysOf(props)
    ensures key !in KeysOf(props) ==> KeysOf(r) == KeysOf(props) + [key]
    ensures forall i :: 0 <= i < |props| && props[i].key != key ==> r[i] == props[i]
  {
    if props == [] then [Property(key, value)]
    else if props[0].key == key then [Property(key, value)] + props[1..]
    else [props[0]] + SetProp(props[1..], key, value)
  }

  /** The first key of a list with distinct keys does not occur in its tail. */
  lemma HeadKeyNotInTail(props: seq<Property>)
    requires props != [] && DistinctKeys(props)
    ensures props[0].key !in KeysOf(props[1..])
    ensures DistinctKeys(props[1..])
  {
    assert forall i :: 1 <= i < |props| ==> props[1..][i - 1] == props[i];
  }

  /** An assignment keeps the keys distinct. */
  lemma SetPropDistinct(props: seq<Property>, key: string, value: JsValue)
    requires DistinctKeys(props)
    ensures DistinctKeys(SetProp(props, key, value))
  {
    var r := SetProp(props, key, value);
    var keys := KeysOf(r);
    if key in KeysOf(props) {
      assert forall i :: 0 <= i < |r| ==> r[i].key == props[i].key;
    } else {
      forall i, j | 0 <= i < j < |r| ensures r[i].key != r[j].key {
        assert keys[i] == r[i].key && keys[j] == r[j].key;
        if j == |props| {
          assert keys[i] == KeysOf(props)[i];
        } else {
          assert keys[i] == props[i].key && keys[j] == props[j].key;
        }
      }
    }
  }

  /** After an assignment the property reads back the assigned value, every
      other property reads as before, and keys stay distinct. */
  lemma {:induction false} SetPropLookup(props: seq<Property>, key: string, value: JsValue)
    requires DistinctKeys(props)
    ensures DistinctKeys(SetProp(props, key, value))
    ensures Lookup(SetProp(props, key, value), key) == value
    ensures forall k :: k != key ==> Lookup(SetProp(props, key, value), k) == Lookup(props, k)
  {
    SetPropDistinct(props, key, value);
    if props != [] && props[0].key != key {
      HeadKeyNotInTail(props);
      SetPropLookup(props[1..], key, value);
      var r := SetProp(props, key, value);
      assert r[1..] == SetProp(props[1..], key, value);
    } else if props != [] {
      var r := SetProp(props, key, value);
      assert r[1..] == props[1..];
    }
  }

  /** A value inside a template literal: strings as they are, the other
      primitives by their fixed spellings. Numbers, arrays and objects are
      not modelled (None). */
  function TemplateString(v: JsValue): Option<string>
  {
    match v
    case Str(s) => Some(s)
    case Undefined => Some("undefined")
    case Null => Some("null")
    case Bool(b) => Some(if b then "true" else "false")
    case _ => None
  }
}

=== FILE: lot_duplicates.dfy ===
/** The dialog that merges duplicate stock lots: the lot read first, the
    list of its duplicates with a `selected` and a `merge` flag on each row,
    choosing the lot to keep, marking every other lot for merging, and the
    submission. The lot service's promises, the notifications and the modal
    instance are outside the model: their results are parameters and the
    submission's outcome says which of them it calls. */
module LotDuplicates {
  import opened Common

  /** A lot as the lot service returns it. */
  datatype Lot = Lot(uuid: string, lotLabel: string, inventoryUuid: string)

  /** A row of the dialog's list: the lot and the two flags the view and the
      controller update in place. */
  class LotRow {
    const lot: Lot
    var selected: bool
    var merge: bool

    constructor(lot: Lot, selected: bool, merge: bool)
      ensures this.lot == lot && this.selected == selected && this.merge == merge
    {
      this.lot := lot;
      this.selected := selected;
      this.merge := merge;
    }
  }

  /** The contents of a row at one moment. */
  datatype RowState = RowState(lot: Lot, selected: bool, merge: bool)

  function Snapshot(rows: seq<LotRow>): (s: seq<RowState>)
    reads rows
    ensures |s| == |rows|
    ensures forall i :: 0 <= i < |rows| ==> s[i] == RowState(rows[i].lot, rows[i].selected, rows[i].merge)
  {
    if rows == [] then []
    else [RowState(rows[0].lot, rows[0].selected, rows[0].merge)] + Snapshot(rows[1..])
  }

  // ---------------------------------------------------------------------
  // What each step does to the rows
  // ---------------------------------------------------------------------

  /** The rows startup builds from the duplicates. */
  function StartRows(dupes: seq<Lot>, selectedUuid: string): (r: seq<RowState>)
    ensures |r| == |dupes|
  {
    seq(|dupes|, i requires 0 <= i < |dupes| => RowState(dupes[i], dupes[i].uuid == selectedUuid, false))
  }

  /** The rows after choosing the lot with the given uuid. */
  function SelectRows(rows: seq<RowState>, uuid: string): (r: seq<RowState>)
    ensures |r| == |rows|
  {
    seq(|rows|, i requires 0 <= i < |rows| => rows[i].(selected := rows[i].lot.uuid == uuid, merge := false))
  }

  /** The rows after the "select all" box is set to `all`. */
  function SelectAllRows(rows: seq<RowState>, selectedUuid: string, all: bool): (r: seq<RowState>)
    ensures |r| == |rows|
  {
    seq(|rows|, i requires 0 <= i < |rows| => if rows[i].lot.uuid != selectedUuid then rows[i].(merge := all) else rows[i])
  }

  /** The uuids of the rows marked for merging, in list order. */
  function MergeList(rows: seq<RowState>): (uuids: seq<string>)
    ensures |uuids| <= |rows|
    ensures uuids == [] <==> forall i :: 0 <= i < |rows| ==> !rows[i].merge
    ensures forall u :: u in uuids <==> exists i :: 0 <= i < |rows| && rows[i].merge && rows[i].lot.uuid == u
  {
    if rows == [] then []
    else
      var rest := MergeList(rows[1..]);
      assert forall i :: 1 <= i < |rows| ==> rows[1..][i - 1] == rows[i];
      (if rows[0].merge then [rows[0].lot.uuid] else []) + rest
  }

  /** What submitting does: nothing for an invalid form, a warning and a
      plain close when no lot is marked, otherwise a merge request into the
      selected lot (which, once it succeeds, reports how many lots were
      merged and closes with 'success'). Reading the uuid of a missing
      selected lot throws. */
  datatype SubmitOutcome = Invalid | NoLotsMerged | MergeRequest(target: string, merged: seq<string>) | Thrown

  const NoLotsMergedKey := "LOTS.NO_LOTS_MERGED"

  function SubmitOf(formInvalid: bool, rows: seq<RowState>, selectedLot: Option<Lot>): SubmitOutcome
  {
    if formInvalid then Invalid
    else
      var toMerge := MergeList(rows);
      if toMerge == [] then NoLotsMerged
      else if selectedLot.None? then Thrown
      else MergeRequest(selectedLot.value.uuid, toMerge)
  }

  /** The selected lot is not marked for merging. */
  predicate KeepsTarget(rows: seq<RowState>, selectedLot: Option<Lot>)
  {
    forall i :: 0 <= i < |rows| && rows[i].merge ==> selectedLot.Some? && rows[i].lot.uuid != selectedLot.value.uuid
  }

  // ---------------------------------------------------------------------
  // The dialog's controller
  // ---------------------------------------------------------------------

  class DuplicateLotsModal {
    var selectedLot: Option<Lot>
    var lots: seq<LotRow>
    var allSelected: bool

    /** Every row is its own object, and rows are listed only once a lot
        to keep has been read. Whether the lot to keep is marked for merging
        depends on the view's row checkboxes (`SetMerge`): the controller's
        own steps keep it unmarked (`KeepsTarget`), the view does not. */
    predicate Valid()
      reads this, lots
    {
      && (forall i, j :: 0 <= i < j < |lots| ==> lots[i] != lots[j])
      && (lots != [] ==> selectedLot.Some?)
    }

    /** The controller: empty state, then startup with what `Lots.read` and
        `Lots.dupes` resolve to (None when the promise is rejected). */
    constructor(read: Option<Lot>, dupes: Option<seq<Lot>>)
      ensures Valid() && KeepsTarget(Snapshot(lots), selectedLot)
      ensures selectedLot == read && !allSelected
      ensures read.Some? && dupes.Some? ==> Snapshot(lots) == StartRows(dupes.value, read.value.uuid)
      ensures read.None? || dupes.None? ==> lots == []
    {
      selectedLot := None;
      lots := [];
      allSelected := false;
      new;
      Startup(read, dupes);
    }

    /** startup: remembers the lot read, then lists its duplicates with only
        that lot selected and none marked. */
    method Startup(read: Option<Lot>, dupes: Option<seq<Lot>>)
      requires lots == [] && selectedLot.None?
      modifies this
      ensures Valid() && KeepsTarget(Snapshot(lots), selectedLot)
      ensures selectedLot == read && allSelected == old(allSelected)
      ensures read.Some? && dupes.Some? ==> Snapshot(lots) == StartRows(dupes.value, read.value.uuid)
      ensures read.None? || dupes.None? ==> lots == []
    {
      if read.None? {
        return;
      }
      selectedLot := read;
      if dupes.None? {
        return;
      }
      lots := NewRows(dupes.value, read.value.uuid);
      StartupRows(dupes.value, read.value);
    }

    /** The `lots.map` of startup: a fresh row per duplicate. */
    static method NewRows(dupes: seq<Lot>, selectedUuid: string) returns (rows: seq<LotRow>)
      ensures forall j, k :: 0 <= j < k < |rows| ==> rows[j] != rows[k]
      ensures Snapshot(rows) == StartRows(dupes, selectedUuid)
    {
      rows := [];
      var i := 0;
      while i < |dupes|
        invariant 0 <= i <= |dupes| && |rows| == i
        invariant forall j, k :: 0 <= j < k < i ==> rows[j] != rows[k]
        invariant forall j :: 0 <= j < i ==>
          rows[j].lot == dupes[j] && rows[j].selected == (dupes[j].uuid == selectedUuid) && !rows[j].merge
      {
        var row := new LotRow(dupes[i], dupes[i].uuid == selectedUuid, false);
        rows := rows + [row];
        i := i + 1;
      }
    }

    /** selectLot: the chosen lot becomes the one to keep, it alone is
        selected, and every mark is cleared. */
    method SelectLot(lotSelected: Lot)
      requires Valid()
      modifies this, lots
      ensures Valid() && KeepsTarget(Snapshot(lots), selectedLot)
      ensures selectedLot == Some(lotSelected) && lots == old(lots) && allSelected == old(allSelected)
      ensures Snapshot(lots) == SelectRows(old(Snapshot(lots)), lotSelected.uuid)
    {
      ghost var before := Snapshot(lots);
      selectedLot := Some(lotSelected);
      ChooseRow(lots, lotSelected.uuid);
      StepsKeepTarget(before, lotSelected);
    }

    /** The loop of selectLot over the rows. */
    static method ChooseRow(rows: seq<LotRow>, uuid: string)
      requires forall j, k :: 0 <= j < |rows| && 0 <= k < |rows| && j != k ==> rows[j] != rows[k]
      modifies rows
      ensures Snapshot(rows) == SelectRows(old(Snapshot(rows)), uuid)
    {
      ghost var before := Snapshot(rows);
      var i := 0;
      while i < |rows|
        invariant 0 <= i <= |rows|
        invariant forall j :: 0 <= j < i ==> rows[j].selected == (rows[j].lot.uuid == uuid) && !rows[j].merge
        invariant forall j :: i <= j < |rows| ==> rows[j].selected == before[j].selected && rows[j].merge == before[j].merge
      {
        rows[i].selected := rows[i].lot.uuid == uuid;
        rows[i].merge := false;
        i := i + 1;
      }
      ghost var after := Snapshot(rows);
      assert forall j :: 0 <= j < |rows| ==> after[j] == SelectRows(before, uuid)[j];
    }

    /** The "select all" checkbox's binding. */
    method SetAllSelected(value: bool)
      modifies this
      ensures allSelected == value && selectedLot == old(selectedLot) && lots == old(lots)
    {
      allSelected := value;
    }

    /** The `merge` checkbox of the row at position `i`: the view writes the
        row's flag directly, for any row, the lot to keep's included. */
    method SetMerge(i: nat, b: bool)
      requires Valid() && i < |lots|
      modifies lots[i]
      ensures Valid()
      ensures Snapshot(lots) == old(Snapshot(lots))[i := old(Snapshot(lots))[i].(merge := b)]
    {
      ghost var before := Snapshot(lots);
      lots[i].merge := b;
      ghost var after := Snapshot(lots);
      assert forall j :: 0 <= j < |lots| && j != i ==> lots[j] != lots[i];
      assert forall j :: 0 <= j < |lots| ==> after[j] == before[i := before[i].(merge := b)][j];
    }

    /** selectAll: every lot other than the one to keep takes the checkbox's
        value as its mark. */
    method SelectAll()
      requires Valid()
      modifies lots
      ensures Valid()
      ensures lots != [] ==> (selectedLot.Some? &&
        Snapshot(lots) == SelectAllRows(old(Snapshot(lots)), selectedLot.value.uuid, allSelected))
      ensures lots == [] ==> Snapshot(lots) == []
      ensures KeepsTarget(old(Snapshot(lots)), selectedLot) ==> KeepsTarget(Snapshot(lots), selectedLot)
    {
      if lots == [] {
        return;
      }
      ghost var before := Snapshot(lots);
      MarkRows(lots, selectedLot.value.uuid, allSelected);
      if KeepsTarget(before, selectedLot) {
        SelectAllKeepsTarget(before, selectedLot.value, allSelected);
      }
    }

    /** The loop of selectAll over the rows. */
    static method MarkRows(rows: seq<LotRow>, keep: string, all: bool)
      requires forall j, k :: 0 <= j < |rows| && 0 <= k < |rows| && j != k ==> rows[j] != rows[k]
      modifies rows
      ensures Snapshot(rows) == SelectAllRows(old(Snapshot(rows)), keep, all)
    {
      ghost var before := Snapshot(rows);
      ghost var target := SelectAllRows(before, keep, all);
      var i := 0;
      while i < |rows|
        invariant 0 <= i <= |rows|
        invariant forall j :: 0 <= j < |rows| ==> rows[j].selected == before[j].selected
        invariant forall j :: 0 <= j < i ==> rows[j].merge == target[j].merge
        invariant forall j :: i <= j < |rows| ==> rows[j].merge == before[j].merge
      {
        if rows[i].lot.uuid != keep {
          assert forall j :: 0 <= j < |rows| && j != i ==> rows[j] != rows[i];
          rows[i].merge := all;
        }
        i := i + 1;
      }
      ghost var after := Snapshot(rows);
      assert forall j :: 0 <= j < |rows| ==> after[j] == target[j];
    }

    /** submit: what the dialog does with the form's validity. */
    method Submit(formInvalid: bool) returns (outcome: SubmitOutcome)
      requires Valid()
      ensures outcome == SubmitOf(formInvalid, Snapshot(lots), selectedLot)
      ensures outcome != Thrown
      ensures outcome.MergeRequest? && KeepsTarget(Snapshot(lots), selectedLot) ==> outcome.target !in outcome.merged
    {
      if formInvalid {
        return Invalid;
      }
      var lotsToMerge := MergeList(Snapshot(lots));
      if |lotsToMerge| == 0 {
        return NoLotsMerged;
      }
      assert lots != [];
      if KeepsTarget(Snapshot(lots), selectedLot) {
        TargetNotMerged(Snapshot(lots), selectedLot);
      }
      outcome := MergeRequest(selectedLot.value.uuid, lotsToMerge);
    }
  }

  // ---------------------------------------------------------------------
  // Properties
  // ---------------------------------------------------------------------

  /** A list with rows has a lot to keep: the startup rows are built only
      after it is read. */
  lemma SelectedKnown(rows: seq<RowState>, selectedLot: Option<Lot>)
    requires KeepsTarget(rows, selectedLot)
    ensures MergeList(rows) != [] ==> selectedLot.Some?
  {
    var m := MergeList(rows);
    if m != [] {
      assert m[0] in m;
    }
  }

  /** The lot to keep is never in the list of lots merged into it. */
  lemma TargetNotMerged(rows: seq<RowState>, selectedLot: Option<Lot>)
    requires KeepsTarget(rows, selectedLot)
    ensures MergeList(rows) != [] ==> selectedLot.Some? && selectedLot.value.uuid !in MergeList(rows)
  {
    SelectedKnown(rows, selectedLot);
  }

  /** The rows merged keep the order of the list: the merge list of two
      parts is the two merge lists. */
  lemma {:induction false} MergeListAppend(a: seq<RowState>, b: seq<RowState>)
    ensures MergeList(a + b) == MergeList(a) + MergeList(b)
  {
    if a == [] {
      assert a + b == b;
    } else {
      var ab := a + b;
      assert ab[0] == a[0] && ab[1..] == a[1..] + b;
      var head := if a[0].merge then [a[0].lot.uuid] else [];
      assert MergeList(ab) == head + MergeList(ab[1..]);
      assert MergeList(a) == head + MergeList(a[1..]);
      MergeListAppend(a[1..], b);
    }
  }

  /** Startup: the rows are the duplicates in order, a row is selected iff
      it is the lot read, and none is marked. */
  lemma StartupRows(dupes: seq<Lot>, read: Lot)
    ensures var r := StartRows(dupes, read.uuid);
      && (forall i :: 0 <= i < |r| ==> r[i].lot == dupes[i] && (r[i].selected <==> dupes[i].uuid == read.uuid))
      && MergeList(r) == []
      && KeepsTarget(r, Some(read))
  {
  }

  /** After choosing a lot, with distinct uuids in the list, exactly its row
      is selected, nothing is marked, and the list keeps its lots and order. */
  lemma SelectExactlyOne(rows: seq<RowState>, k: nat)
    requires k < |rows|
    requires forall i, j :: 0 <= i < j < |rows| ==> rows[i].lot.uuid != rows[j].lot.uuid
    ensures var r := SelectRows(rows, rows[k].lot.uuid);
      && (forall i :: 0 <= i < |r| ==> r[i].lot == rows[i].lot && (r[i].selected <==> i == k))
      && MergeList(r) == []
  {
    var r := SelectRows(rows, rows[k].lot.uuid);
    forall i | 0 <= i < |r| ensures r[i].selected <==> i == k {
      if i != k {
        assert rows[i].lot.uuid != rows[k].lot.uuid;
      }
    }
  }

  /** Checking "select all" marks every lot but the one to keep; unchecking
      it clears those marks, so only a mark on the kept lot could remain. The
      lots, their order and the selection are untouched. */
  lemma SelectAllMarks(rows: seq<RowState>, keep: string, all: bool)
    ensures var r := SelectAllRows(rows, keep, all);
      && (forall i :: 0 <= i < |r| ==> r[i].lot == rows[i].lot && r[i].selected == rows[i].selected)
      && (forall i :: 0 <= i < |r| && rows[i].lot.uuid != keep ==> r[i].merge == all)
      && (forall i :: 0 <= i < |r| && rows[i].lot.uuid == keep ==> r[i].merge == rows[i].merge)
      && (forall u :: u in MergeList(r) && u != keep ==> all)
      && (all ==> forall i :: 0 <= i < |rows| && rows[i].lot.uuid != keep ==> rows[i].lot.uuid in MergeList(r))
  {
    var r := SelectAllRows(rows, keep, all);
    forall u | u in MergeList(r) && u != keep ensures all {
      var i :| 0 <= i < |r| && r[i].merge && r[i].lot.uuid == u;
    }
    if all {
      forall i | 0 <= i < |rows| && rows[i].lot.uuid != keep ensures rows[i].lot.uuid in MergeList(r) {
        assert r[i].merge && r[i].lot.uuid == rows[i].lot.uuid;
      }
    }
  }

  /** Choosing a lot clears every mark, so the lot to keep is unmarked
      whatever the view had marked before. */
  lemma StepsKeepTarget(rows: seq<RowState>, other: Lot)
    ensures KeepsTarget(SelectRows(rows, other.uuid), Some(other))
    ensures MergeList(SelectRows(rows, other.uuid)) == []
  {
  }

  /** "Select all" never marks the lot to keep, so it stays unmarked if it
      was. */
  lemma SelectAllKeepsTarget(rows: seq<RowState>, keep: Lot, all: bool)
    requires KeepsTarget(rows, Some(keep))
    ensures KeepsTarget(SelectAllRows(rows, keep.uuid, all), Some(keep))
  {
  }

  /** Submit has no guard of its own: once the view marks the kept lot's own
      row, the merge request names the lot to keep among the lots merged
      into it. */
  lemma KeptLotMarkedIsSent(keep: Lot)
    ensures SubmitOf(false, [RowState(keep, true, true)], Some(keep)) == MergeRequest(keep.uuid, [keep.uuid])
    ensures !KeepsTarget([RowState(keep, true, true)], Some(keep))
  {
    assert [RowState(keep, true, true)][1..] == [];
  }

  /** The three outcomes of submit. */
  lemma SubmitOutcomes(formInvalid: bool, rows: seq<RowState>, selectedLot: Option<Lot>)
    requires KeepsTarget(rows, selectedLot)
    ensures var o := SubmitOf(formInvalid, rows, selectedLot);
      && (o == Invalid <==> formInvalid)
      && (o == NoLotsMerged <==> !formInvalid && forall i :: 0 <= i < |rows| ==> !rows[i].merge)
      && (o.MergeRequest? <==> !formInvalid && exists i :: 0 <= i < |rows| && rows[i].merge)
      && (o.MergeRequest? ==> o.target == selectedLot.value.uuid && o.merged == MergeList(rows) && o.target !in o.merged)
      && o != Thrown
  {
    var m := MergeList(rows);
    TargetNotMerged(rows, selectedLot);
    if exists i :: 0 <= i < |rows| && rows[i].merge {
      var i :| 0 <= i < |rows| && rows[i].merge;
      assert rows[i].lot.uuid in m;
    }
    if m != [] {
      assert m[0] in m;
    }
  }
}

=== FILE: money.dfy ===
/** Decimal rounding of monetary amounts. The helper `util.roundDecimal` is
    not part of this model; its behaviour is the one its unit tests fix:
    round half up at the given number of decimal places, 4 by default. */
module Money {

  const DEFAULT_PRECISION: nat := 4

  function Pow10(n: nat): (r: real)
    ensures r >= 1.0
  {
    if n == 0 then 1.0 else 10.0 * Pow10(n - 1)
  }

  /** The number of units of the last kept decimal place, rounded half up. */
  function RoundedUnits(x: real, places: nat): int
  {
    (x * Pow10(places) + 0.5).Floor
  }

  /** `x` rounded to `places` decimals, halves rounded up: the result is a
      whole number of units of the last kept place. */
  function RoundDecimal(x: real, places: nat): (r: real)
    ensures r * Pow10(places) == RoundedUnits(x, places) as real
  {
    DivTimes(RoundedUnits(x, places) as real, Pow10(places));
    RoundedUnits(x, places) as real / Pow10(places)
  }

  lemma DivTimes(a: real, b: real)
    requires b != 0.0
    ensures a / b * b == a
  {
  }

  /** The rounded value is within half a unit of the last place: strictly
      less than half below, at most half above (halves go up). */
  lemma RoundDecimalBounds(x: real, places: nat)
    ensures -0.5 < (RoundDecimal(x, places) - x) * Pow10(places) <= 0.5
  {
    var scale := Pow10(places);
    var y := x * scale + 0.5;
    assert y.Floor as real <= y < y.Floor as real + 1.0;
    assert (RoundDecimal(x, places) - x) * scale == RoundDecimal(x, places) * scale - x * scale;
  }

  /** A value that already has `places` decimals is left unchanged. */
  lemma RoundDecimalExact(k: int, places: nat)
    ensures RoundDecimal(k as real / Pow10(places), places) == k as real / Pow10(places)
  {
    var scale := Pow10(places);
    var x := k as real / scale;
    DivTimes(k as real, scale);
    assert x * scale + 0.5 == k as real + 0.5;
    assert RoundedUnits(x, places) == k;
  }

  /** The cases the unit tests of `roundDecimal` check. */
  lemma RoundDecimalExamples()
    ensures RoundDecimal(12.125, 2) == 12.13
    ensures RoundDecimal(12.125, 3) == 12.125
    ensures RoundDecimal(12.125, 0) == 12.0
    ensures RoundDecimal(12.0, 2) == 12.0
    ensures RoundDecimal(12.11111, DEFAULT_PRECISION) == 12.1111
  {
    assert Pow10(2) == 100.0 && Pow10(3) == 1000.0 && Pow10(4) == 10000.0;
    assert RoundedUnits(12.125, 2) == 1213;
    assert RoundedUnits(12.125, 3) == 12125;
    assert RoundedUnits(12.125, 0) == 12;
    assert RoundedUnits(12.0, 2) == 1200;
    assert RoundedUnits(12.11111, 4) == 121111;
  }
}

=== FILE: payroll_benefits.dfy ===
/** The benefit lines an employee adds to the shared salary commitment voucher:
    server/controllers/payroll/multiplePayroll/calculateEmployeeBenefits.js */
module PayrollBenefits {
  import opened Common
  import opened Vouchers

  /** The benefit line of one rubric: a debit of its value on its expense
      account, on the salary voucher, under the employee's cost center. */
  function BenefitLine(r: Rubric, id: nat, salaryVoucherUuid: Uuid, employee: Employee): VoucherItem
  {
    VoucherItem(Uuid(id), r.expenseAccountId, r.value, 0.0, salaryVoucherUuid, None, employee.costCenterId)
  }

  /** The `map` of lines 27-49; line ids are requested from `nextId` on. */
  function BenefitLines(benefits: seq<Rubric>, salaryVoucherUuid: Uuid, employee: Employee, nextId: nat): seq<VoucherItem>
  {
    if benefits == [] then []
    else [BenefitLine(benefits[0], nextId, salaryVoucherUuid, employee)]
         + BenefitLines(benefits[1..], salaryVoucherUuid, employee, nextId + 1)
  }

  /** calculateEmployeeBenefits: one line per rubric the benefit predicate
      accepts, in input order. */
  function CalculateEmployeeBenefits(
    employee: Employee, rubrics: seq<Rubric>, isBenefit: Rubric -> bool,
    salaryVoucherUuid: Uuid, firstId: nat): seq<VoucherItem>
  {
    BenefitLines(Filter(rubrics, isBenefit), salaryVoucherUuid, employee, firstId)
  }

  lemma {:induction false} BenefitLinesShape(benefits: seq<Rubric>, salaryVoucherUuid: Uuid, employee: Employee, nextId: nat)
    ensures var lines := BenefitLines(benefits, salaryVoucherUuid, employee, nextId);
      && |lines| == |benefits|
      && forall k :: 0 <= k < |benefits| ==> lines[k] == BenefitLine(benefits[k], nextId + k, salaryVoucherUuid, employee)
  {
    if benefits != [] {
      var rest := BenefitLines(benefits[1..], salaryVoucherUuid, employee, nextId + 1);
      BenefitLinesShape(benefits[1..], salaryVoucherUuid, employee, nextId + 1);
      var lines := BenefitLines(benefits, salaryVoucherUuid, employee, nextId);
      forall k | 1 <= k < |benefits|
        ensures lines[k] == BenefitLine(benefits[k], nextId + k, salaryVoucherUuid, employee)
      {
        assert lines[k] == rest[k - 1];
        assert benefits[k] == benefits[1..][k - 1];
      }
    }
  }

  lemma {:induction false} BenefitLinesTotals(benefits: seq<Rubric>, salaryVoucherUuid: Uuid, employee: Employee, nextId: nat)
    ensures TotalDebit(BenefitLines(benefits, salaryVoucherUuid, employee, nextId)) == SumValues(benefits)
    ensures TotalCredit(BenefitLines(benefits, salaryVoucherUuid, employee, nextId)) == 0.0
  {
    if benefits != [] {
      var line := BenefitLine(benefits[0], nextId, salaryVoucherUuid, employee);
      var rest := BenefitLines(benefits[1..], salaryVoucherUuid, employee, nextId + 1);
      BenefitLinesTotals(benefits[1..], salaryVoucherUuid, employee, nextId + 1);
      TotalsAppend([line], rest);
      assert [line][1..] == [];
    }
  }

  /** What the commitment builder relies on: exactly one line per benefit
      rubric, in input order, each debiting the rubric's value on its expense
      account, crediting nothing, on the caller's salary voucher, with no
      entity and the employee's cost center; the lines' total debit is the
      benefit rubrics' total and their total credit is zero. */
  lemma CalculateEmployeeBenefitsSpec(
    employee: Employee, rubrics: seq<Rubric>, isBenefit: Rubric -> bool,
    salaryVoucherUuid: Uuid, firstId: nat)
    ensures var benefits := Filter(rubrics, isBenefit);
      var lines := CalculateEmployeeBenefits(employee, rubrics, isBenefit, salaryVoucherUuid, firstId);
      && |lines| == |benefits|
      && (forall k :: 0 <= k < |lines| ==>
            && lines[k].accountId == benefits[k].expenseAccountId
            && lines[k].debit == benefits[k].value && lines[k].credit == 0.0
            && lines[k].voucherUuid == salaryVoucherUuid
            && lines[k].entityUuid == None
            && lines[k].costCenterId == employee.costCenterId
            && lines[k].uuid == Uuid(firstId + k))
      && TotalDebit(lines) == SumValues(benefits)
      && TotalCredit(lines) == 0.0
  {
    var benefits := Filter(rubrics, isBenefit);
    BenefitLinesShape(benefits, salaryVoucherUuid, employee, firstId);
    BenefitLinesTotals(benefits, salaryVoucherUuid, employee, firstId);
  }

  /** With no benefit rubric there is no line. */
  lemma NoBenefitNoLine(employee: Employee, rubrics: seq<Rubric>, isBenefit: Rubric -> bool, salaryVoucherUuid: Uuid, firstId: nat)
    requires forall i :: 0 <= i < |rubrics| ==> !isBenefit(rubrics[i])
    ensures CalculateEmployeeBenefits(employee, rubrics, isBenefit, salaryVoucherUuid, firstId) == []
  {
    FilterAllOrNone(rubrics, isBenefit);
  }
}

=== FILE: payroll_taxes.dfy ===
/** The employer payroll-tax ("social charge") voucher of one employee:
    server/controllers/payroll/multiplePayroll/calculateEmployeePayrollTaxes.js */
module PayrollTaxes {
  import opened Common
  import opened Vouchers
  import Money

  /** Transaction type of payroll tax vouchers. */
  const PAYROLL_TAX_TYPE_ID: nat := 17
  const DECIMAL_PRECISION: nat := 2

  const INSERT_VOUCHER: string := "INSERT INTO voucher SET ?"
  const INSERT_VOUCHER_ITEMS: string :=
    "INSERT INTO voucher_item (uuid, account_id, debit, credit, voucher_uuid, entity_uuid, description, cost_center_id) VALUES ?"
  const POST_VOUCHER: string := "CALL PostVoucher(?);"

  /** The voucher record; its description and shared properties are not modelled. */
  datatype Voucher = Voucher(uuid: Uuid, typeId: nat, amount: real)

  datatype Params =
    | VoucherRecord(voucher: Voucher)
    | ItemRows(items: seq<VoucherItem>)
    | VoucherRef(voucherUuid: Uuid)

  /** One entry of the transaction list: a query and its parameters. */
  datatype Statement = Statement(query: string, params: Params)

  /** The rubrics a tax voucher is built from: those the payroll-tax
      predicate accepts, then those the CNSS predicate accepts, each group
      in input order. A rubric accepted by both appears twice. */
  function Applicable(rubrics: seq<Rubric>, isPayrollTax: Rubric -> bool, isCNSS: Rubric -> bool): seq<Rubric>
  {
    Filter(rubrics, isPayrollTax) + Filter(rubrics, isCNSS)
  }

  /** The credit line of a tax rubric: its third-party account, no cost center. */
  function CreditLine(r: Rubric, id: nat, voucherUuid: Uuid): VoucherItem
  {
    VoucherItem(Uuid(id), r.debtorAccountId, 0.0, r.value, voucherUuid, None, None)
  }

  /** The debit line of a tax rubric: its expense account, the employee's cost center. */
  function DebitLine(r: Rubric, id: nat, voucherUuid: Uuid, employee: Employee): VoucherItem
  {
    VoucherItem(Uuid(id), r.expenseAccountId, r.value, 0.0, voucherUuid, None, employee.costCenterId)
  }

  /** The `flatMap` of lines 55-83: a credit line then a debit line per
      rubric; line ids are requested from `nextId` on, in that order. */
  function TaxItems(rubrics: seq<Rubric>, voucherUuid: Uuid, employee: Employee, nextId: nat): seq<VoucherItem>
  {
    if rubrics == [] then []
    else [CreditLine(rubrics[0], nextId, voucherUuid), DebitLine(rubrics[0], nextId + 1, voucherUuid, employee)]
         + TaxItems(rubrics[1..], voucherUuid, employee, nextId + 2)
  }

  /** Two lines per rubric, in rubric order, credit first; every line carries
      the voucher uuid, no entity, and a fresh id. */
  lemma {:induction false} TaxItemsShape(rubrics: seq<Rubric>, voucherUuid: Uuid, employee: Employee, nextId: nat)
    ensures var items := TaxItems(rubrics, voucherUuid, employee, nextId);
      && |items| == 2 * |rubrics|
      && (forall k :: 0 <= k < |rubrics| ==>
            items[2 * k] == CreditLine(rubrics[k], nextId + 2 * k, voucherUuid)
            && items[2 * k + 1] == DebitLine(rubrics[k], nextId + 2 * k + 1, voucherUuid, employee))
      && (forall i :: 0 <= i < |items| ==>
            items[i].uuid == Uuid(nextId + i) && items[i].voucherUuid == voucherUuid && items[i].entityUuid == None)
  {
    if rubrics != [] {
      var rest := TaxItems(rubrics[1..], voucherUuid, employee, nextId + 2);
      TaxItemsShape(rubrics[1..], voucherUuid, employee, nextId + 2);
      var items := TaxItems(rubrics, voucherUuid, employee, nextId);
      assert items[2..] == rest;
      forall k | 1 <= k < |rubrics|
        ensures items[2 * k] == CreditLine(rubrics[k], nextId + 2 * k, voucherUuid)
        ensures items[2 * k + 1] == DebitLine(rubrics[k], nextId + 2 * k + 1, voucherUuid, employee)
      {
        assert items[2 * k] == rest[2 * (k - 1)];
        assert items[2 * k + 1] == rest[2 * (k - 1) + 1];
        assert rubrics[k] == rubrics[1..][k - 1];
      }
      forall i | 2 <= i < |items|
        ensures items[i].uuid == Uuid(nextId + i)
      {
        assert items[i] == rest[i - 2];
      }
    }
  }

  /** Each pair credits and debits the same value, so the lines balance and
      each side totals the rubric values. */
  lemma {:induction false} TaxItemsBalanced(rubrics: seq<Rubric>, voucherUuid: Uuid, employee: Employee, nextId: nat)
    ensures TotalDebit(TaxItems(rubrics, voucherUuid, employee, nextId)) == SumValues(rubrics)
    ensures TotalCredit(TaxItems(rubrics, voucherUuid, employee, nextId)) == SumValues(rubrics)
  {
    if rubrics != [] {
      var pair := [CreditLine(rubrics[0], nextId, voucherUuid), DebitLine(rubrics[0], nextId + 1, voucherUuid, employee)];
      var rest := TaxItems(rubrics[1..], voucherUuid, employee, nextId + 2);
      TaxItemsBalanced(rubrics[1..], voucherUuid, employee, nextId + 2);
      TotalsAppend(pair, rest);
      SumOfPair(pair[0], pair[1], DebitOf);
      SumOfPair(pair[0], pair[1], CreditOf);
      assert TaxItems(rubrics, voucherUuid, employee, nextId) == pair + rest;
    }
  }

  /** calculateEmployeePayrollTaxes: the transaction list of one employee's
      payroll-tax voucher. `firstId` is the first id the uuid source hands
      out during the call: the voucher takes it, the lines the following ones. */
  method CalculateEmployeePayrollTaxes(
    employee: Employee, rubrics: seq<Rubric>,
    isPayrollTax: Rubric -> bool, isCNSS: Rubric -> bool, firstId: nat)
    returns (transactions: seq<Statement>)
    ensures Applicable(rubrics, isPayrollTax, isCNSS) == [] ==> transactions == []
    ensures Applicable(rubrics, isPayrollTax, isCNSS) != [] ==>
      var applicable := Applicable(rubrics, isPayrollTax, isCNSS);
      var voucherUuid := Uuid(firstId);
      && |transactions| == 3
      && transactions[0] == Statement(INSERT_VOUCHER, VoucherRecord(
           Voucher(voucherUuid, PAYROLL_TAX_TYPE_ID, Money.RoundDecimal(SumValues(applicable), DECIMAL_PRECISION))))
      && transactions[1].query == INSERT_VOUCHER_ITEMS && transactions[1].params.ItemRows?
      && transactions[2] == Statement(POST_VOUCHER, VoucherRef(voucherUuid))
      && var items := transactions[1].params.items;
      && |items| == 2 * |applicable|
      && TotalDebit(items) == TotalCredit(items) == SumValues(applicable)
      && (forall k :: 0 <= k < |applicable| ==>
            && items[2 * k].accountId == applicable[k].debtorAccountId
            && items[2 * k].debit == 0.0 && items[2 * k].credit == applicable[k].value
            && items[2 * k].costCenterId == None
            && items[2 * k + 1].accountId == applicable[k].expenseAccountId
            && items[2 * k + 1].debit == applicable[k].value && items[2 * k + 1].credit == 0.0
            && items[2 * k + 1].costCenterId == employee.costCenterId)
      && (forall i :: 0 <= i < |items| ==>
            items[i].voucherUuid == voucherUuid && items[i].entityUuid == None
            && items[i].uuid == Uuid(firstId + 1 + i))
  {
    var payrollTaxRubrics := Filter(rubrics, isPayrollTax);
    var cnssTaxes := Filter(rubrics, isCNSS);
    var applicable := payrollTaxRubrics + cnssTaxes;

    transactions := [];
    if |applicable| == 0 {
      return;
    }

    var total := SumValues(applicable);
    var voucher := Voucher(Uuid(firstId), PAYROLL_TAX_TYPE_ID, Money.RoundDecimal(total, DECIMAL_PRECISION));
    transactions := transactions + [Statement(INSERT_VOUCHER, VoucherRecord(voucher))];

    var items := TaxItems(applicable, voucher.uuid, employee, firstId + 1);
    TaxItemsShape(applicable, voucher.uuid, employee, firstId + 1);
    TaxItemsBalanced(applicable, voucher.uuid, employee, firstId + 1);
    transactions := transactions + [Statement(INSERT_VOUCHER_ITEMS, ItemRows(items))];

    transactions := transactions + [Statement(POST_VOUCHER, VoucherRef(voucher.uuid))];
  }
}

=== FILE: payslip.dfy ===
/** The computations of the payslip and payroll report generator around its
    database and rendering calls:
    server/controllers/payroll/reports/payslipGenerator.js */
module Payslip {
  import opened Common

  // ---------------------------------------------------------------------
  // Template selection (lines 17-20, 24-28, 36-37, 49-61)

  const TEMPLATE_PAYSLIP_DEFAULT: string := "./server/controllers/payroll/reports/payslipGenerator.handlebars"
  const TEMPLATE_PAYSLIP_INDEX: string := "./server/controllers/payroll/reports/payslipGeneratorIndex.handlebars"
  const TEMPLATE_PAYROLL_REPORT: string := "./server/controllers/payroll/reports/payrollReportGenerator.handlebars"
  const TEMPLATE_SOCIAL_CHARGE: string := "./server/controllers/payroll/reports/payrollReportSocialCharge.handlebars"

  const DEFAULT_ORIENTATION: string := "landscape"
  const DEFAULT_FILENAME: string := "FORM.LABELS.PAYSLIP"
  const CSV_KEY: string := "payslipGenerator"

  datatype ReportSetup = ReportSetup(template: string, orientation: string, filename: string, csvKey: string)

  /** The template and report options for the query flags `payslip` and
      `socialCharge` (their truthiness) and the enterprise setting
      `enable_index_payment_system`. The default options are laid over the
      query first, then the chosen branch overrides some of them. */
  function SelectReport(payslip: bool, socialCharge: bool, indexPaymentSystem: bool): ReportSetup
  {
    var templatePayslip := if indexPaymentSystem then TEMPLATE_PAYSLIP_INDEX else TEMPLATE_PAYSLIP_DEFAULT;
    var defaults := ReportSetup("", DEFAULT_ORIENTATION, DEFAULT_FILENAME, CSV_KEY);
    if !payslip && socialCharge then
      defaults.(template := TEMPLATE_SOCIAL_CHARGE, orientation := "portrait",
                filename := "FORM.LABELS.REPORT_SOCIAL_CHARGES")
    else if !payslip && !socialCharge then
      defaults.(template := TEMPLATE_PAYROLL_REPORT, filename := "FORM.LABELS.REPORT")
    else
      defaults.(template := templatePayslip)
  }

  /** Each template is chosen exactly when its condition holds: the payslip
      whenever `payslip` is set (whatever `socialCharge` says), in its index
      variant exactly when the index payment system is enabled; otherwise the
      social-charge report when `socialCharge` is set, else the payroll report. */
  lemma SelectReportCases(payslip: bool, socialCharge: bool, indexPaymentSystem: bool)
    ensures var s := SelectReport(payslip, socialCharge, indexPaymentSystem);
      && (s.template == TEMPLATE_SOCIAL_CHARGE <==> !payslip && socialCharge)
      && (s.template == TEMPLATE_PAYROLL_REPORT <==> !payslip && !socialCharge)
      && (s.template in {TEMPLATE_PAYSLIP_DEFAULT, TEMPLATE_PAYSLIP_INDEX} <==> payslip)
      && (payslip ==> (s.template == TEMPLATE_PAYSLIP_INDEX <==> indexPaymentSystem))
      && (s.orientation == "portrait" <==> !payslip && socialCharge)
      && (s.orientation != "portrait" ==> s.orientation == DEFAULT_ORIENTATION)
      && (s.filename == "FORM.LABELS.REPORT_SOCIAL_CHARGES" <==> !payslip && socialCharge)
      && (s.filename == "FORM.LABELS.REPORT" <==> !payslip && !socialCharge)
      && (s.filename == DEFAULT_FILENAME <==> payslip)
  {
  }

  // ---------------------------------------------------------------------
  // Exchange rates (lines 86-100, 113-122, 151-156, 233-241, 255-266)

  /** Exchange rates are positive: a domain assumption about the rate list,
      which the source does not check (a zero rate would divide to Infinity). */
  type Rate = r: real | r > 0.0 witness 1.0

  /** One entry of the current exchange rates by currency. */
  datatype Exchange = Exchange(currencyId: int, rate: Rate)

  /** The rate an `_equiv` figure is divided by. Every entry of the list
      overwrites the figure, so only the last entry counts: its rate if its
      currency is the employee's, else 1. With no entry the figure is never
      assigned (None). */
  method ResolveRate(exchanges: seq<Exchange>, currencyId: int) returns (rate: Option<Rate>)
    ensures exchanges == [] <==> rate == None
    ensures exchanges != [] ==>
      var last := exchanges[|exchanges| - 1];
      rate == Some(if last.currencyId == currencyId then last.rate else 1.0)
  {
    rate := None;
    var i := 0;
    while i < |exchanges|
      invariant 0 <= i <= |exchanges|
      invariant i == 0 <==> rate == None
      invariant i > 0 ==> rate == Some(if exchanges[i - 1].currencyId == currencyId then exchanges[i - 1].rate else 1.0)
    {
      var isSameCurrency := exchanges[i].currencyId == currencyId;
      rate := Some(if isSameCurrency then exchanges[i].rate else 1.0);
      i := i + 1;
    }
  }

  /** The specification of ResolveRate, for use in other specifications. */
  function RateFor(exchanges: seq<Exchange>, currencyId: int): Option<Rate>
  {
    if exchanges == [] then None
    else var last := exchanges[|exchanges| - 1];
      Some(if last.currencyId == currencyId then last.rate else 1.0)
  }

  /** The period's exchange rate as the report data holds it: a number, or
      the query's `conversionRate` text passed on unparsed. */
  datatype PeriodRate = Number(value: real) | Text(text: string)

  /** The query's `conversionRate` counts when it is present and not empty
      (a non-empty string is truthy, "0" included). */
  predicate RateGiven(conversionRate: Option<string>)
  {
    conversionRate.Some? && conversionRate.value != ""
  }

  /** The exchange rate of the pay period shown on the report. `requestedCurrency`
      is `parseInt` of the query's currency (None: not a number). Outside the
      spreadsheet renderer: 1 for the enterprise currency, otherwise the
      query's `conversionRate` text when given, else the looked-up rate. The
      spreadsheet renderer replaces it by `parseFloat` of the query's
      `conversion_rate` (None: not a number), or 1 when that is not a number
      or zero. */
  function PeriodExchangeRate(
    requestedCurrency: Option<int>, enterpriseCurrency: int,
    conversionRate: Option<string>, lookedUpRate: real,
    xls: bool, xlsConversionRate: Option<real>): (r: PeriodRate)
    ensures requestedCurrency == Some(enterpriseCurrency) && !xls ==> r == Number(1.0)
    ensures !xls && requestedCurrency != Some(enterpriseCurrency) && RateGiven(conversionRate) ==>
      r == Text(conversionRate.value)
    ensures !xls && requestedCurrency != Some(enterpriseCurrency) && !RateGiven(conversionRate) ==>
      r == Number(lookedUpRate)
    ensures xls ==> r == Number(if xlsConversionRate.Some? && xlsConversionRate.value != 0.0 then xlsConversionRate.value else 1.0)
  {
    var rate := if RateGiven(conversionRate) then Text(conversionRate.value) else Number(lookedUpRate);
    var periodRate := if requestedCurrency == Some(enterpriseCurrency) then Number(1.0) else rate;
    if xls then
      Number(if xlsConversionRate.Some? && xlsConversionRate.value != 0.0 then xlsConversionRate.value else 1.0)
    else periodRate
  }

  /** `exchangeRate !== 1`: a strict comparison, so a text is never equal to
      the number 1. */
  predicate NotStrictlyOne(r: PeriodRate)
  {
    r.Text? || r.value != 1.0
  }

  /** Whether the report shows the period's exchange rate: whenever the rate
      is not the number 1, which includes every rate given as query text,
      "1" too. */
  function ShouldRenderExchangeRate(
    requestedCurrency: Option<int>, enterpriseCurrency: int,
    conversionRate: Option<string>, lookedUpRate: real,
    xls: bool, xlsConversionRate: Option<real>): (render: bool)
    ensures !xls && requestedCurrency == Some(enterpriseCurrency) ==> !render
    ensures xls && (xlsConversionRate == None || xlsConversionRate == Some(0.0) || xlsConversionRate == Some(1.0)) ==> !render
    ensures xls && xlsConversionRate.Some? && xlsConversionRate.value !in {0.0, 1.0} ==> render
    ensures !xls && requestedCurrency != Some(enterpriseCurrency) && RateGiven(conversionRate) ==> render
    ensures !xls && requestedCurrency != Some(enterpriseCurrency) && !RateGiven(conversionRate) ==>
      (render <==> lookedUpRate != 1.0)
  {
    NotStrictlyOne(PeriodExchangeRate(requestedCurrency, enterpriseCurrency, conversionRate, lookedUpRate, xls, xlsConversionRate))
  }

  /** A query rate of "1" is shown although it reads as one: the strict
      comparison sees a string. */
  lemma TextOneIsRendered(enterpriseCurrency: int, lookedUpRate: real)
    ensures ShouldRenderExchangeRate(Some(enterpriseCurrency + 1), enterpriseCurrency, Some("1"), lookedUpRate, false, None)
  {
  }

  // ---------------------------------------------------------------------
  // Run totals (lines 104-138)

  /** The salary figures of one employee's payment in the period. */
  datatype PayrollEmployee = PayrollEmployee(
    employeeUuid: nat,
    currencyId: int,
    netSalary: real,
    dailySalary: real,
    baseTaxable: real,
    basicSalary: real,
    grossSalary: real)

  datatype SalaryField = Net | Daily | BaseTaxable | Basic | Gross

  function FieldOf(e: PayrollEmployee, f: SalaryField): real
  {
    match f
    case Net => e.netSalary
    case Daily => e.dailySalary
    case BaseTaxable => e.baseTaxable
    case Basic => e.basicSalary
    case Gross => e.grossSalary
  }

  /** An employee's figures divided by the rate of their currency. */
  datatype Equivalents = Equivalents(net: real, daily: real, baseTaxable: real, basic: real, gross: real)

  function Convert(e: PayrollEmployee, rate: Rate): Equivalents
  {
    Equivalents(e.netSalary / rate, e.dailySalary / rate, e.baseTaxable / rate, e.basicSalary / rate, e.grossSalary / rate)
  }

  /** The sum over employees of one converted figure; only meaningful when
      the exchange list is not empty. */
  function SumConverted(employees: seq<PayrollEmployee>, exchanges: seq<Exchange>, f: SalaryField): real
    requires exchanges != []
  {
    if employees == [] then 0.0
    else FieldOf(employees[0], f) / RateFor(exchanges, employees[0].currencyId).value
         + SumConverted(employees[1..], exchanges, f)
  }

  lemma SumConvertedSnoc(employees: seq<PayrollEmployee>, exchanges: seq<Exchange>, f: SalaryField, i: nat)
    requires exchanges != [] && i < |employees|
    ensures SumConverted(employees[..i + 1], exchanges, f)
         == SumConverted(employees[..i], exchanges, f) + FieldOf(employees[i], f) / RateFor(exchanges, employees[i].currencyId).value
  {
    SumConvertedAppend(employees[..i], [employees[i]], exchanges, f);
    assert employees[..i + 1] == employees[..i] + [employees[i]];
    assert [employees[i]][1..] == [];
  }

  lemma {:induction false} SumConvertedAppend(a: seq<PayrollEmployee>, b: seq<PayrollEmployee>, exchanges: seq<Exchange>, f: SalaryField)
    requires exchanges != []
    ensures SumConverted(a + b, exchanges, f) == SumConverted(a, exchanges, f) + SumConverted(b, exchanges, f)
  {
    if a == [] {
      assert a + b == b;
    } else {
      assert (a + b)[1..] == a[1..] + b;
      SumConvertedAppend(a[1..], b, exchanges, f);
    }
  }

  datatype RunTotals = RunTotals(
    totalBasicSalary: real,
    totalTaxable: real,
    totalGrossSalary: real,
    totalNetSalary: real,
    totalNonTaxable: real,
    totalDeduction: real)

  /** The first `forEach` of `build` and the aggregates derived from it.
      When the exchange list is empty no `_equiv` figure is ever assigned
      and the sums are not numbers: the model then returns None for every
      equivalent and, if there is an employee, for the totals. */
  method AggregateRun(employees: seq<PayrollEmployee>, exchanges: seq<Exchange>)
    returns (equivalents: seq<Option<Equivalents>>, totals: Option<RunTotals>)
    ensures |equivalents| == |employees|
    ensures forall i :: 0 <= i < |employees| ==>
      equivalents[i] == (if exchanges == [] then None
                         else Some(Convert(employees[i], RateFor(exchanges, employees[i].currencyId).value)))
    ensures totals == None <==> exchanges == [] && employees != []
    ensures exchanges == [] && employees == [] ==> totals == Some(RunTotals(0.0, 0.0, 0.0, 0.0, 0.0, 0.0))
    ensures exchanges != [] ==>
      var basic := SumConverted(employees, exchanges, Basic);
      var base := SumConverted(employees, exchanges, BaseTaxable);
      var gross := SumConverted(employees, exchanges, Gross);
      var net := SumConverted(employees, exchanges, Net);
      totals == Some(RunTotals(basic, base - basic, gross, net, gross - base, gross - net))
  {
    var totalNetSalary: Option<real> := Some(0.0);
    var totalBasicSalary: Option<real> := Some(0.0);
    var totalBaseTaxable: Option<real> := Some(0.0);
    var totalGrossSalary: Option<real> := Some(0.0);
    equivalents := [];

    var i := 0;
    while i < |employees|
      invariant 0 <= i <= |employees|
      invariant |equivalents| == i
      invariant forall j :: 0 <= j < i ==>
        equivalents[j] == (if exchanges == [] then None
                           else Some(Convert(employees[j], RateFor(exchanges, employees[j].currencyId).value)))
      invariant exchanges == [] ==>
        (i == 0 <==> totalNetSalary.Some?) && (i == 0 <==> totalBasicSalary.Some?)
        && (i == 0 <==> totalBaseTaxable.Some?) && (i == 0 <==> totalGrossSalary.Some?)
      invariant exchanges == [] && i == 0 ==>
        totalNetSalary == totalBasicSalary == totalBaseTaxable == totalGrossSalary == Some(0.0)
      invariant exchanges != [] ==>
        && totalNetSalary == Some(SumConverted(employees[..i], exchanges, Net))
        && totalBasicSalary == Some(SumConverted(employees[..i], exchanges, Basic))
        && totalBaseTaxable == Some(SumConverted(employees[..i], exchanges, BaseTaxable))
        && totalGrossSalary == Some(SumConverted(employees[..i], exchanges, Gross))
    {
      var employee := employees[i];
      var rate := ResolveRate(exchanges, employee.currencyId);
      var converted := if rate.Some? then Some(Convert(employee, rate.value)) else None;
      equivalents := equivalents + [converted];
      if converted.Some? && totalNetSalary.Some? && totalBasicSalary.Some?
         && totalBaseTaxable.Some? && totalGrossSalary.Some? {
        totalNetSalary := Some(totalNetSalary.value + converted.value.net);
        totalBasicSalary := Some(totalBasicSalary.value + converted.value.basic);
        totalBaseTaxable := Some(totalBaseTaxable.value + converted.value.baseTaxable);
        totalGrossSalary := Some(totalGrossSalary.value + converted.value.gross);
      } else {
        totalNetSalary, totalBasicSalary, totalBaseTaxable, totalGrossSalary := None, None, None, None;
      }
      if exchanges != [] {
        SumConvertedSnoc(employees, exchanges, Net, i);
        SumConvertedSnoc(employees, exchanges, Basic, i);
        SumConvertedSnoc(employees, exchanges, BaseTaxable, i);
        SumConvertedSnoc(employees, exchanges, Gross, i);
      }
      i := i + 1;
    }
    assert employees[..i] == employees;

    if totalNetSalary.Some? && totalBasicSalary.Some? && totalBaseTaxable.Some? && totalGrossSalary.Some? {
      var basic, base, gross, net := totalBasicSalary.value, totalBaseTaxable.value, totalGrossSalary.value, totalNetSalary.value;
      totals := Some(RunTotals(basic, base - basic, gross, net, gross - base, gross - net));
    } else {
      totals := None;
    }
  }

  /** The sum over employees of the difference of two converted figures. */
  function SumConvertedDifference(employees: seq<PayrollEmployee>, exchanges: seq<Exchange>, f: SalaryField, g: SalaryField): real
    requires exchanges != []
  {
    if employees == [] then 0.0
    else (FieldOf(employees[0], f) - FieldOf(employees[0], g)) / RateFor(exchanges, employees[0].currencyId).value
         + SumConvertedDifference(employees[1..], exchanges, f, g)
  }

  lemma {:induction false} SumConvertedDifferenceSplit(employees: seq<PayrollEmployee>, exchanges: seq<Exchange>, f: SalaryField, g: SalaryField)
    requires exchanges != []
    ensures SumConvertedDifference(employees, exchanges, f, g)
         == SumConverted(employees, exchanges, f) - SumConverted(employees, exchanges, g)
  {
    if employees != [] {
      SumConvertedDifferenceSplit(employees[1..], exchanges, f, g);
      var rate := RateFor(exchanges, employees[0].currencyId).value;
      DivideDifference(FieldOf(employees[0], f), FieldOf(employees[0], g), rate);
    }
  }

  /** Division by a rate distributes over a difference. */
  lemma DivideDifference(x: real, y: real, rate: Rate)
    ensures (x - y) / rate == x / rate - y / rate
  {
  }

  /** The run totals reconcile: basic + taxable + non-taxable is the gross
      total, and the deduction total is the sum of each employee's converted
      deductions (gross - net), the non-taxable total the sum of each one's
      converted gross - base taxable. */
  lemma RunTotalsReconcile(employees: seq<PayrollEmployee>, exchanges: seq<Exchange>, totals: RunTotals)
    requires exchanges != []
    requires var basic := SumConverted(employees, exchanges, Basic);
      var base := SumConverted(employees, exchanges, BaseTaxable);
      var gross := SumConverted(employees, exchanges, Gross);
      var net := SumConverted(employees, exchanges, Net);
      totals == RunTotals(basic, base - basic, gross, net, gross - base, gross - net)
    ensures totals.totalBasicSalary + totals.totalTaxable + totals.totalNonTaxable == totals.totalGrossSalary
    ensures totals.totalDeduction == SumConvertedDifference(employees, exchanges, Gross, Net)
    ensures totals.totalNonTaxable == SumConvertedDifference(employees, exchanges, Gross, BaseTaxable)
    ensures totals.totalNetSalary + totals.totalDeduction == totals.totalGrossSalary
  {
    SumConvertedDifferenceSplit(employees, exchanges, Gross, Net);
    SumConvertedDifferenceSplit(employees, exchanges, Gross, BaseTaxable);
  }

  // ---------------------------------------------------------------------
  // Per-abbreviation rubric totals (lines 150-169)

  /** One rubric result of an employee's payment in the period. */
  datatype RubricResult = RubricResult(
    employeeUuid: nat,
    abbr: string,
    currencyId: int,
    value: real,
    result: real,
    isPercent: bool,
    isDiscount: bool,
    isSocialCare: bool,
    isEmployee: bool)

  /** `result_equiv`: the result divided by the rate of the item's currency,
      None when never assigned (empty exchange list). */
  function ResultEquiv(item: RubricResult, exchanges: seq<Exchange>): Option<real>
  {
    match RateFor(exchanges, item.currencyId)
    case None => None
    case Some(rate) => Some(item.result / rate)
  }

  /** `rub.total`: the reduce of lines 161-162 and 167-168 over the rubric
      results; an unassigned `result_equiv` poisons the sum (None). */
  function AbbrTotal(abbr: string, rubrics: seq<RubricResult>, exchanges: seq<Exchange>): Option<real>
  {
    if rubrics == [] then Some(0.0)
    else
      var term := if rubrics[0].abbr == abbr then ResultEquiv(rubrics[0], exchanges) else Some(0.0);
      var rest := AbbrTotal(abbr, rubrics[1..], exchanges);
      if term.Some? && rest.Some? then Some(term.value + rest.value) else None
  }

  function HasAbbr(abbr: string): RubricResult -> bool
  {
    (r: RubricResult) => r.abbr == abbr
  }

  /** The converted result of an item, given a non-empty exchange list. */
  function EquivOf(exchanges: seq<Exchange>): RubricResult -> real
    requires exchanges != []
  {
    (r: RubricResult) => r.result / RateFor(exchanges, r.currencyId).value
  }

  /** A rubric's total is the sum of the converted results of every rubric
      result with the same abbreviation; with no exchange rate it is not a
      number exactly when some result has that abbreviation. */
  lemma AbbrTotalSpec(abbr: string, rubrics: seq<RubricResult>, exchanges: seq<Exchange>)
    ensures exchanges != [] ==>
      AbbrTotal(abbr, rubrics, exchanges) == Some(SumOf(Filter(rubrics, HasAbbr(abbr)), EquivOf(exchanges)))
    ensures exchanges == [] ==>
      (AbbrTotal(abbr, rubrics, exchanges) == None <==> exists i :: 0 <= i < |rubrics| && rubrics[i].abbr == abbr)
    ensures exchanges == [] && AbbrTotal(abbr, rubrics, exchanges) != None ==>
      AbbrTotal(abbr, rubrics, exchanges) == Some(0.0)
  {
    if exchanges != [] {
      AbbrTotalRated(abbr, rubrics, exchanges);
    } else {
      AbbrTotalUnrated(abbr, rubrics);
    }
  }

  lemma {:induction false} AbbrTotalRated(abbr: string, rubrics: seq<RubricResult>, exchanges: seq<Exchange>)
    requires exchanges != []
    ensures AbbrTotal(abbr, rubrics, exchanges) == Some(SumOf(Filter(rubrics, HasAbbr(abbr)), EquivOf(exchanges)))
  {
    if rubrics != [] {
      AbbrTotalRated(abbr, rubrics[1..], exchanges);
      var rest := Filter(rubrics[1..], HasAbbr(abbr));
      assert HasAbbr(abbr)(rubrics[0]) == (rubrics[0].abbr == abbr);
      if rubrics[0].abbr == abbr {
        assert Filter(rubrics, HasAbbr(abbr)) == [rubrics[0]] + rest;
        assert ([rubrics[0]] + rest)[1..] == rest;
        assert EquivOf(exchanges)(rubrics[0]) == ResultEquiv(rubrics[0], exchanges).value;
      } else {
        assert Filter(rubrics, HasAbbr(abbr)) == rest;
      }
    }
  }

  lemma {:induction false} AbbrTotalUnrated(abbr: string, rubrics: seq<RubricResult>)
    ensures AbbrTotal(abbr, rubrics, []) == None <==> exists i :: 0 <= i < |rubrics| && rubrics[i].abbr == abbr
    ensures AbbrTotal(abbr, rubrics, []) != None ==> AbbrTotal(abbr, rubrics, []) == Some(0.0)
  {
    if rubrics != [] {
      AbbrTotalUnrated(abbr, rubrics[1..]);
      if (exists i :: 0 <= i < |rubrics[1..]| && rubrics[1..][i].abbr == abbr) {
        var i :| 0 <= i < |rubrics[1..]| && rubrics[1..][i].abbr == abbr;
        assert rubrics[i + 1].abbr == abbr;
      }
      if (exists i :: 0 <= i < |rubrics| && rubrics[i].abbr == abbr) && rubrics[0].abbr != abbr {
        var i :| 0 <= i < |rubrics| && rubrics[i].abbr == abbr;
        assert rubrics[1..][i - 1].abbr == abbr;
      }
    }
  }

  // ---------------------------------------------------------------------
  // Per-employee classification (lines 171-243)

  /** The lists a rubric result of the employee is appended to. */
  datatype Bucket = Taxable | NonTaxable | Discount | ChargeEmployee | ChargeEnterprise

  predicate InBucket(r: RubricResult, employeeUuid: nat, b: Bucket)
  {
    r.employeeUuid == employeeUuid &&
    match b
    case Taxable => !r.isDiscount && !r.isSocialCare
    case NonTaxable => !r.isDiscount && r.isSocialCare
    case Discount => r.isDiscount
    case ChargeEmployee => r.isDiscount && r.isEmployee
    case ChargeEnterprise => r.isDiscount && !r.isEmployee
  }

  function BucketOf(employeeUuid: nat, b: Bucket): RubricResult -> bool
  {
    (r: RubricResult) => InBucket(r, employeeUuid, b)
  }

  function ResultOf(r: RubricResult): real { r.result }

  /** The lists and sums `build` attaches to one employee. */
  datatype Slip = Slip(
    rubricTaxable: seq<RubricResult>,
    rubricNonTaxable: seq<RubricResult>,
    rubricDiscount: seq<RubricResult>,
    rubricsChargeEmployee: seq<RubricResult>,
    rubricsChargeEnterprise: seq<RubricResult>,
    somRubTaxable: real,
    somRubNonTaxable: real,
    somChargeEmployee: real,
    somChargeEnterprise: real)

  function Listed(employeeUuid: nat, rubrics: seq<RubricResult>, b: Bucket): seq<RubricResult>
  {
    if rubrics == [] then []
    else
      var last := rubrics[|rubrics| - 1];
      Listed(employeeUuid, rubrics[..|rubrics| - 1], b) + (if InBucket(last, employeeUuid, b) then [last] else [])
  }

  /** The employee's results in a bucket are the input filtered by it. */
  lemma {:induction false} ListedFilter(employeeUuid: nat, rubrics: seq<RubricResult>, b: Bucket)
    ensures Listed(employeeUuid, rubrics, b) == Filter(rubrics, BucketOf(employeeUuid, b))
  {
    if rubrics != [] {
      var n := |rubrics| - 1;
      ListedFilter(employeeUuid, rubrics[..n], b);
      FilterSnoc(rubrics, n, BucketOf(employeeUuid, b));
      assert rubrics[..n + 1] == rubrics;
    }
  }

  /** The specification of one employee's slip: every list is the input
      order restricted to that employee and that bucket, every sum the sum
      of its list's results. */
  function SlipOf(employeeUuid: nat, rubrics: seq<RubricResult>): Slip
  {
    Slip(
      Listed(employeeUuid, rubrics, Taxable),
      Listed(employeeUuid, rubrics, NonTaxable),
      Listed(employeeUuid, rubrics, Discount),
      Listed(employeeUuid, rubrics, ChargeEmployee),
      Listed(employeeUuid, rubrics, ChargeEnterprise),
      SumOf(Listed(employeeUuid, rubrics, Taxable), ResultOf),
      SumOf(Listed(employeeUuid, rubrics, NonTaxable), ResultOf),
      SumOf(Listed(employeeUuid, rubrics, ChargeEmployee), ResultOf),
      SumOf(Listed(employeeUuid, rubrics, ChargeEnterprise), ResultOf))
  }

  lemma ListedStep(employeeUuid: nat, rubrics: seq<RubricResult>, i: nat, b: Bucket)
    requires i < |rubrics|
    ensures Listed(employeeUuid, rubrics[..i + 1], b)
         == Listed(employeeUuid, rubrics[..i], b) + (if InBucket(rubrics[i], employeeUuid, b) then [rubrics[i]] else [])
    ensures SumOf(Listed(employeeUuid, rubrics[..i + 1], b), ResultOf)
         == SumOf(Listed(employeeUuid, rubrics[..i], b), ResultOf) + (if InBucket(rubrics[i], employeeUuid, b) then rubrics[i].result else 0.0)
  {
    assert rubrics[..i + 1][..i] == rubrics[..i];
    var prefix := Listed(employeeUuid, rubrics[..i], b);
    if InBucket(rubrics[i], employeeUuid, b) {
      SumOfAppend(prefix, [rubrics[i]], ResultOf);
      assert SumOf([rubrics[i]], ResultOf) == rubrics[i].result by { assert [rubrics[i]][1..] == []; }
    } else {
      assert prefix + [] == prefix;
    }
  }

  /** The loop of lines 199-226 for one employee. */
  method ClassifyRubrics(employeeUuid: nat, rubrics: seq<RubricResult>) returns (slip: Slip)
    ensures slip == SlipOf(employeeUuid, rubrics)
  {
    var taxable, nonTaxable, discount, chargeEmployee, chargeEnterprise := [], [], [], [], [];
    var somRubTaxable, somRubNonTaxable, somChargeEmployee, somChargeEnterprise := 0.0, 0.0, 0.0, 0.0;
    var i := 0;
    while i < |rubrics|
      invariant 0 <= i <= |rubrics|
      invariant taxable == Listed(employeeUuid, rubrics[..i], Taxable)
      invariant nonTaxable == Listed(employeeUuid, rubrics[..i], NonTaxable)
      invariant discount == Listed(employeeUuid, rubrics[..i], Discount)
      invariant chargeEmployee == Listed(employeeUuid, rubrics[..i], ChargeEmployee)
      invariant chargeEnterprise == Listed(employeeUuid, rubrics[..i], ChargeEnterprise)
      invariant somRubTaxable == SumOf(Listed(employeeUuid, rubrics[..i], Taxable), ResultOf)
      invariant somRubNonTaxable == SumOf(Listed(employeeUuid, rubrics[..i], NonTaxable), ResultOf)
      invariant somChargeEmployee == SumOf(Listed(employeeUuid, rubrics[..i], ChargeEmployee), ResultOf)
      invariant somChargeEnterprise == SumOf(Listed(employeeUuid, rubrics[..i], ChargeEnterprise), ResultOf)
    {
      var item := rubrics[i];
      ListedStep(employeeUuid, rubrics, i, Taxable);
      ListedStep(employeeUuid, rubrics, i, NonTaxable);
      ListedStep(employeeUuid, rubrics, i, Discount);
      ListedStep(employeeUuid, rubrics, i, ChargeEmployee);
      ListedStep(employeeUuid, rubrics, i, ChargeEnterprise);
      if employeeUuid == item.employeeUuid {
        if !item.isDiscount && !item.isSocialCare {
          somRubTaxable := somRubTaxable + item.result;
          taxable := taxable + [item];
        }
        if !item.isDiscount && item.isSocialCare {
          somRubNonTaxable := somRubNonTaxable + item.result;
          nonTaxable := nonTaxable + [item];
        }
        if item.isDiscount {
          if item.isEmployee {
            chargeEmployee := chargeEmployee + [item];
            somChargeEmployee := somChargeEmployee + item.result;
          } else {
            chargeEnterprise := chargeEnterprise + [item];
            somChargeEnterprise := somChargeEnterprise + item.result;
          }
          discount := discount + [item];
        }
      }
      i := i + 1;
    }
    assert rubrics[..i] == rubrics;
    slip := Slip(taxable, nonTaxable, discount, chargeEmployee, chargeEnterprise,
                 somRubTaxable, somRubNonTaxable, somChargeEmployee, somChargeEnterprise);
  }

  /** What the slip lists mean: only the employee's own results appear; a
      non-discount result of the employee is in exactly one of the taxable and
      non-taxable lists (taxable exactly when it is not social care); a
      discount result is in the discount list and in exactly one of the charge
      lists (the employee's exactly when `is_employee`); and the two charge
      sums add up to the total of the employee's discount results. */
  lemma SlipPartition(employeeUuid: nat, rubrics: seq<RubricResult>)
    ensures var s := SlipOf(employeeUuid, rubrics);
      && (forall r :: r in s.rubricTaxable + s.rubricNonTaxable + s.rubricDiscount ==> r.employeeUuid == employeeUuid)
      && (forall r :: r in rubrics && r.employeeUuid == employeeUuid && !r.isDiscount ==>
            (r in s.rubricTaxable <==> !r.isSocialCare) && (r in s.rubricNonTaxable <==> r.isSocialCare))
      && (forall r :: r in rubrics && r.employeeUuid == employeeUuid && r.isDiscount ==>
            r in s.rubricDiscount
            && (r in s.rubricsChargeEmployee <==> r.isEmployee)
            && (r in s.rubricsChargeEnterprise <==> !r.isEmployee))
      && s.somChargeEmployee + s.somChargeEnterprise == SumOf(s.rubricDiscount, ResultOf)
  {
    ListedMembers(employeeUuid, rubrics, Taxable);
    ListedMembers(employeeUuid, rubrics, NonTaxable);
    ListedMembers(employeeUuid, rubrics, Discount);
    ListedMembers(employeeUuid, rubrics, ChargeEmployee);
    ListedMembers(employeeUuid, rubrics, ChargeEnterprise);
    ChargeSums(employeeUuid, rubrics);
  }

  lemma ListedMembers(employeeUuid: nat, rubrics: seq<RubricResult>, b: Bucket)
    ensures forall r :: r in Listed(employeeUuid, rubrics, b) <==> r in rubrics && InBucket(r, employeeUuid, b)
  {
    ListedFilter(employeeUuid, rubrics, b);
    forall r ensures BucketOf(employeeUuid, b)(r) == InBucket(r, employeeUuid, b) { }
  }

  /** The two charge lists split the discount list, so their sums add up. */
  lemma ChargeSums(employeeUuid: nat, rubrics: seq<RubricResult>)
    ensures SumOf(Listed(employeeUuid, rubrics, ChargeEmployee), ResultOf) + SumOf(Listed(employeeUuid, rubrics, ChargeEnterprise), ResultOf)
         == SumOf(Listed(employeeUuid, rubrics, Discount), ResultOf)
  {
    ListedFilter(employeeUuid, rubrics, Discount);
    ListedFilter(employeeUuid, rubrics, ChargeEmployee);
    ListedFilter(employeeUuid, rubrics, ChargeEnterprise);
    var discount := Listed(employeeUuid, rubrics, Discount);
    var isEmployee := (r: RubricResult) => r.isEmployee;
    forall r ensures BucketOf(employeeUuid, ChargeEmployee)(r) == (BucketOf(employeeUuid, Discount)(r) && isEmployee(r)) { }
    forall r ensures BucketOf(employeeUuid, ChargeEnterprise)(r) == (BucketOf(employeeUuid, Discount)(r) && Not(isEmployee)(r)) { }
    FilterFilter(rubrics, BucketOf(employeeUuid, Discount), isEmployee, BucketOf(employeeUuid, ChargeEmployee));
    FilterFilter(rubrics, BucketOf(employeeUuid, Discount), Not(isEmployee), BucketOf(employeeUuid, ChargeEnterprise));
    SumOfPartition(discount, isEmployee, ResultOf);
  }

  /** An employee's figures on the slip divided by the rate of their currency. */
  datatype SlipEquivalents = SlipEquivalents(somRubTaxable: real, somRubNonTaxable: real, somChargeEnterprise: real, somChargeEmployee: real)

  function ConvertSlip(s: Slip, rate: Option<Rate>): Option<SlipEquivalents>
  {
    match rate
    case None => None
    case Some(r) => Some(SlipEquivalents(s.somRubTaxable / r, s.somRubNonTaxable / r, s.somChargeEnterprise / r, s.somChargeEmployee / r))
  }

  /** The sum over employees of their enterprise charges. */
  function EnterpriseCharges(employees: seq<PayrollEmployee>, rubrics: seq<RubricResult>): real
  {
    if employees == [] then 0.0
    else SlipOf(employees[0].employeeUuid, rubrics).somChargeEnterprise + EnterpriseCharges(employees[1..], rubrics)
  }

  lemma {:induction false} EnterpriseChargesAppend(a: seq<PayrollEmployee>, b: seq<PayrollEmployee>, rubrics: seq<RubricResult>)
    ensures EnterpriseCharges(a + b, rubrics) == EnterpriseCharges(a, rubrics) + EnterpriseCharges(b, rubrics)
  {
    if a == [] {
      assert a + b == b;
    } else {
      assert (a + b)[1..] == a[1..] + b;
      EnterpriseChargesAppend(a[1..], b, rubrics);
    }
  }

  /** One step of the running `TotalChargeEnterprise`. */
  method AddEnterpriseCharge(total: real, slip: Slip, ghost employees: seq<PayrollEmployee>, ghost i: nat, ghost rubrics: seq<RubricResult>)
    returns (newTotal: real)
    requires i < |employees| && slip == SlipOf(employees[i].employeeUuid, rubrics)
    requires total == EnterpriseCharges(employees[..i], rubrics)
    ensures newTotal == EnterpriseCharges(employees[..i + 1], rubrics)
  {
    EnterpriseChargesSnoc(employees, i, rubrics);
    newTotal := total + slip.somChargeEnterprise;
  }

  lemma EnterpriseChargesSnoc(employees: seq<PayrollEmployee>, i: nat, rubrics: seq<RubricResult>)
    requires i < |employees|
    ensures EnterpriseCharges(employees[..i + 1], rubrics)
         == EnterpriseCharges(employees[..i], rubrics) + SlipOf(employees[i].employeeUuid, rubrics).somChargeEnterprise
  {
    EnterpriseChargesAppend(employees[..i], [employees[i]], rubrics);
    assert employees[..i + 1] == employees[..i] + [employees[i]];
    assert [employees[i]][1..] == [];
  }

  /** The second `forEach` of `build`: one slip per employee, its converted
      sums, and `TotalChargeEnterprise`, the sum of every employee's
      enterprise charges. */
  method BuildSlips(employees: seq<PayrollEmployee>, rubrics: seq<RubricResult>, exchanges: seq<Exchange>)
    returns (slips: seq<Slip>, converted: seq<Option<SlipEquivalents>>, totalChargeEnterprise: real)
    ensures |slips| == |employees| && |converted| == |employees|
    ensures forall i :: 0 <= i < |employees| ==>
      && slips[i] == SlipOf(employees[i].employeeUuid, rubrics)
      && converted[i] == ConvertSlip(slips[i], RateFor(exchanges, employees[i].currencyId))
    ensures totalChargeEnterprise == EnterpriseCharges(employees, rubrics)
  {
    slips, converted, totalChargeEnterprise := [], [], 0.0;
    var i := 0;
    while i < |employees|
      invariant 0 <= i <= |employees|
      invariant |slips| == i && |converted| == i
      invariant forall j :: 0 <= j < i ==>
        && slips[j] == SlipOf(employees[j].employeeUuid, rubrics)
        && converted[j] == ConvertSlip(slips[j], RateFor(exchanges, employees[j].currencyId))
      invariant totalChargeEnterprise == EnterpriseCharges(employees[..i], rubrics)
    {
      var employee := employees[i];
      var slip := ClassifyRubrics(employee.employeeUuid, rubrics);
      var rate := ResolveRate(exchanges, employee.currencyId);
      assert rate == RateFor(exchanges, employee.currencyId);
      ghost var prevSlips, prevConverted := slips, converted;
      slips := slips + [slip];
      converted := converted + [ConvertSlip(slip, rate)];
      forall j | 0 <= j < i + 1
        ensures slips[j] == SlipOf(employees[j].employeeUuid, rubrics)
        ensures converted[j] == ConvertSlip(slips[j], RateFor(exchanges, employees[j].currencyId))
      {
        if j < i {
          assert slips[j] == prevSlips[j] && converted[j] == prevConverted[j];
        }
      }
      totalChargeEnterprise := AddEnterpriseCharge(totalChargeEnterprise, slip, employees, i, rubrics);
      i := i + 1;
    }
    assert employees[..i] == employees;
  }
}

=== FILE: strings.dfy ===
/** Strings as JavaScript compares, sorts and joins them. Characters stand
    for UTF-16 code units, so `<` is the code-unit order `Array.prototype.sort`
    uses by default. */
module Strings {

  /** `a < b` on strings: the first differing code unit decides, and a proper
      prefix comes first. */
  predicate Less(a: string, b: string)
  {
    b != [] && (a == [] || a[0] < b[0] || (a[0] == b[0] && Less(a[1..], b[1..])))
  }

  predicate LessEq(a: string, b: string)
  {
    a == b || Less(a, b)
  }

  lemma {:induction false} LessIrreflexive(a: string)
    ensures !Less(a, a)
  {
    if a != [] {
      LessIrreflexive(a[1..]);
    }
  }

  lemma {:induction false} LessTotal(a: string, b: string)
    ensures Less(a, b) || a == b || Less(b, a)
  {
    if a != [] && b != [] && a[0] == b[0] {
      LessTotal(a[1..], b[1..]);
      if a[1..] == b[1..] {
        assert a == [a[0]] + a[1..] && b == [b[0]] + b[1..];
      }
    }
  }

  lemma {:induction false} LessTransitive(a: string, b: string, c: string)
    requires Less(a, b) && Less(b, c)
    ensures Less(a, c)
  {
    if a != [] && a[0] == b[0] && b[0] == c[0] {
      LessTransitive(a[1..], b[1..], c[1..]);
    }
  }

  lemma LessAsymmetric(a: string, b: string)
    requires Less(a, b)
    ensures !Less(b, a)
  {
    if Less(b, a) {
      LessTransitive(a, b, a);
      LessIrreflexive(a);
    }
  }

  /** Every element is at most every later one. */
  predicate Sorted(s: seq<string>)
  {
    forall i, j :: 0 <= i < j < |s| ==> LessEq(s[i], s[j])
  }

  /** Places `x` before the first element it does not exceed. */
  function Insert(x: string, s: seq<string>): (r: seq<string>)
    ensures multiset(r) == multiset(s) + multiset{x}
    ensures |r| == |s| + 1
  {
    if s == [] then [x]
    else if LessEq(x, s[0]) then [x] + s
    else
      assert s == [s[0]] + s[1..];
      [s[0]] + Insert(x, s[1..])
  }

  /** Inserting into a sorted list keeps it sorted. */
  lemma {:induction false} InsertSorted(x: string, s: seq<string>)
    requires Sorted(s)
    ensures Sorted(Insert(x, s))
  {
    if s != [] {
      if LessEq(x, s[0]) {
        InsertFront(x, s);
      } else {
        SortedTail(s);
        InsertSorted(x, s[1..]);
        assert LessEq(s[0], x) by { LessTotal(x, s[0]); }
        InsertBehind(s, x, Insert(x, s[1..]));
      }
    }
  }

  lemma InsertFront(x: string, s: seq<string>)
    requires Sorted(s) && s != [] && LessEq(x, s[0])
    ensures Sorted([x] + s)
  {
    forall j | 0 <= j < |s| ensures LessEq(x, s[j]) {
      if x != s[0] && s[0] != s[j] { LessTransitive(x, s[0], s[j]); }
    }
    assert forall j :: 1 <= j <= |s| ==> ([x] + s)[j] == s[j - 1];
  }

  /** The head of a sorted list stays in front of the tail with `x` inserted,
      when it does not exceed `x`. */
  lemma InsertBehind(s: seq<string>, x: string, rest: seq<string>)
    requires Sorted(s) && s != [] && LessEq(s[0], x)
    requires Sorted(rest) && multiset(rest) == multiset(s[1..]) + multiset{x}
    ensures Sorted([s[0]] + rest)
  {
    forall j | 0 <= j < |rest| ensures LessEq(s[0], rest[j]) {
      assert rest[j] in multiset(rest);
      if rest[j] in multiset(s[1..]) {
        var k :| 0 <= k < |s[1..]| && s[1..][k] == rest[j];
        assert rest[j] == s[k + 1];
      }
    }
    assert forall j :: 1 <= j <= |rest| ==> ([s[0]] + rest)[j] == rest[j - 1];
  }

  /** `Array.prototype.sort()` on strings: the same strings, in the order
      `SortedStrings` proves ascending. */
  function SortStrings(s: seq<string>): (r: seq<string>)
    ensures multiset(r) == multiset(s)
    ensures |r| == |s|
  {
    if s == [] then []
    else
      assert s == [s[0]] + s[1..];
      Insert(s[0], SortStrings(s[1..]))
  }

  /** The sorted strings are in ascending order. */
  lemma {:induction false} SortedStrings(s: seq<string>)
    ensures Sorted(SortStrings(s))
  {
    if s != [] {
      SortedStrings(s[1..]);
      InsertSorted(s[0], SortStrings(s[1..]));
    }
  }

  /** A sorted list without repeats lists its elements in strictly ascending order. */
  lemma SortedDistinctAscending(s: seq<string>, i: int, j: int)
    requires Sorted(s) && 0 <= i < j < |s| && s[i] != s[j]
    ensures Less(s[i], s[j])
  {
  }

  lemma SortedTail(s: seq<string>)
    requires Sorted(s) && s != []
    ensures Sorted(s[1..])
  {
    assert forall k :: 1 <= k < |s| ==> s[1..][k - 1] == s[k];
  }

  /** The first element of a sorted list is its least element. */
  lemma SortedHeadsEqual(a: seq<string>, b: seq<string>)
    requires Sorted(a) && Sorted(b) && multiset(a) == multiset(b) && a != []
    ensures b != [] && a[0] == b[0]
  {
    assert a[0] in multiset(b) && |b| == |a|;
    var i :| 0 <= i < |b| && b[i] == a[0];
    assert b[0] in multiset(a);
    var j :| 0 <= j < |a| && a[j] == b[0];
    assert LessEq(b[0], b[i]) && LessEq(a[0], a[j]);
    if a[0] != b[0] { LessAsymmetric(a[0], b[0]); }
  }

  /** Two sorted lists with the same elements are equal: sorting decides the
      order completely. */
  lemma {:induction false} SortedUnique(a: seq<string>, b: seq<string>)
    requires Sorted(a) && Sorted(b) && multiset(a) == multiset(b)
    ensures a == b
  {
    if a != [] {
      SortedHeadsEqual(a, b);
      var x, ta, tb := a[0], a[1..], b[1..];
      assert a == [x] + ta && b == [x] + tb;
      assert multiset(a) == multiset([x]) + multiset(ta);
      assert multiset(b) == multiset([x]) + multiset(tb);
      forall y ensures multiset(ta)[y] == multiset(tb)[y] {
        assert multiset(a)[y] == multiset([x])[y] + multiset(ta)[y];
        assert multiset(b)[y] == multiset([x])[y] + multiset(tb)[y];
      }
      assert multiset(ta) == multiset(tb);
      SortedTail(a);
      SortedTail(b);
      SortedUnique(ta, tb);
    } else {
      assert |b| == |multiset(b)| == 0;
    }
  }

  /** `parts.join(sep)`. */
  function Join(parts: seq<string>, sep: string): string
  {
    if parts == [] then ""
    else if |parts| == 1 then parts[0]
    else parts[0] + sep + Join(parts[1..], sep)
  }

  /** Joining with a separator puts it between neighbours only: the join of
      a longer list is the join of all but the last, the separator, and the
      last. */
  lemma {:induction false} JoinSnoc(parts: seq<string>, last: string, sep: string)
    requires parts != []
    ensures Join(parts + [last], sep) == Join(parts, sep) + sep + last
  {
    if |parts| == 1 {
      assert (parts + [last])[1..] == [last];
    } else {
      assert (parts + [last])[1..] == parts[1..] + [last];
      JoinSnoc(parts[1..], last, sep);
    }
  }

  /** `s.replace(/from/g, to)` for one character: every `from` becomes `to`. */
  function ReplaceAllChar(s: string, from: char, to: char): (r: string)
    ensures |r| == |s|
    ensures forall i :: 0 <= i < |s| ==> r[i] == (if s[i] == from then to else s[i])
  {
    if s == [] then []
    else [if s[0] == from then to else s[0]] + ReplaceAllChar(s[1..], from, to)
  }

  /** `n` spaces. */
  function Spaces(n: nat): (r: string)
    ensures |r| == n && forall i :: 0 <= i < n ==> r[i] == ' '
  {
    seq(n, _ => ' ')
  }
}

=== FILE: subscriptions.dfy ===
/** Subscriptions of debtor groups to invoicing fees and subsidies: the
    relationship tables with their prepared statements, the conversion of a
    submitted subscription map into rows, and the transaction that replaces
    an entity's subscriptions. The database is outside the model: a
    transaction is the list of queries added to it, and `db.bid` turns the
    uuid text into an opaque binary id. */
module Subscriptions {
  import opened Common
  import opened JsValues

  /** `db.bid(id)`: the binary form of a uuid, opaque here. */
  datatype BinaryId = BinaryId(uuid: string)

  /** One row of the INSERT: the entity and the id it subscribes to. */
  datatype Row = Row(entity: BinaryId, subscription: string)

  datatype Param = IdParam(id: BinaryId) | RowsParam(rows: seq<Row>)

  datatype Query = Query(sql: string, params: seq<Param>)

  /** A relationship table: the column naming the entity, the column naming
      the subscription, and its two statements, undefined until prepared. */
  datatype Details = Details(table: string, entity: string, mapColumn: string,
                             deleteQuery: Option<string>, createQuery: Option<string>)

  const InvalidRequest := "ERROR.INVALID_REQUEST"
  const MissingInfo := "ERROR.ERR_MISSING_INFO"
  const MissingInfoMessage := "Request must specify a \"subscriptions\" object containing an array of entity ids"

  /** The tables as declared, before their statements are prepared. */
  function Declared(): seq<Details>
  {
    [ Details("debtor_group_invoicing_fee", "debtor_group_uuid", "invoicing_fee_id", None, None),
      Details("debtor_group_subsidy", "debtor_group_uuid", "subsidy_id", None, None) ]
  }

  function DeleteSql(table: string, entity: string): string
  {
    "DELETE FROM " + table + " WHERE " + entity + " = ?"
  }

  function CreateSql(table: string, entity: string, mapColumn: string): string
  {
    "INSERT INTO " + table + " (" + entity + ", " + mapColumn + ") VALUES ?"
  }

  /** A table with both statements written from its own names. */
  function Prepare(d: Details): Details
  {
    d.(deleteQuery := Some(DeleteSql(d.table, d.entity)),
       createQuery := Some(CreateSql(d.table, d.entity, d.mapColumn)))
  }

  function Prepared(ds: seq<Details>): (r: seq<Details>)
    ensures |r| == |ds|
  {
    seq(|ds|, i requires 0 <= i < |ds| => Prepare(ds[i]))
  }

  predicate AllPrepared(ds: seq<Details>)
  {
    forall i :: 0 <= i < |ds| ==> ds[i].deleteQuery.Some? && ds[i].createQuery.Some?
  }

  /** `subscriptions[key]`: the table of that name, if there is one. */
  function FindDetails(ds: seq<Details>, key: string): (r: Option<Details>)
    ensures r.None? <==> forall i :: 0 <= i < |ds| ==> ds[i].table != key
    ensures r.Some? ==> exists i :: 0 <= i < |ds| && ds[i] == r.value && ds[i].table == key
  {
    if ds == [] then None
    else if ds[0].table == key then Some(ds[0])
    else
      var r := FindDetails(ds[1..], key);
      assert forall i :: 0 <= i < |ds[1..]| ==> ds[1..][i] == ds[i + 1];
      r
  }

  /** The table of subscription tables, set up when the module loads. */
  class Registry {
    var tables: seq<Details>

    predicate Valid()
      reads this
    {
      AllPrepared(tables)
    }

    constructor()
      ensures tables == Prepared(Declared())
      ensures Valid()
    {
      tables := Declared();
      new;
      PrepareQueries();
    }

    /** prepareQueries: gives every table its DELETE and INSERT statements. */
    method PrepareQueries()
      modifies this
      ensures tables == Prepared(old(tables))
      ensures Valid()
    {
      var i := 0;
      while i < |tables|
        invariant 0 <= i <= |tables| == |old(tables)|
        invariant forall j :: 0 <= j < i ==> tables[j] == Prepare(old(tables)[j])
        invariant forall j :: i <= j < |tables| ==> tables[j] == old(tables)[j]
      {
        var d := tables[i];
        tables := tables[i := d.(deleteQuery := Some(DeleteSql(d.table, d.entity)),
                                 createQuery := Some(CreateSql(d.table, d.entity, d.mapColumn)))];
        i := i + 1;
      }
    }
  }

  /** A transaction under construction: the queries added so far. */
  class Transaction {
    var queries: seq<Query>

    constructor()
      ensures queries == []
    {
      queries := [];
    }

    method AddQuery(sql: string, params: seq<Param>)
      modifies this
      ensures queries == old(queries) + [Query(sql, params)]
    {
      queries := queries + [Query(sql, params)];
    }
  }

  // ---------------------------------------------------------------------
  // parseFromMap
  // ---------------------------------------------------------------------

  /** An array index as a property name. */
  function IndexName(n: nat): (r: string)
    ensures r != []
  {
    if n < 10 then [Digit(n)] else IndexName(n / 10) + [Digit(n % 10)]
  }

  function Digit(d: nat): char
    requires d < 10
  {
    ['0', '1', '2', '3', '4', '5', '6', '7', '8', '9'][d]
  }

  /** `Object.entries(v)` for a value that is not null or undefined: an
      object's own properties (array-index keys first, ascending), an
      array's items or a string's characters under their indices, and
      nothing for the other primitives. */
  function ObjectEntries(v: JsValue): seq<Property>
  {
    match v
    case Obj(props) => OwnEntries(props)
    case Arr(items) => seq(|items|, i requires 0 <= i < |items| => Property(IndexName(i), items[i]))
    case Str(s) => seq(|s|, i requires 0 <= i < |s| => Property(IndexName(i), Str([s[i]])))
    case _ => []
  }

  /** The filter and map of parseFromMap over a list of entries: a row
      `[entityId, key]` for every entry with a truthy value. */
  function ParseEntries(entries: seq<Property>, entityId: BinaryId): (rows: seq<Row>)
    ensures |rows| <= |entries|
    ensures forall i :: 0 <= i < |rows| ==> rows[i].entity == entityId
    ensures forall k :: Row(entityId, k) in rows <==>
      exists j :: 0 <= j < |entries| && entries[j].key == k && Truthy(entries[j].value)
  {
    if entries == [] then []
    else
      var rest := ParseEntries(entries[1..], entityId);
      assert forall j :: 1 <= j < |entries| ==> entries[1..][j - 1] == entries[j];
      (if Truthy(entries[0].value) then [Row(entityId, entries[0].key)] else []) + rest
  }

  /** parseFromMap(groupSubscriptions, entityId). */
  function ParseFromMap(groupSubscriptions: JsValue, entityId: BinaryId): seq<Row>
  {
    ParseEntries(ObjectEntries(groupSubscriptions), entityId)
  }

  /** Subscription ids are array-index keys, so the rows come in ascending
      numeric id order whatever order the body lists them in. */
  lemma ParseFromMapIdOrder(entityId: BinaryId, p7: Property, p3: Property)
    requires p7 == Property("7", Bool(true)) && p3 == Property("3", Bool(true))
    ensures ParseFromMap(Obj([p7, p3]), entityId) == [Row(entityId, "3"), Row(entityId, "7")]
  {
    OwnEntriesExample(p7, p3);
    ParseEntriesExample(entityId, p3, p7);
    ParseFromObject([p7, p3], [p3, p7], entityId);
  }

  /** An object's rows are the parse of its entries in `Object.entries` order. */
  lemma ParseFromObject(props: seq<Property>, entries: seq<Property>, entityId: BinaryId)
    requires OwnEntries(props) == entries
    ensures ParseFromMap(Obj(props), entityId) == ParseEntries(entries, entityId)
  {
    assert ObjectEntries(Obj(props)) == entries;
  }

  lemma OwnEntriesExample(p7: Property, p3: Property)
    requires p7.key == "7" && p3.key == "3"
    ensures OwnEntries([p7, p3]) == [p3, p7]
  {
    IndexKeysExample(p7, p3);
    FilterExample(p7, p3);
    SortExample(p7, p3);
  }

  lemma IndexKeysExample(p7: Property, p3: Property)
    requires p7.key == "7" && p3.key == "3"
    ensures IsIndexProp(p7) && IsIndexProp(p3)
    ensures KeyValue(p7) == 7 && KeyValue(p3) == 3
  {
    assert "7"[..0] == "" && "3"[..0] == "";
  }

  lemma FilterExample(p7: Property, p3: Property)
    requires IsIndexProp(p7) && IsIndexProp(p3)
    ensures Filter([p7, p3], IsIndexProp) == [p7, p3]
    ensures Filter([p7, p3], IsNamedProp) == []
  {
    FilterAllOrNone([p7, p3], IsIndexProp);
    FilterAllOrNone([p7, p3], IsNamedProp);
  }

  lemma SortExample(p7: Property, p3: Property)
    requires KeyValue(p7) == 7 && KeyValue(p3) == 3
    ensures SortIndexed([p7, p3]) == [p3, p7]
  {
    assert [p7, p3][1..] == [p3] && [p3][1..] == [];
    assert SortIndexed([p3]) == [p3];
    assert InsertIndexed(p7, [p3]) == [p3] + InsertIndexed(p7, []);
  }

  lemma ParseEntriesExample(entityId: BinaryId, p3: Property, p7: Property)
    requires p3 == Property("3", Bool(true)) && p7 == Property("7", Bool(true))
    ensures ParseEntries([p3, p7], entityId) == [Row(entityId, "3"), Row(entityId, "7")]
  {
    assert [p3, p7][1..] == [p7] && [p7][1..] == [];
    assert ParseEntries([p7], entityId) == [Row(entityId, "7")];
  }

  /** The rows keep the order of the entries: parsing a concatenation is
      concatenating the parses. */
  lemma {:induction false} ParseEntriesAppend(a: seq<Property>, b: seq<Property>, entityId: BinaryId)
    ensures ParseEntries(a + b, entityId) == ParseEntries(a, entityId) + ParseEntries(b, entityId)
  {
    if a == [] {
      assert a + b == b;
    } else {
      assert (a + b)[1..] == a[1..] + b;
      ParseEntriesAppend(a[1..], b, entityId);
    }
  }

  /** No rows exactly when no entry is truthy. */
  lemma ParseEntriesEmpty(entries: seq<Property>, entityId: BinaryId)
    ensures ParseEntries(entries, entityId) == [] <==>
      forall j :: 0 <= j < |entries| ==> !Truthy(entries[j].value)
  {
    var rows := ParseEntries(entries, entityId);
    if rows != [] {
      assert Row(entityId, rows[0].subscription) in rows;
    }
    if j :| 0 <= j < |entries| && Truthy(entries[j].value) {
      assert Row(entityId, entries[j].key) in rows;
    }
  }

  // ---------------------------------------------------------------------
  // updateSubscriptions
  // ---------------------------------------------------------------------

  /** The outcome of updateSubscriptions: the error it throws, or the
      queries of the transaction it executes. */
  function Update(tables: seq<Details>, id: string, key: string, body: JsValue): Result<seq<Query>, Thrown>
    requires AllPrepared(tables)
  {
    var group := GetProp(body, "subscriptions");
    if group.None? then Err(TypeError)
    else
      var details := FindDetails(tables, key);
      if details.None? then Err(BadRequest("Cannot find details for " + key + " subscription", Some(InvalidRequest)))
      else if !Truthy(group.value) then Err(BadRequest(MissingInfoMessage, Some(MissingInfo)))
      else
        var binaryId := BinaryId(id);
        var rows := ParseFromMap(group.value, binaryId);
        var d := details.value;
        var delete := [Query(d.deleteQuery.value, [IdParam(binaryId)])];
        if rows == [] then Ok(delete)
        else Ok(delete + [Query(d.createQuery.value, [RowsParam(rows)])])
  }

  /** updateSubscriptions: the checks, then a transaction holding the DELETE
      of the entity's rows and, when something is subscribed, the INSERT. */
  method UpdateSubscriptions(registry: Registry, id: string, key: string, body: JsValue)
    returns (r: Result<seq<Query>, Thrown>)
    requires registry.Valid()
    ensures r == Update(registry.tables, id, key, body)
  {
    var details := FindDetails(registry.tables, key);
    var group := GetProp(body, "subscriptions");
    if group.None? {
      return Err(TypeError);
    }
    var groupSubscriptions := group.value;
    if details.None? {
      return Err(BadRequest("Cannot find details for " + key + " subscription", Some(InvalidRequest)));
    }
    if !Truthy(groupSubscriptions) {
      return Err(BadRequest(MissingInfoMessage, Some(MissingInfo)));
    }
    var transaction := new Transaction();
    var binaryId := BinaryId(id);
    var formatted := ParseFromMap(groupSubscriptions, binaryId);
    var delete := Query(details.value.deleteQuery.value, [IdParam(binaryId)]);
    transaction.AddQuery(delete.sql, delete.params);
    assert transaction.queries == [delete];
    if |formatted| > 0 {
      transaction.AddQuery(details.value.createQuery.value, [RowsParam(formatted)]);
    }
    r := Ok(transaction.queries);
  }

  // ---------------------------------------------------------------------
  // Properties
  // ---------------------------------------------------------------------

  /** Every prepared table has its DELETE and INSERT statements, written from
      its own table, entity and map names. */
  lemma PreparedStatements(ds: seq<Details>)
    ensures AllPrepared(Prepared(ds))
    ensures forall i :: 0 <= i < |ds| ==>
      && Prepared(ds)[i].table == ds[i].table
      && Prepared(ds)[i].deleteQuery == Some("DELETE FROM " + ds[i].table + " WHERE " + ds[i].entity + " = ?")
      && Prepared(ds)[i].createQuery == Some("INSERT INTO " + ds[i].table + " (" + ds[i].entity + ", " + ds[i].mapColumn + ") VALUES ?")
  {
  }

  /** Which error is thrown, in the order of the checks: reading a body
      without `subscriptions` fails first, then an unknown table, then a
      falsy subscription map. */
  lemma UpdateErrors(tables: seq<Details>, id: string, key: string, body: JsValue)
    requires AllPrepared(tables)
    ensures var r, group := Update(tables, id, key, body), GetProp(body, "subscriptions");
      && (r == Err(TypeError) <==> body == Undefined || body == Null)
      && (r.Err? && r.error.BadRequest? && r.error.code == Some(InvalidRequest) <==>
            group.Some? && forall i :: 0 <= i < |tables| ==> tables[i].table != key)
      && (r.Err? && r.error.BadRequest? && r.error.code == Some(MissingInfo) <==>
            group.Some? && (exists i :: 0 <= i < |tables| && tables[i].table == key) && !Truthy(group.value))
      && (r.Ok? <==> group.Some? && (exists i :: 0 <= i < |tables| && tables[i].table == key) && Truthy(group.value))
  {
    var group := GetProp(body, "subscriptions");
    var details := FindDetails(tables, key);
    if details.Some? {
      var i :| 0 <= i < |tables| && tables[i] == details.value && tables[i].table == key;
    }
  }

  /** A successful update deletes the entity's rows from the table named by
      the key first, and inserts one row per truthy entry of the map iff
      there is one; the transaction holds one or two queries. */
  lemma UpdateQueries(ds: seq<Details>, id: string, key: string, body: JsValue)
    requires AllPrepared(Prepared(ds))
    ensures var r := Update(Prepared(ds), id, key, body);
      r.Ok? ==>
        var d, group := FindDetails(ds, key).value, GetProp(body, "subscriptions").value;
        var rows := ParseFromMap(group, BinaryId(id));
        && 1 <= |r.value| <= 2
        && r.value[0] == Query(DeleteSql(key, d.entity), [IdParam(BinaryId(id))])
        && (|r.value| == 2 <==> exists j :: 0 <= j < |ObjectEntries(group)| && Truthy(ObjectEntries(group)[j].value))
        && (|r.value| == 2 ==> r.value[1] == Query(CreateSql(key, d.entity, d.mapColumn), [RowsParam(rows)]))
  {
    var r := Update(Prepared(ds), id, key, body);
    if r.Ok? {
      var group := GetProp(body, "subscriptions").value;
      ParseEntriesEmpty(ObjectEntries(group), BinaryId(id));
      FindPrepared(ds, key);
    }
  }

  /** Looking a key up among the prepared tables finds the prepared form of
      the declared table. */
  lemma {:induction false} FindPrepared(ds: seq<Details>, key: string)
    ensures FindDetails(Prepared(ds), key) ==
      (if FindDetails(ds, key).Some? then Some(Prepare(FindDetails(ds, key).value)) else None)
  {
    if ds != [] && ds[0].table != key {
      assert Prepared(ds)[1..] == Prepared(ds[1..]);
      FindPrepared(ds[1..], key);
    }
  }

  /** The tables once the module has loaded: each declared table with the
      statements of its own names. */
  lemma LoadedTables()
    ensures var t := Prepared(Declared());
      && |t| == 2
      && t[0].table == "debtor_group_invoicing_fee" && t[1].table == "debtor_group_subsidy"
      && t[0].deleteQuery == Some(DeleteSql("debtor_group_invoicing_fee", "debtor_group_uuid"))
      && t[0].createQuery == Some(CreateSql("debtor_group_invoicing_fee", "debtor_group_uuid", "invoicing_fee_id"))
      && t[1].deleteQuery == Some(DeleteSql("debtor_group_subsidy", "debtor_group_uuid"))
      && t[1].createQuery == Some(CreateSql("debtor_group_subsidy", "debtor_group_uuid", "subsidy_id"))
  {
  }
}

=== FILE: translation_compare.dfy ===
/** The translation-file comparison utility: it pairs the English and French
    JSON files of two directories by name, compares each pair's dictionaries
    key by key at every level, and accumulates a report of the keys and the
    files that one language has and the other lacks. File reads and JSON
    parsing are the `read` parameter; the report is the `errMsg` string the
    script prints. */
module TranslationCompare {
  import opened Common
  import opened Strings
  import opened TranslationDicts

  // ---------------------------------------------------------------------
  // Pairing the files of the two directories
  // ---------------------------------------------------------------------

  /** One entry of the file list: both files exist, or only one of them. */
  datatype JsonFile = Both(en: string, fr: string) | EnOnly(en: string) | FrOnly(fr: string)

  /** `path.resolve(dir, name)` for a resolved directory and a plain file name. */
  function Resolve(dir: string, name: string): string
  {
    dir + "/" + name
  }

  /** `names.indexOf(name)`: the first index holding `name`, or -1. */
  function IndexOf(names: seq<string>, name: string): (i: int)
    ensures -1 <= i
    ensures i == -1 <==> name !in names
    ensures 0 <= i ==> i < |names| && names[i] == name && name !in names[..i]
  {
    if names == [] then -1
    else if names[0] == name then 0
    else
      var j := IndexOf(names[1..], name);
      assert names[1..] == names[..|names|][1..];
      if j == -1 then -1
      else
        assert names[..j + 1] == [names[0]] + names[1..][..j];
        j + 1
  }

  function NotIn(names: seq<string>): string -> bool
  {
    name => name !in names
  }

  function In(names: seq<string>): string -> bool
  {
    name => name in names
  }

  /** buildJsonFileArray: one entry per English file, in directory order,
      paired with the French file of the same name when there is one; then
      one entry per French file that has no English counterpart, in French
      directory order. */
  method BuildJsonFileArray(enPath: string, frPath: string, enJsonNames: seq<string>, frJsonNames: seq<string>)
    returns (jsonList: seq<JsonFile>)
    ensures |jsonList| == |enJsonNames| + |Filter(frJsonNames, NotIn(enJsonNames))|
    ensures forall i :: 0 <= i < |enJsonNames| ==>
      jsonList[i] == (if enJsonNames[i] in frJsonNames
                      then Both(Resolve(enPath, enJsonNames[i]), Resolve(frPath, enJsonNames[i]))
                      else EnOnly(Resolve(enPath, enJsonNames[i])))
    ensures forall j :: 0 <= j < |Filter(frJsonNames, NotIn(enJsonNames))| ==>
      jsonList[|enJsonNames| + j] == FrOnly(Resolve(frPath, Filter(frJsonNames, NotIn(enJsonNames))[j]))
  {
    jsonList := [];
    var i := 0;
    while i < |enJsonNames|
      invariant 0 <= i <= |enJsonNames| && |jsonList| == i
      invariant forall k :: 0 <= k < i ==>
        jsonList[k] == (if enJsonNames[k] in frJsonNames
                        then Both(Resolve(enPath, enJsonNames[k]), Resolve(frPath, enJsonNames[k]))
                        else EnOnly(Resolve(enPath, enJsonNames[k])))
    {
      var enJsonName := enJsonNames[i];
      var ind := IndexOf(frJsonNames, enJsonName);
      var item;
      if ind >= 0 {
        item := Both(Resolve(enPath, enJsonName), Resolve(frPath, frJsonNames[ind]));
      } else {
        item := EnOnly(Resolve(enPath, enJsonName));
      }
      jsonList := jsonList + [item];
      i := i + 1;
    }
    var missedFromEnJsonNames := Filter(frJsonNames, NotIn(enJsonNames));
    var j := 0;
    while j < |missedFromEnJsonNames|
      invariant 0 <= j <= |missedFromEnJsonNames| && |jsonList| == |enJsonNames| + j
      invariant forall k :: 0 <= k < |enJsonNames| ==>
        jsonList[k] == (if enJsonNames[k] in frJsonNames
                        then Both(Resolve(enPath, enJsonNames[k]), Resolve(frPath, enJsonNames[k]))
                        else EnOnly(Resolve(enPath, enJsonNames[k])))
      invariant forall k :: 0 <= k < j ==>
        jsonList[|enJsonNames| + k] == FrOnly(Resolve(frPath, missedFromEnJsonNames[k]))
    {
      jsonList := jsonList + [FrOnly(Resolve(frPath, missedFromEnJsonNames[j]))];
      j := j + 1;
    }
  }

  // ---------------------------------------------------------------------
  // Comparing two dictionaries
  // ---------------------------------------------------------------------

  /** An entry of the English miss list: indented, and qualified by the key
      path when that path is not empty. */
  function Prefixed(keyPath: string, key: string): string
  {
    if |keyPath| > 0 then "  " + keyPath + "." + key else "  " + key
  }

  function PrefixAll(keyPath: string, keys: seq<string>): (r: seq<string>)
    ensures |r| == |keys|
    ensures forall i :: 0 <= i < |keys| ==> r[i] == Prefixed(keyPath, keys[i])
  {
    if keys == [] then [] else [Prefixed(keyPath, keys[0])] + PrefixAll(keyPath, keys[1..])
  }

  /** An entry of the French miss list. The script tests and prints `path`,
      the Node module, where it means `keyPath`; the module object has no
      `length`, so the test fails and no entry is ever qualified. */
  function Unprefixed(keys: seq<string>): (r: seq<string>)
    ensures |r| == |keys|
    ensures forall i :: 0 <= i < |keys| ==> r[i] == "  " + keys[i]
  {
    if keys == [] then [] else ["  " + keys[0]] + Unprefixed(keys[1..])
  }

  /** The sorted keys of both sides that the other side lacks, and the sorted
      keys they share. */
  function MissingFromEn(en: TValue, fr: TValue): seq<string>
  {
    Filter(SortedKeys(AsDict(fr)), NotIn(SortedKeys(AsDict(en))))
  }

  function MissingFromFr(en: TValue, fr: TValue): seq<string>
  {
    Filter(SortedKeys(AsDict(en)), NotIn(SortedKeys(AsDict(fr))))
  }

  function CommonKeys(en: TValue, fr: TValue): seq<string>
  {
    Filter(SortedKeys(AsDict(en)), In(SortedKeys(AsDict(fr))))
  }

  /** Whether the comparison descends into a shared key: one of the values
      is a dictionary (`typeof` gives 'object'). */
  predicate Descends(enVal: TValue, frVal: TValue)
  {
    enVal.Dict? || frVal.Dict?
  }

  /** The entries checkSubDict(en, fr, keyPath) adds to the English miss list:
      the keys only French has, then what the shared keys that hold a
      dictionary add, in sorted key order; each of those is compared under
      its own key as the path. */
  function EnMiss(en: TValue, fr: TValue, keyPath: string): seq<string>
    decreases Size(en), 1, 0
  {
    var common := CommonKeys(en, fr);
    PrefixAll(keyPath, MissingFromEn(en, fr)) + EnMissBelow(AsDict(en), AsDict(fr), common, |common|)
  }

  /** What the first `n` shared keys add to the English miss list. */
  function EnMissBelow(enDict: seq<TEntry>, frDict: seq<TEntry>, common: seq<string>, n: nat): seq<string>
    requires n <= |common|
    decreases EntriesSize(enDict), 0, n
  {
    if n == 0 then []
    else
      var key := common[n - 1];
      var below := EnMissBelow(enDict, frDict, common, n - 1);
      if key in Keys(enDict) && key in Keys(frDict) then
        var enVal, frVal := ValueOf(enDict, key), ValueOf(frDict, key);
        below + (if Descends(enVal, frVal) then EnMiss(enVal, frVal, key) else [])
      else below
  }


  /** The entries checkSubDict(en, fr, _) adds to the French miss list. */
  function FrMiss(en: TValue, fr: TValue): seq<string>
    decreases Size(en), 1, 0
  {
    var common := CommonKeys(en, fr);
    Unprefixed(MissingFromFr(en, fr)) + FrMissBelow(AsDict(en), AsDict(fr), common, |common|)
  }

  function FrMissBelow(enDict: seq<TEntry>, frDict: seq<TEntry>, common: seq<string>, n: nat): seq<string>
    requires n <= |common|
    decreases EntriesSize(enDict), 0, n
  {
    if n == 0 then []
    else
      var key := common[n - 1];
      var below := FrMissBelow(enDict, frDict, common, n - 1);
      if key in Keys(enDict) && key in Keys(frDict) then
        var enVal, frVal := ValueOf(enDict, key), ValueOf(frDict, key);
        below + (if Descends(enVal, frVal) then FrMiss(enVal, frVal) else [])
      else below
  }


  // ---------------------------------------------------------------------
  // Reports
  // ---------------------------------------------------------------------

  /** A template-literal rendering of a file name that may be null. */
  function EnName(f: JsonFile): string
  {
    if f.FrOnly? then "null" else f.en
  }

  function FrName(f: JsonFile): string
  {
    if f.EnOnly? then "null" else f.fr
  }

  /** A report section: nothing for an empty list, otherwise the header, the
      sorted entries one per line, and a blank line. */
  function Section(header: string, entries: seq<string>): string
  {
    if |entries| > 0 then header + Join(SortStrings(entries), "\n") + "\n\n" else ""
  }

  /** Appending a non-empty section piece by piece appends the section. */
  lemma SectionAppend(before: string, header: string, entries: seq<string>, sorted: seq<string>)
    requires |entries| > 0 && sorted == SortStrings(entries)
    ensures before + header + Join(sorted, "\n") + "\n\n" == before + Section(header, entries)
  {
    assert before + header + Join(sorted, "\n") + "\n\n" == before + (header + Join(sorted, "\n") + "\n\n");
  }

  /** One report step of the script: a non-empty list is sorted in place and
      appended under its header. */
  method ReportList(message: string, header: string, list: seq<string>) returns (report: string, sorted: seq<string>)
    ensures report == message + Section(header, list)
    ensures sorted == SortStrings(list)
  {
    report, sorted := message, list;
    if |list| > 0 {
      report := report + header;
      sorted := SortStrings(sorted);
      report := report + Join(sorted, "\n");
      report := report + "\n\n";
      SectionAppend(message, header, list, sorted);
    } else {
      assert list == [] && SortStrings(list) == [];
    }
  }

  function FileEnMiss(f: JsonFile, read: string -> TValue): seq<string>
  {
    if f.Both? then EnMiss(read(f.en), read(f.fr), "") else []
  }

  function FileFrMiss(f: JsonFile, read: string -> TValue): seq<string>
  {
    if f.Both? then FrMiss(read(f.en), read(f.fr)) else []
  }

  function EnHeader(f: JsonFile): string
  {
    "\nMissing from " + EnName(f) + ": \n"
  }

  function FrHeader(f: JsonFile): string
  {
    "Missing from " + FrName(f) + ": \n"
  }

  function FileReport(f: JsonFile, read: string -> TValue): string
  {
    Section(EnHeader(f), FileEnMiss(f, read)) + Section(FrHeader(f), FileFrMiss(f, read))
  }

  function FileReports(files: seq<JsonFile>, read: string -> TValue): string
  {
    ConcatMap(files, f => FileReport(f, read))
  }

  /** The files a directory lacks: the French files without an English one,
      and the English files without a French one. */
  function NoEnglish(files: seq<JsonFile>): seq<string>
  {
    if files == [] then []
    else if files[|files| - 1].FrOnly? then NoEnglish(files[..|files| - 1]) + [files[|files| - 1].fr]
    else NoEnglish(files[..|files| - 1])
  }

  function NoFrench(files: seq<JsonFile>): seq<string>
  {
    if files == [] then []
    else if files[|files| - 1].EnOnly? then NoFrench(files[..|files| - 1]) + [files[|files| - 1].en]
    else NoFrench(files[..|files| - 1])
  }

  const NO_ENGLISH_HEADER := "\n Missing english correspondent file for : \n"
  const NO_FRENCH_HEADER := "\n Missing french correspondent file for : \n"

  /** Everything the script reports for the given pairing of files. */
  function Report(files: seq<JsonFile>, read: string -> TValue): string
  {
    FileReports(files, read) + Section(NO_ENGLISH_HEADER, NoEnglish(files)) + Section(NO_FRENCH_HEADER, NoFrench(files))
  }

  // ---------------------------------------------------------------------
  // The script's state and steps
  // ---------------------------------------------------------------------

  class Comparison {
    var enMissList: seq<string>
    var frMissList: seq<string>
    var enFileMissList: seq<string>
    var frFileMissList: seq<string>
    var errMsg: string

    /** Runs the script on the two directories' listings. The miss lists
        start as null in the script; an empty list stands for that here. */
    constructor(enPath: string, frPath: string, enJsonNames: seq<string>, frJsonNames: seq<string>, read: string -> TValue)
      ensures errMsg == Report(BuildJsonFiles(enPath, frPath, enJsonNames, frJsonNames), read)
    {
      enMissList := [];
      frMissList := [];
      enFileMissList := [];
      frFileMissList := [];
      errMsg := "";
      new;
      var jsonFiles := BuildJsonFileArray(enPath, frPath, enJsonNames, frJsonNames);
      BuildJsonFilesSpec(enPath, frPath, enJsonNames, frJsonNames, jsonFiles);
      CompareFiles(jsonFiles, read);
      assert errMsg == FileReports(jsonFiles, read);
      assert enFileMissList == NoEnglish(jsonFiles) && frFileMissList == NoFrench(jsonFiles);
      ReportMissingFiles();
      assert errMsg == Report(jsonFiles, read);
    }

    /** checkSubDict: appends to the two miss lists and changes nothing else. */
    method CheckSubDict(en: TValue, fr: TValue, keyPath: string)
      modifies this
      decreases Size(en), 2
      ensures enMissList == old(enMissList) + EnMiss(en, fr, keyPath)
      ensures frMissList == old(frMissList) + FrMiss(en, fr)
      ensures enFileMissList == old(enFileMissList) && frFileMissList == old(frFileMissList)
      ensures errMsg == old(errMsg)
    {
      var enDict := AsDict(en);
      var frDict := AsDict(fr);
      var enKeys := SortedKeys(enDict);
      var frKeys := SortedKeys(frDict);
      var missingListFromEn := Filter(frKeys, NotIn(enKeys));
      var missingListFromFr := Filter(enKeys, NotIn(frKeys));
      var common := Filter(enKeys, In(frKeys));

      // The second pass over the French keys would add a shared key that
      // `common` lacks; there is none, so it adds nothing.
      var i := 0;
      while i < |frKeys|
        invariant 0 <= i <= |frKeys|
        invariant forall k :: 0 <= k < i ==> !(frKeys[k] in enKeys && frKeys[k] !in common)
      {
        var key := frKeys[i];
        assert !(key in enKeys && key !in common);
        i := i + 1;
      }
      KeysSorted(enDict);
      SortFiltered(enKeys, In(frKeys));
      common := SortStrings(common);

      ghost var en0, fr0 := enMissList, frMissList;
      AppendMissingFromEn(keyPath, missingListFromEn);
      AppendMissingFromFr(missingListFromFr);
      ghost var en1, fr1 := enMissList, frMissList;
      DescendCommon(enDict, frDict, common);
      AppendAssoc(en0, PrefixAll(keyPath, missingListFromEn), EnMissBelow(enDict, frDict, common, |common|));
      AppendAssoc(fr0, Unprefixed(missingListFromFr), FrMissBelow(enDict, frDict, common, |common|));
    }

    /** The loop over the keys only French has. */
    method AppendMissingFromEn(keyPath: string, missing: seq<string>)
      modifies this
      ensures enMissList == old(enMissList) + PrefixAll(keyPath, missing)
      ensures frMissList == old(frMissList)
      ensures enFileMissList == old(enFileMissList) && frFileMissList == old(frFileMissList)
      ensures errMsg == old(errMsg)
    {
      var i := 0;
      while i < |missing|
        invariant 0 <= i <= |missing|
        invariant enMissList == old(enMissList) + PrefixAll(keyPath, missing[..i])
        invariant frMissList == old(frMissList)
        invariant enFileMissList == old(enFileMissList) && frFileMissList == old(frFileMissList)
        invariant errMsg == old(errMsg)
      {
        PrefixAllSnoc(keyPath, missing, i);
        AppendAssoc(old(enMissList), PrefixAll(keyPath, missing[..i]), [Prefixed(keyPath, missing[i])]);
        if |keyPath| > 0 {
          enMissList := enMissList + ["  " + keyPath + "." + missing[i]];
        } else {
          enMissList := enMissList + ["  " + missing[i]];
        }
        i := i + 1;
      }
      assert missing[..|missing|] == missing;
    }

    /** The loop over the keys only English has. */
    method AppendMissingFromFr(missing: seq<string>)
      modifies this
      ensures frMissList == old(frMissList) + Unprefixed(missing)
      ensures enMissList == old(enMissList)
      ensures enFileMissList == old(enFileMissList) && frFileMissList == old(frFileMissList)
      ensures errMsg == old(errMsg)
    {
      var i := 0;
      while i < |missing|
        invariant 0 <= i <= |missing|
        invariant frMissList == old(frMissList) + Unprefixed(missing[..i])
        invariant enMissList == old(enMissList)
        invariant enFileMissList == old(enFileMissList) && frFileMissList == old(frFileMissList)
        invariant errMsg == old(errMsg)
      {
        UnprefixedSnoc(missing, i);
        AppendAssoc(old(frMissList), Unprefixed(missing[..i]), ["  " + missing[i]]);
        frMissList := frMissList + ["  " + missing[i]];
        i := i + 1;
      }
      assert missing[..|missing|] == missing;
    }

    /** The loop over the shared keys. */
    method DescendCommon(enDict: seq<TEntry>, frDict: seq<TEntry>, common: seq<string>)
      requires forall k :: k in common ==> k in Keys(enDict) && k in Keys(frDict)
      modifies this
      decreases EntriesSize(enDict), 1
      ensures enMissList == old(enMissList) + EnMissBelow(enDict, frDict, common, |common|)
      ensures frMissList == old(frMissList) + FrMissBelow(enDict, frDict, common, |common|)
      ensures enFileMissList == old(enFileMissList) && frFileMissList == old(frFileMissList)
      ensures errMsg == old(errMsg)
    {
      AppendEmpty(enMissList);
      AppendEmpty(frMissList);
      var i := 0;
      while i < |common|
        invariant 0 <= i <= |common|
        invariant enMissList == old(enMissList) + EnMissBelow(enDict, frDict, common, i)
        invariant frMissList == old(frMissList) + FrMissBelow(enDict, frDict, common, i)
        invariant enFileMissList == old(enFileMissList) && frFileMissList == old(frFileMissList)
        invariant errMsg == old(errMsg)
      {
        ghost var enAdded, frAdded := DescendKey(enDict, frDict, common, i);
        AppendAssoc(old(enMissList), EnMissBelow(enDict, frDict, common, i), enAdded);
        AppendAssoc(old(frMissList), FrMissBelow(enDict, frDict, common, i), frAdded);
        i := i + 1;
      }
    }

    /** One shared key: when its value is a dictionary on either side, the
        two values are compared under the key's name as the path. */
    method DescendKey(enDict: seq<TEntry>, frDict: seq<TEntry>, common: seq<string>, i: nat)
      returns (ghost enAdded: seq<string>, ghost frAdded: seq<string>)
      requires i < |common| && common[i] in Keys(enDict) && common[i] in Keys(frDict)
      modifies this
      decreases EntriesSize(enDict), 0
      ensures enMissList == old(enMissList) + enAdded && frMissList == old(frMissList) + frAdded
      ensures EnMissBelow(enDict, frDict, common, i + 1) == EnMissBelow(enDict, frDict, common, i) + enAdded
      ensures FrMissBelow(enDict, frDict, common, i + 1) == FrMissBelow(enDict, frDict, common, i) + frAdded
      ensures enFileMissList == old(enFileMissList) && frFileMissList == old(frFileMissList)
      ensures errMsg == old(errMsg)
    {
      var key := common[i];
      var enVal := ValueOf(enDict, key);
      var frVal := ValueOf(frDict, key);
      BelowStep(enDict, frDict, common, i, enVal, frVal);
      if enVal.Dict? || frVal.Dict? {
        CheckSubDict(enVal, frVal, key);
        enAdded, frAdded := EnMiss(enVal, frVal, key), FrMiss(enVal, frVal);
      } else {
        enAdded, frAdded := [], [];
        AppendEmpty(enMissList);
        AppendEmpty(frMissList);
        AppendEmpty(EnMissBelow(enDict, frDict, common, i));
        AppendEmpty(FrMissBelow(enDict, frDict, common, i));
      }
    }

    /** The first half of the script's loop body for one file: the miss
        lists are reset and filled by the comparison when both files exist;
        a file with no counterpart is recorded instead. */
    method CollectMisses(jsonFile: JsonFile, read: string -> TValue)
      modifies this
      ensures enMissList == FileEnMiss(jsonFile, read) && frMissList == FileFrMiss(jsonFile, read)
      ensures jsonFile.FrOnly? ==> enFileMissList == old(enFileMissList) + [jsonFile.fr]
      ensures !jsonFile.FrOnly? ==> enFileMissList == old(enFileMissList)
      ensures jsonFile.EnOnly? ==> frFileMissList == old(frFileMissList) + [jsonFile.en]
      ensures !jsonFile.EnOnly? ==> frFileMissList == old(frFileMissList)
      ensures errMsg == old(errMsg)
    {
      if jsonFile.Both? {
        CompareBoth(read(jsonFile.en), read(jsonFile.fr));
      } else {
        RecordMissingFile(jsonFile);
        assert FileEnMiss(jsonFile, read) == [] && FileFrMiss(jsonFile, read) == [];
      }
    }

    /** A file with no counterpart: the miss lists are reset and the file is
        recorded under the language that lacks it. */
    method RecordMissingFile(jsonFile: JsonFile)
      requires !jsonFile.Both?
      modifies this
      ensures enMissList == [] && frMissList == []
      ensures jsonFile.FrOnly? ==> enFileMissList == old(enFileMissList) + [jsonFile.fr] && frFileMissList == old(frFileMissList)
      ensures jsonFile.EnOnly? ==> frFileMissList == old(frFileMissList) + [jsonFile.en] && enFileMissList == old(enFileMissList)
      ensures errMsg == old(errMsg)
    {
      enMissList := [];
      frMissList := [];
      if jsonFile.FrOnly? {
        enFileMissList := enFileMissList + [jsonFile.fr];
      } else {
        frFileMissList := frFileMissList + [jsonFile.en];
      }
    }

    /** checkSubDict on two files' dictionaries, with the miss lists reset. */
    method CompareBoth(en: TValue, fr: TValue)
      modifies this
      ensures enMissList == EnMiss(en, fr, "") && frMissList == FrMiss(en, fr)
      ensures enFileMissList == old(enFileMissList) && frFileMissList == old(frFileMissList)
      ensures errMsg == old(errMsg)
    {
      enMissList := [];
      frMissList := [];
      CheckSubDict(en, fr, "");
      EmptyAppend(EnMiss(en, fr, ""));
      EmptyAppend(FrMiss(en, fr));
    }

    /** The second half: each non-empty miss list is sorted in place and
        reported under the name of the file that lacks its keys. */
    method ReportMisses(jsonFile: JsonFile)
      modifies this
      ensures errMsg == old(errMsg) + Section(EnHeader(jsonFile), old(enMissList)) + Section(FrHeader(jsonFile), old(frMissList))
      ensures enMissList == SortStrings(old(enMissList)) && frMissList == SortStrings(old(frMissList))
      ensures enFileMissList == old(enFileMissList) && frFileMissList == old(frFileMissList)
    {
      errMsg, enMissList := ReportList(errMsg, EnHeader(jsonFile), enMissList);
      errMsg, frMissList := ReportList(errMsg, FrHeader(jsonFile), frMissList);
    }

    /** The script's loop body for one file. */
    method CompareFile(jsonFile: JsonFile, read: string -> TValue)
      modifies this
      ensures errMsg == old(errMsg) + FileReport(jsonFile, read)
      ensures jsonFile.FrOnly? ==> enFileMissList == old(enFileMissList) + [jsonFile.fr]
      ensures !jsonFile.FrOnly? ==> enFileMissList == old(enFileMissList)
      ensures jsonFile.EnOnly? ==> frFileMissList == old(frFileMissList) + [jsonFile.en]
      ensures !jsonFile.EnOnly? ==> frFileMissList == old(frFileMissList)
      ensures enMissList == SortStrings(FileEnMiss(jsonFile, read))
      ensures frMissList == SortStrings(FileFrMiss(jsonFile, read))
    {
      CollectMisses(jsonFile, read);
      ReportMisses(jsonFile);
      AppendAssoc(old(errMsg), Section(EnHeader(jsonFile), FileEnMiss(jsonFile, read)), Section(FrHeader(jsonFile), FileFrMiss(jsonFile, read)));
    }

    /** The script's loop over the file list. */
    method CompareFiles(jsonFiles: seq<JsonFile>, read: string -> TValue)
      modifies this
      ensures errMsg == old(errMsg) + FileReports(jsonFiles, read)
      ensures enFileMissList == old(enFileMissList) + NoEnglish(jsonFiles)
      ensures frFileMissList == old(frFileMissList) + NoFrench(jsonFiles)
      ensures jsonFiles == [] ==> enMissList == old(enMissList) && frMissList == old(frMissList)
      ensures jsonFiles != [] ==>
        enMissList == SortStrings(FileEnMiss(jsonFiles[|jsonFiles| - 1], read))
        && frMissList == SortStrings(FileFrMiss(jsonFiles[|jsonFiles| - 1], read))
    {
      ghost var err0, en0, fr0 := errMsg, enFileMissList, frFileMissList;
      AppendEmpty(err0);
      AppendEmpty(en0);
      AppendEmpty(fr0);
      var n := 0;
      while n < |jsonFiles|
        invariant 0 <= n <= |jsonFiles|
        invariant errMsg == err0 + FileReports(jsonFiles[..n], read)
        invariant enFileMissList == en0 + NoEnglish(jsonFiles[..n])
        invariant frFileMissList == fr0 + NoFrench(jsonFiles[..n])
        invariant n == 0 ==> enMissList == old(enMissList) && frMissList == old(frMissList)
        invariant n > 0 ==>
          enMissList == SortStrings(FileEnMiss(jsonFiles[n - 1], read))
          && frMissList == SortStrings(FileFrMiss(jsonFiles[n - 1], read))
      {
        CompareNext(jsonFiles, n, read, err0, en0, fr0);
        n := n + 1;
      }
      assert jsonFiles[..|jsonFiles|] == jsonFiles;
    }

    /** One round of the loop over the files: the reports and the lists of
        missing files grow by what file `n` adds. */
    method CompareNext(jsonFiles: seq<JsonFile>, n: nat, read: string -> TValue,
                       ghost err0: string, ghost en0: seq<string>, ghost fr0: seq<string>)
      requires n < |jsonFiles|
      requires errMsg == err0 + FileReports(jsonFiles[..n], read)
      requires enFileMissList == en0 + NoEnglish(jsonFiles[..n])
      requires frFileMissList == fr0 + NoFrench(jsonFiles[..n])
      modifies this
      ensures errMsg == err0 + FileReports(jsonFiles[..n + 1], read)
      ensures enFileMissList == en0 + NoEnglish(jsonFiles[..n + 1])
      ensures frFileMissList == fr0 + NoFrench(jsonFiles[..n + 1])
      ensures enMissList == SortStrings(FileEnMiss(jsonFiles[n], read))
      ensures frMissList == SortStrings(FileFrMiss(jsonFiles[n], read))
    {
      FilesStep(jsonFiles, n, read);
      var jsonFile := jsonFiles[n];
      AppendAssoc(err0, FileReports(jsonFiles[..n], read), FileReport(jsonFile, read));
      if jsonFile.FrOnly? {
        AppendAssoc(en0, NoEnglish(jsonFiles[..n]), [jsonFile.fr]);
      }
      if jsonFile.EnOnly? {
        AppendAssoc(fr0, NoFrench(jsonFiles[..n]), [jsonFile.en]);
      }
      CompareFile(jsonFile, read);
    }

    /** The closing sections: the files each language lacks, sorted. */
    method ReportMissingFiles()
      modifies this
      ensures errMsg == old(errMsg) + Section(NO_ENGLISH_HEADER, old(enFileMissList)) + Section(NO_FRENCH_HEADER, old(frFileMissList))
      ensures enFileMissList == SortStrings(old(enFileMissList))
      ensures frFileMissList == SortStrings(old(frFileMissList))
      ensures enMissList == old(enMissList) && frMissList == old(frMissList)
    {
      errMsg, enFileMissList := ReportList(errMsg, NO_ENGLISH_HEADER, enFileMissList);
      errMsg, frFileMissList := ReportList(errMsg, NO_FRENCH_HEADER, frFileMissList);
    }
  }

  // ---------------------------------------------------------------------
  // Properties
  // ---------------------------------------------------------------------

  /** The file list as a function of the listings, the one BuildJsonFileArray
      builds: the English files in order, then the French files without an
      English counterpart. */
  function BuildJsonFiles(enPath: string, frPath: string, enJsonNames: seq<string>, frJsonNames: seq<string>): seq<JsonFile>
  {
    EnglishFiles(enPath, frPath, enJsonNames, frJsonNames) + FrenchOnlyFiles(frPath, Filter(frJsonNames, NotIn(enJsonNames)))
  }

  function EnglishFiles(enPath: string, frPath: string, enJsonNames: seq<string>, frJsonNames: seq<string>): seq<JsonFile>
  {
    seq(|enJsonNames|, i requires 0 <= i < |enJsonNames| =>
          if enJsonNames[i] in frJsonNames
          then Both(Resolve(enPath, enJsonNames[i]), Resolve(frPath, enJsonNames[i]))
          else EnOnly(Resolve(enPath, enJsonNames[i])))
  }

  function FrenchOnlyFiles(frPath: string, names: seq<string>): seq<JsonFile>
  {
    seq(|names|, j requires 0 <= j < |names| => FrOnly(Resolve(frPath, names[j])))
  }

  function ResolveAll(dir: string, names: seq<string>): seq<string>
  {
    seq(|names|, j requires 0 <= j < |names| => Resolve(dir, names[j]))
  }

  lemma BuildJsonFilesSpec(enPath: string, frPath: string, enJsonNames: seq<string>, frJsonNames: seq<string>, jsonList: seq<JsonFile>)
    requires |jsonList| == |enJsonNames| + |Filter(frJsonNames, NotIn(enJsonNames))|
    requires forall i :: 0 <= i < |enJsonNames| ==>
      jsonList[i] == (if enJsonNames[i] in frJsonNames
                      then Both(Resolve(enPath, enJsonNames[i]), Resolve(frPath, enJsonNames[i]))
                      else EnOnly(Resolve(enPath, enJsonNames[i])))
    requires forall j :: 0 <= j < |Filter(frJsonNames, NotIn(enJsonNames))| ==>
      jsonList[|enJsonNames| + j] == FrOnly(Resolve(frPath, Filter(frJsonNames, NotIn(enJsonNames))[j]))
    ensures jsonList == BuildJsonFiles(enPath, frPath, enJsonNames, frJsonNames)
  {
    var files := BuildJsonFiles(enPath, frPath, enJsonNames, frJsonNames);
    assert |files| == |jsonList|;
    forall i | 0 <= i < |files| ensures files[i] == jsonList[i] {
      if i >= |enJsonNames| {
        assert files[i] == FrenchOnlyFiles(frPath, Filter(frJsonNames, NotIn(enJsonNames)))[i - |enJsonNames|];
        assert jsonList[|enJsonNames| + (i - |enJsonNames|)] == jsonList[i];
      }
    }
  }

  lemma PrefixAllSnoc(keyPath: string, s: seq<string>, i: nat)
    requires i < |s|
    ensures PrefixAll(keyPath, s[..i + 1]) == PrefixAll(keyPath, s[..i]) + [Prefixed(keyPath, s[i])]
  {
    var a, b := PrefixAll(keyPath, s[..i + 1]), PrefixAll(keyPath, s[..i]) + [Prefixed(keyPath, s[i])];
    assert |a| == |b|;
    forall j | 0 <= j < |a| ensures a[j] == b[j] {
      if j < i { assert s[..i + 1][j] == s[..i][j]; }
    }
  }

  lemma UnprefixedSnoc(s: seq<string>, i: nat)
    requires i < |s|
    ensures Unprefixed(s[..i + 1]) == Unprefixed(s[..i]) + ["  " + s[i]]
  {
    var a, b := Unprefixed(s[..i + 1]), Unprefixed(s[..i]) + ["  " + s[i]];
    assert |a| == |b|;
    forall j | 0 <= j < |a| ensures a[j] == b[j] {
      if j < i { assert s[..i + 1][j] == s[..i][j]; }
    }
  }

  /** One more shared key: its dictionaries' misses follow those of the keys before it. */
  lemma BelowStep(enDict: seq<TEntry>, frDict: seq<TEntry>, common: seq<string>, i: nat, enVal: TValue, frVal: TValue)
    requires i < |common| && common[i] in Keys(enDict) && common[i] in Keys(frDict)
    requires enVal == ValueOf(enDict, common[i]) && frVal == ValueOf(frDict, common[i])
    ensures Descends(enVal, frVal) ==>
      EnMissBelow(enDict, frDict, common, i + 1) == EnMissBelow(enDict, frDict, common, i) + EnMiss(enVal, frVal, common[i])
      && FrMissBelow(enDict, frDict, common, i + 1) == FrMissBelow(enDict, frDict, common, i) + FrMiss(enVal, frVal)
    ensures !Descends(enVal, frVal) ==>
      EnMissBelow(enDict, frDict, common, i + 1) == EnMissBelow(enDict, frDict, common, i)
      && FrMissBelow(enDict, frDict, common, i + 1) == FrMissBelow(enDict, frDict, common, i)
  {
  }

  /** One more file: its report and its missing counterpart follow the earlier ones. */
  lemma FilesStep(files: seq<JsonFile>, n: nat, read: string -> TValue)
    requires n < |files|
    ensures FileReports(files[..n + 1], read) == FileReports(files[..n], read) + FileReport(files[n], read)
    ensures files[n].FrOnly? ==> NoEnglish(files[..n + 1]) == NoEnglish(files[..n]) + [files[n].fr]
    ensures !files[n].FrOnly? ==> NoEnglish(files[..n + 1]) == NoEnglish(files[..n])
    ensures files[n].EnOnly? ==> NoFrench(files[..n + 1]) == NoFrench(files[..n]) + [files[n].en]
    ensures !files[n].EnOnly? ==> NoFrench(files[..n + 1]) == NoFrench(files[..n])
  {
    var done := files[..n + 1];
    assert done[..|done| - 1] == files[..n] && done[|done| - 1] == files[n];
  }

  /** Filtering a sorted list keeps it sorted, so sorting the filtered list
      again changes nothing. */
  lemma SortFiltered(s: seq<string>, p: string -> bool)
    requires Sorted(s)
    ensures Sorted(Filter(s, p))
    ensures SortStrings(Filter(s, p)) == Filter(s, p)
  {
    FilterSorted(s, p);
    SortedStrings(Filter(s, p));
    SortedUnique(SortStrings(Filter(s, p)), Filter(s, p));
  }

  lemma {:induction false} FilterSorted(s: seq<string>, p: string -> bool)
    requires Sorted(s)
    ensures Sorted(Filter(s, p))
  {
    if s != [] {
      SortedTail(s);
      FilterSorted(s[1..], p);
      var rest := Filter(s[1..], p);
      forall j | 0 <= j < |rest| ensures LessEq(s[0], rest[j]) {
        assert rest[j] in s[1..];
        var k :| 0 <= k < |s[1..]| && s[1..][k] == rest[j];
        assert s[k + 1] == rest[j];
      }
    }
  }

  /** The three key lists of one comparison are sorted, and a key is in each
      exactly when the two dictionaries' key sets say so. */
  lemma KeyLists(en: TValue, fr: TValue)
    ensures Sorted(MissingFromEn(en, fr)) && Sorted(MissingFromFr(en, fr)) && Sorted(CommonKeys(en, fr))
    ensures forall k :: k in MissingFromEn(en, fr) <==> k in Keys(AsDict(fr)) && k !in Keys(AsDict(en))
    ensures forall k :: k in MissingFromFr(en, fr) <==> k in Keys(AsDict(en)) && k !in Keys(AsDict(fr))
    ensures forall k :: k in CommonKeys(en, fr) <==> k in Keys(AsDict(en)) && k in Keys(AsDict(fr))
  {
    KeysSorted(AsDict(en));
    KeysSorted(AsDict(fr));
    FilterSorted(SortedKeys(AsDict(fr)), NotIn(SortedKeys(AsDict(en))));
    FilterSorted(SortedKeys(AsDict(en)), NotIn(SortedKeys(AsDict(fr))));
    FilterSorted(SortedKeys(AsDict(en)), In(SortedKeys(AsDict(fr))));
  }

  /** Different keys give different English entries under the same path. */
  lemma PrefixedInjective(keyPath: string, k1: string, k2: string)
    requires Prefixed(keyPath, k1) == Prefixed(keyPath, k2)
    ensures k1 == k2
  {
    var n := if |keyPath| > 0 then 2 + |keyPath| + 1 else 2;
    assert Prefixed(keyPath, k1)[n..] == k1;
    assert Prefixed(keyPath, k2)[n..] == k2;
  }

  /** A prefixed key is in a prefixed list exactly when the key is in the
      list. */
  lemma PrefixAllMember(keyPath: string, keys: seq<string>, k: string)
    ensures Prefixed(keyPath, k) in PrefixAll(keyPath, keys) <==> k in keys
  {
    var r := PrefixAll(keyPath, keys);
    if Prefixed(keyPath, k) in r {
      var i :| 0 <= i < |keys| && r[i] == Prefixed(keyPath, k);
      PrefixedInjective(keyPath, keys[i], k);
    }
    if k in keys {
      var i :| 0 <= i < |keys| && keys[i] == k;
      assert r[i] == Prefixed(keyPath, k);
    }
  }

  /** The entries a comparison adds for its own level name exactly the keys
      that French has and English lacks. */
  lemma TopLevelEnglishEntries(en: TValue, fr: TValue, keyPath: string, k: string)
    ensures Prefixed(keyPath, k) in PrefixAll(keyPath, MissingFromEn(en, fr))
        <==> k in Keys(AsDict(fr)) && k !in Keys(AsDict(en))
  {
    KeyLists(en, fr);
    PrefixAllMember(keyPath, MissingFromEn(en, fr), k);
  }

  /** An English side without keys (a string or an empty dictionary):
      English misses every French key, at this level only, and French
      misses nothing. */
  lemma EnglishEmpty(en: TValue, fr: TValue, keyPath: string)
    requires AsDict(en) == []
    ensures EnMiss(en, fr, keyPath) == PrefixAll(keyPath, SortedKeys(AsDict(fr)))
    ensures FrMiss(en, fr) == []
  {
    var frKeys := SortedKeys(AsDict(fr));
    assert SortedKeys(AsDict(en)) == [];
    FilterAllOrNone(frKeys, NotIn(SortedKeys(AsDict(en))));
    assert MissingFromEn(en, fr) == frKeys;
    assert CommonKeys(en, fr) == [];
    AppendEmpty(PrefixAll(keyPath, frKeys));
  }

  /** A French side without keys: English misses nothing, and French misses
      every English key at this level. */
  lemma FrenchEmpty(en: TValue, fr: TValue, keyPath: string)
    requires AsDict(fr) == []
    ensures EnMiss(en, fr, keyPath) == []
    ensures FrMiss(en, fr) == Unprefixed(SortedKeys(AsDict(en)))
  {
    var enKeys := SortedKeys(AsDict(en));
    assert SortedKeys(AsDict(fr)) == [];
    FilterAllOrNone(enKeys, NotIn(SortedKeys(AsDict(fr))));
    FilterAllOrNone(enKeys, In(SortedKeys(AsDict(fr))));
    assert MissingFromFr(en, fr) == enKeys;
    assert CommonKeys(en, fr) == [];
    AppendEmpty(Unprefixed(enKeys));
  }

  /** A dictionary compared with itself misses nothing, at any depth. */
  lemma SelfCompare(t: TValue, keyPath: string)
    ensures EnMiss(t, t, keyPath) == [] && FrMiss(t, t) == []
  {
    EnSelf(t, keyPath);
    FrSelf(t);
  }

  lemma {:induction false} EnSelf(t: TValue, keyPath: string)
    decreases Size(t), 1, 0
    ensures EnMiss(t, t, keyPath) == []
  {
    var keys := SortedKeys(AsDict(t));
    FilterAllOrNone(keys, NotIn(keys));
    var common := CommonKeys(t, t);
    EnSelfBelow(AsDict(t), common, |common|);
  }

  /** One shared key of a dictionary compared with itself. */
  lemma EnSelfStep(es: seq<TEntry>, common: seq<string>, n: nat)
    requires 0 < n <= |common|
    ensures var key := common[n - 1];
      EnMissBelow(es, es, common, n) ==
        EnMissBelow(es, es, common, n - 1) + (if key in Keys(es) && Descends(ValueOf(es, key), ValueOf(es, key)) then EnMiss(ValueOf(es, key), ValueOf(es, key), key) else [])
  {
  }

  lemma {:induction false} EnSelfBelow(es: seq<TEntry>, common: seq<string>, n: nat)
    requires n <= |common|
    decreases EntriesSize(es), 0, n
    ensures EnMissBelow(es, es, common, n) == []
  {
    if n > 0 {
      EnSelfBelow(es, common, n - 1);
      var key := common[n - 1];
      EnSelfStep(es, common, n);
      if key in Keys(es) {
        EnSelf(ValueOf(es, key), key);
      }
    }
  }

  lemma {:induction false} FrSelf(t: TValue)
    decreases Size(t), 1, 0
    ensures FrMiss(t, t) == []
  {
    var keys := SortedKeys(AsDict(t));
    FilterAllOrNone(keys, NotIn(keys));
    var common := CommonKeys(t, t);
    FrSelfBelow(AsDict(t), common, |common|);
  }

  /** One shared key of a dictionary compared with itself. */
  lemma FrSelfStep(es: seq<TEntry>, common: seq<string>, n: nat)
    requires 0 < n <= |common|
    ensures var key := common[n - 1];
      FrMissBelow(es, es, common, n) ==
        FrMissBelow(es, es, common, n - 1) + (if key in Keys(es) && Descends(ValueOf(es, key), ValueOf(es, key)) then FrMiss(ValueOf(es, key), ValueOf(es, key)) else [])
  {
  }

  lemma {:induction false} FrSelfBelow(es: seq<TEntry>, common: seq<string>, n: nat)
    requires n <= |common|
    decreases EntriesSize(es), 0, n
    ensures FrMissBelow(es, es, common, n) == []
  {
    if n > 0 {
      FrSelfBelow(es, common, n - 1);
      var key := common[n - 1];
      FrSelfStep(es, common, n);
      if key in Keys(es) {
        FrSelf(ValueOf(es, key));
      }
    }
  }

  /** A section is empty exactly when its list is. */
  lemma SectionEmpty(header: string, entries: seq<string>)
    requires header != ""
    ensures Section(header, entries) == "" <==> entries == []
  {
    if |entries| > 0 {
      assert |Section(header, entries)| >= |header|;
    }
  }

  lemma FileReportEmpty(f: JsonFile, read: string -> TValue)
    ensures FileReport(f, read) == "" <==> FileEnMiss(f, read) == [] && FileFrMiss(f, read) == []
  {
    SectionEmpty(EnHeader(f), FileEnMiss(f, read));
    SectionEmpty(FrHeader(f), FileFrMiss(f, read));
    var r := FileReport(f, read);
    assert |r| == |Section(EnHeader(f), FileEnMiss(f, read))| + |Section(FrHeader(f), FileFrMiss(f, read))|;
  }

  lemma {:induction false} NoEnglishEmpty(files: seq<JsonFile>)
    ensures NoEnglish(files) == [] <==> forall i :: 0 <= i < |files| ==> !files[i].FrOnly?
  {
    if files != [] {
      NoEnglishEmpty(files[..|files| - 1]);
      assert forall i :: 0 <= i < |files| - 1 ==> files[..|files| - 1][i] == files[i];
    }
  }

  lemma {:induction false} NoFrenchEmpty(files: seq<JsonFile>)
    ensures NoFrench(files) == [] <==> forall i :: 0 <= i < |files| ==> !files[i].EnOnly?
  {
    if files != [] {
      NoFrenchEmpty(files[..|files| - 1]);
      assert forall i :: 0 <= i < |files| - 1 ==> files[..|files| - 1][i] == files[i];
    }
  }

  /** The per-file reports are empty exactly when no pair of files misses a key. */
  lemma FileReportsEmpty(files: seq<JsonFile>, read: string -> TValue)
    ensures FileReports(files, read) == "" <==>
      forall i :: 0 <= i < |files| ==> FileEnMiss(files[i], read) == [] && FileFrMiss(files[i], read) == []
  {
    ConcatMapEmpty(files, f => FileReport(f, read));
    forall i | 0 <= i < |files|
      ensures FileReport(files[i], read) == "" <==> FileEnMiss(files[i], read) == [] && FileFrMiss(files[i], read) == []
    {
      FileReportEmpty(files[i], read);
    }
  }

  /** The script reports nothing exactly when every file has its counterpart
      and every pair of dictionaries has the same keys at every level it
      compares. */
  lemma ReportEmpty(files: seq<JsonFile>, read: string -> TValue)
    ensures Report(files, read) == "" <==>
      forall i :: 0 <= i < |files| ==>
        files[i].Both? && FileEnMiss(files[i], read) == [] && FileFrMiss(files[i], read) == []
  {
    FileReportsEmpty(files, read);
    NoEnglishEmpty(files);
    NoFrenchEmpty(files);
    SectionEmpty(NO_ENGLISH_HEADER, NoEnglish(files));
    SectionEmpty(NO_FRENCH_HEADER, NoFrench(files));
    var r := Report(files, read);
    assert |r| == |FileReports(files, read)| + |Section(NO_ENGLISH_HEADER, NoEnglish(files))|
      + |Section(NO_FRENCH_HEADER, NoFrench(files))|;
  }


  /** Keys one side lacks one level down, under a shared key `a`: English
      entries carry `a` as their path ("a.b"), French entries do not ("b"). */
  lemma NestedMisses(a: string, d: TValue)
    ensures EnMiss(Dict([TEntry(a, Dict([]))]), Dict([TEntry(a, d)]), "") == PrefixAll(a, SortedKeys(AsDict(d)))
    ensures FrMiss(Dict([TEntry(a, d)]), Dict([TEntry(a, Dict([]))])) == Unprefixed(SortedKeys(AsDict(d)))
  {
    var empty := Dict([]);
    var full, bare := Dict([TEntry(a, d)]), Dict([TEntry(a, empty)]);
    OneKey(a, d);
    OneKey(a, empty);
    EnglishEmpty(empty, d, a);
    FrenchEmpty(d, empty, a);
    SameOneKey(a, empty, d);
    SameOneKey(a, d, empty);
    BelowStep(AsDict(bare), AsDict(full), [a], 0, empty, d);
    BelowStep(AsDict(full), AsDict(bare), [a], 0, d, empty);
    EmptyAppend(EnMiss(empty, d, a));
    EmptyAppend(FrMiss(d, empty));
    assert EnMiss(bare, full, "") == [] + EnMissBelow(AsDict(bare), AsDict(full), [a], 1);
    assert FrMiss(full, bare) == [] + FrMissBelow(AsDict(full), AsDict(bare), [a], 1);
  }

  lemma OneKey(key: string, v: TValue)
    ensures SortedKeys(AsDict(Dict([TEntry(key, v)]))) == [key]
    ensures ValueOf([TEntry(key, v)], key) == v
  {
    assert Keys([TEntry(key, v)]) == [key];
  }

  /** Two one-key dictionaries with the same key: nothing missing at the top,
      the key shared. */
  lemma SameOneKey(key: string, v: TValue, w: TValue)
    ensures MissingFromEn(Dict([TEntry(key, v)]), Dict([TEntry(key, w)])) == []
    ensures MissingFromFr(Dict([TEntry(key, v)]), Dict([TEntry(key, w)])) == []
    ensures CommonKeys(Dict([TEntry(key, v)]), Dict([TEntry(key, w)])) == [key]
  {
    OneKey(key, v);
    OneKey(key, w);
    FilterAllOrNone([key], NotIn([key]));
    FilterAllOrNone([key], In([key]));
  }

  lemma {:induction false} NoEnglishAppend(a: seq<JsonFile>, b: seq<JsonFile>)
    ensures NoEnglish(a + b) == NoEnglish(a) + NoEnglish(b)
  {
    if b == [] {
      assert a + b == a;
      AppendEmpty(NoEnglish(a));
    } else {
      var ab, init := a + b, b[..|b| - 1];
      assert ab[..|ab| - 1] == a + init && ab[|ab| - 1] == b[|b| - 1];
      NoEnglishAppend(a, init);
      if b[|b| - 1].FrOnly? {
        AppendAssoc(NoEnglish(a), NoEnglish(init), [b[|b| - 1].fr]);
      }
    }
  }

  lemma {:induction false} NoFrenchAppend(a: seq<JsonFile>, b: seq<JsonFile>)
    ensures NoFrench(a + b) == NoFrench(a) + NoFrench(b)
  {
    if b == [] {
      assert a + b == a;
      AppendEmpty(NoFrench(a));
    } else {
      var ab, init := a + b, b[..|b| - 1];
      assert ab[..|ab| - 1] == a + init && ab[|ab| - 1] == b[|b| - 1];
      NoFrenchAppend(a, init);
      if b[|b| - 1].EnOnly? {
        AppendAssoc(NoFrench(a), NoFrench(init), [b[|b| - 1].en]);
      }
    }
  }

  lemma ResolveAllSnoc(dir: string, names: seq<string>)
    requires names != []
    ensures ResolveAll(dir, names) == ResolveAll(dir, names[..|names| - 1]) + [Resolve(dir, names[|names| - 1])]
  {
  }

  lemma {:induction false} NoEnglishFrenchOnly(frPath: string, names: seq<string>)
    ensures NoEnglish(FrenchOnlyFiles(frPath, names)) == ResolveAll(frPath, names)
  {
    if names != [] {
      var files, init := FrenchOnlyFiles(frPath, names), names[..|names| - 1];
      assert files[..|files| - 1] == FrenchOnlyFiles(frPath, init);
      NoEnglishFrenchOnly(frPath, init);
      ResolveAllSnoc(frPath, names);
    }
  }

  /** The files of all but the last English name, and what the last adds
      to the English files without a French one. */
  lemma EnglishFilesSnoc(enPath: string, frPath: string, enJsonNames: seq<string>, frJsonNames: seq<string>)
    requires enJsonNames != []
    ensures var n := |enJsonNames| - 1;
      NoFrench(EnglishFiles(enPath, frPath, enJsonNames, frJsonNames)) ==
        NoFrench(EnglishFiles(enPath, frPath, enJsonNames[..n], frJsonNames))
        + (if enJsonNames[n] in frJsonNames then [] else [Resolve(enPath, enJsonNames[n])])
  {
    var n := |enJsonNames| - 1;
    var files := EnglishFiles(enPath, frPath, enJsonNames, frJsonNames);
    assert files[..n] == EnglishFiles(enPath, frPath, enJsonNames[..n], frJsonNames);
  }

  lemma {:induction false} NoFrenchEnglish(enPath: string, frPath: string, enJsonNames: seq<string>, frJsonNames: seq<string>)
    ensures NoFrench(EnglishFiles(enPath, frPath, enJsonNames, frJsonNames))
      == ResolveAll(enPath, Filter(enJsonNames, NotIn(frJsonNames)))
  {
    if enJsonNames != [] {
      var n := |enJsonNames| - 1;
      var init := enJsonNames[..n];
      EnglishFilesSnoc(enPath, frPath, enJsonNames, frJsonNames);
      NoFrenchEnglish(enPath, frPath, init, frJsonNames);
      FilterSnoc(enJsonNames, n, NotIn(frJsonNames));
      assert enJsonNames[..n + 1] == enJsonNames;
      var kept := Filter(enJsonNames, NotIn(frJsonNames));
      if enJsonNames[n] !in frJsonNames {
        assert kept[..|kept| - 1] == Filter(init, NotIn(frJsonNames));
        ResolveAllSnoc(enPath, kept);
      }
    }
  }

  lemma NoEnglishEnglish(enPath: string, frPath: string, enJsonNames: seq<string>, frJsonNames: seq<string>)
    ensures NoEnglish(EnglishFiles(enPath, frPath, enJsonNames, frJsonNames)) == []
  {
    NoEnglishEmpty(EnglishFiles(enPath, frPath, enJsonNames, frJsonNames));
  }

  lemma NoFrenchFrenchOnly(frPath: string, names: seq<string>)
    ensures NoFrench(FrenchOnlyFiles(frPath, names)) == []
  {
    NoFrenchEmpty(FrenchOnlyFiles(frPath, names));
  }

  /** The closing sections list exactly the French files without an English
      file of the same name, and the English files without a French one,
      each in its directory's order before the report sorts them. */
  lemma MissingFiles(enPath: string, frPath: string, enJsonNames: seq<string>, frJsonNames: seq<string>)
    ensures NoEnglish(BuildJsonFiles(enPath, frPath, enJsonNames, frJsonNames))
      == ResolveAll(frPath, Filter(frJsonNames, NotIn(enJsonNames)))
    ensures NoFrench(BuildJsonFiles(enPath, frPath, enJsonNames, frJsonNames))
      == ResolveAll(enPath, Filter(enJsonNames, NotIn(frJsonNames)))
  {
    var english := EnglishFiles(enPath, frPath, enJsonNames, frJsonNames);
    var frenchOnly := FrenchOnlyFiles(frPath, Filter(frJsonNames, NotIn(enJsonNames)));
    NoEnglishAppend(english, frenchOnly);
    NoFrenchAppend(english, frenchOnly);
    NoEnglishEnglish(enPath, frPath, enJsonNames, frJsonNames);
    NoFrenchFrenchOnly(frPath, Filter(frJsonNames, NotIn(enJsonNames)));
    NoEnglishFrenchOnly(frPath, Filter(frJsonNames, NotIn(enJsonNames)));
    NoFrenchEnglish(enPath, frPath, enJsonNames, frJsonNames);
    EmptyAppend(ResolveAll(frPath, Filter(frJsonNames, NotIn(enJsonNames))));
    AppendEmpty(ResolveAll(enPath, Filter(enJsonNames, NotIn(frJsonNames))));
  }
}

=== FILE: translation_dicts.dfy ===
/** Translation dictionaries as the translation utilities read them from
    JSON: every value is a string or a nested dictionary, and a dictionary
    keeps its entries in the order of the file. */
module TranslationDicts {
  import opened Strings

  datatype TValue = Leaf(text: string) | Dict(entries: seq<TEntry>)

  datatype TEntry = TEntry(key: string, value: TValue)

  /** Number of nodes, the measure the recursive walks decrease. */
  function Size(t: TValue): nat
  {
    match t
    case Leaf(_) => 1
    case Dict(es) => 1 + EntriesSize(es)
  }

  function EntriesSize(es: seq<TEntry>): nat
  {
    if es == [] then 0 else 1 + Size(es[0].value) + EntriesSize(es[1..])
  }

  /** `Object.keys(d)`: the keys in entry order. */
  function Keys(es: seq<TEntry>): (keys: seq<string>)
    ensures |keys| == |es|
    ensures forall i :: 0 <= i < |es| ==> keys[i] == es[i].key
  {
    if es == [] then [] else [es[0].key] + Keys(es[1..])
  }

  /** `d[key]` for a key the dictionary has: the first entry's value, which
      is strictly smaller than the dictionary. */
  function ValueOf(es: seq<TEntry>, key: string): (v: TValue)
    requires key in Keys(es)
    ensures Size(v) < EntriesSize(es)
    ensures exists i :: 0 <= i < |es| && es[i].key == key && es[i].value == v
  {
    if es[0].key == key then es[0].value
    else
      assert Keys(es) == [es[0].key] + Keys(es[1..]);
      var v := ValueOf(es[1..], key);
      assert forall i :: 0 <= i < |es[1..]| ==> es[1..][i] == es[i + 1];
      v
  }

  /** `Object.keys(d).sort()`. */
  function SortedKeys(es: seq<TEntry>): (keys: seq<string>)
    ensures forall k :: k in keys <==> k in Keys(es)
    ensures |keys| == |es|
  {
    var keys := SortStrings(Keys(es));
    assert forall k :: k in keys <==> k in multiset(Keys(es));
    keys
  }

  /** The sorted keys are in ascending order. */
  lemma KeysSorted(es: seq<TEntry>)
    ensures Sorted(SortedKeys(es))
  {
    SortedStrings(Keys(es));
  }

  /** A string stands for an empty dictionary: it has no keys to compare. */
  function AsDict(t: TValue): (es: seq<TEntry>)
    ensures t.Leaf? ==> es == []
    ensures t.Dict? ==> es == t.entries && EntriesSize(es) < Size(t)
  {
    match t
    case Leaf(_) => []
    case Dict(es) => es
  }
}

=== FILE: translation_sort.dfy ===
/** The translation-file sorter: it writes a dictionary back out as JSON
    with the keys of every level in sorted order, the colons of a level's
    string entries aligned, and nested dictionaries indented by three more
    spaces. The output file is an `OutputFile` whose writes append to the
    text written so far; reading and parsing the input are left to the
    caller. */
module TranslationSort {
  import opened Common
  import opened Strings
  import opened TranslationDicts

  /** An open output file: everything written to it, in order. */
  class OutputFile {
    var written: string

    constructor()
      ensures written == ""
    {
      written := "";
    }

    /** `fs.writeSync(f, s)`. */
    method Write(s: string)
      modifies this
      ensures written == old(written) + s
    {
      written := written + s;
    }
  }

  // ---------------------------------------------------------------------
  // The text the sorter writes
  // ---------------------------------------------------------------------

  /** nspaces(n): `n` spaces, and none when `n` is not positive. */
  function Padding(n: int): (r: string)
    ensures n <= 0 ==> r == ""
    ensures n > 0 ==> |r| == n
    ensures forall i :: 0 <= i < |r| ==> r[i] == ' '
  {
    Spaces(if n > 0 then n else 0)
  }

  /** The length of the longest key, 0 for none. */
  function MaxLen(keys: seq<string>): (m: nat)
    ensures forall i :: 0 <= i < |keys| ==> |keys[i]| <= m
    ensures m == 0 || exists i :: 0 <= i < |keys| && |keys[i]| == m
  {
    if keys == [] then 0
    else
      var rest := MaxLen(keys[..|keys| - 1]);
      assert forall i :: 0 <= i < |keys| - 1 ==> keys[..|keys| - 1][i] == keys[i];
      if |keys[|keys| - 1]| > rest then |keys[|keys| - 1]| else rest
  }

  /** What the sorter writes for a dictionary at the given indent: an opening
      brace, one line per key in sorted key order, and the indent with the
      closing brace. */
  function Render(es: seq<TEntry>, indent: string): string
    decreases EntriesSize(es), 2, 0
  {
    "{\n" + Lines(es, |es|, indent) + indent + "}"
  }

  /** The first `n` lines: each entry in sorted key order, then `,\n`, or
      `\n` after the last. */
  function Lines(es: seq<TEntry>, n: nat, indent: string): string
    requires n <= |es|
    decreases EntriesSize(es), 1, n
  {
    if n == 0 then ""
    else Lines(es, n - 1, indent) + Entry(es, SortedKeys(es)[n - 1], indent) + Separator(n - 1, |es|)
  }

  function Separator(i: nat, count: nat): string
  {
    if i == count - 1 then "\n" else ",\n"
  }

  /** One entry: the indented quoted key, then for a nested dictionary `: `
      and its rendering three spaces further in, and for a string the
      padding to the longest key of the level, `: ` and the quoted string
      with its double quotes turned into single quotes. */
  function Entry(es: seq<TEntry>, key: string, indent: string): string
    requires key in Keys(es)
    decreases EntriesSize(es), 0, 0
  {
    var val := ValueOf(es, key);
    if val.Dict? then
      assert EntriesSize(val.entries) < Size(val);
      Quoted(indent, key) + (": " + Render(val.entries, indent + "   "))
    else
      Quoted(indent, key) + LeafTail(MaxLen(Keys(es)) - |key| + 1, val.text)
  }

  /** `${indent}"${key}"` */
  function Quoted(indent: string, key: string): string
  {
    indent + "\"" + key + "\""
  }

  /** What follows a string entry's quoted key. */
  function LeafTail(padding: int, text: string): string
  {
    Padding(padding) + ": \"" + ReplaceAllChar(text, '"', '\'') + "\""
  }

  // ---------------------------------------------------------------------
  // The sorter's steps
  // ---------------------------------------------------------------------

  /** nspaces: appends one space per round. */
  method NSpaces(n: int) returns (spaces: string)
    ensures spaces == Padding(n)
  {
    spaces := "";
    var i := 0;
    while i < n
      invariant 0 <= i <= (if n > 0 then n else 0)
      invariant spaces == Spaces(i)
    {
      spaces := spaces + " ";
      i := i + 1;
    }
  }

  /** The forEach that finds the longest key. */
  method MaxKeyLen(keys: seq<string>) returns (maxKeyLen: nat)
    ensures maxKeyLen == MaxLen(keys)
  {
    maxKeyLen := 0;
    var i := 0;
    while i < |keys|
      invariant 0 <= i <= |keys|
      invariant maxKeyLen == MaxLen(keys[..i])
    {
      assert keys[..i + 1][..i] == keys[..i];
      if |keys[i]| > maxKeyLen {
        maxKeyLen := |keys[i]|;
      }
      i := i + 1;
    }
    assert keys[..|keys|] == keys;
  }

  /** writeSortedDict: appends the dictionary's rendering to the file. */
  method WriteSortedDict(f: OutputFile, es: seq<TEntry>, indent: string)
    modifies f
    decreases EntriesSize(es), 2
    ensures f.written == old(f.written) + Render(es, indent)
  {
    var keys := SortedKeys(es);
    var maxKeyLen := MaxKeyLen(keys);
    f.Write("{\n");
    ghost var start := f.written;
    AppendEmpty(start);
    var i := 0;
    while i < |keys|
      invariant 0 <= i <= |keys|
      invariant f.written == start + Lines(es, i, indent)
    {
      WriteLine(f, es, keys, i, maxKeyLen, indent, start);
      i := i + 1;
    }
    f.Write(indent + "}");
    RenderPieces(old(f.written), es, indent);
  }

  /** The line for the `i`-th key in sorted order: its entry and separator. */
  method WriteLine(f: OutputFile, es: seq<TEntry>, keys: seq<string>, i: nat, maxKeyLen: nat, indent: string, ghost start: string)
    requires keys == SortedKeys(es) && i < |keys| && maxKeyLen == MaxLen(keys)
    requires f.written == start + Lines(es, i, indent)
    modifies f
    decreases EntriesSize(es), 1
    ensures f.written == start + Lines(es, i + 1, indent)
  {
    WriteEntry(f, es, keys[i], maxKeyLen, indent);
    var sep := if i == |keys| - 1 then "\n" else ",\n";
    f.Write(sep);
    ghost var entry := Entry(es, keys[i], indent);
    AppendAssoc(start, Lines(es, i, indent), entry);
    AppendAssoc(start, Lines(es, i, indent) + entry, sep);
    LinesNext(es, i, indent);
  }

  lemma LinesNext(es: seq<TEntry>, i: nat, indent: string)
    requires i < |es|
    ensures Lines(es, i + 1, indent) == Lines(es, i, indent) + Entry(es, SortedKeys(es)[i], indent) + Separator(i, |es|)
  {
  }

  lemma RenderPieces(before: string, es: seq<TEntry>, indent: string)
    ensures before + "{\n" + Lines(es, |es|, indent) + (indent + "}") == before + Render(es, indent)
  {
  }

  /** One entry's writes. */
  method WriteEntry(f: OutputFile, es: seq<TEntry>, key: string, maxKeyLen: nat, indent: string)
    requires key in Keys(es) && maxKeyLen == MaxLen(SortedKeys(es))
    modifies f
    decreases EntriesSize(es), 0
    ensures f.written == old(f.written) + Entry(es, key, indent)
  {
    var val := ValueOf(es, key);
    if val.Dict? {
      f.Write(Quoted(indent, key) + ": ");
      assert EntriesSize(val.entries) < Size(val);
      WriteSortedDict(f, val.entries, indent + "   ");
      AppendAssoc(old(f.written), Quoted(indent, key) + ": ", Render(val.entries, indent + "   "));
      AppendAssoc(Quoted(indent, key), ": ", Render(val.entries, indent + "   "));
    } else {
      var text := ReplaceAllChar(val.text, '"', '\'');
      SameWidth(es);
      var pad := NSpaces(maxKeyLen - |key| + 1);
      f.Write(Quoted(indent, key) + pad + ": \"" + text + "\"");
      assert pad + ": \"" + text + "\"" == LeafTail(maxKeyLen - |key| + 1, val.text);
      AppendAssoc(Quoted(indent, key), pad + ": \"" + text, "\"");
      AppendAssoc(Quoted(indent, key), pad + ": \"", text);
      AppendAssoc(Quoted(indent, key), pad, ": \"");
    }
  }

  /** The script's top level: a new file holding the sorted dictionary. */
  method SortFile(dict: seq<TEntry>) returns (f: OutputFile)
    ensures f.written == Render(dict, "")
  {
    f := new OutputFile();
    WriteSortedDict(f, dict, "");
    EmptyAppend(Render(dict, ""));
  }

  // ---------------------------------------------------------------------
  // Properties of the output
  // ---------------------------------------------------------------------

  /** Every dictionary's text opens with a brace and a newline and closes
      with its indent and a brace. */
  lemma RenderShape(es: seq<TEntry>, indent: string)
    ensures |Render(es, indent)| >= 3 + |indent|
    ensures Render(es, indent)[..2] == "{\n"
    ensures Render(es, indent)[|Render(es, indent)| - |indent| - 1..] == indent + "}"
  {
    var r, body := Render(es, indent), Lines(es, |es|, indent);
    assert r == "{\n" + (body + indent + "}");
  }

  /** The entries of a level, in sorted key order. */
  function EntryList(es: seq<TEntry>, indent: string): (r: seq<string>)
    ensures |r| == |es|
  {
    var keys := SortedKeys(es);
    seq(|es|, j requires 0 <= j < |es| => assert keys[j] in Keys(es); Entry(es, keys[j], indent))
  }

  /** The lines of a level are its entries in sorted key order joined by
      `,\n`, with a single `\n` after the last. */
  lemma LinesJoin(es: seq<TEntry>, indent: string)
    ensures es == [] ==> Lines(es, |es|, indent) == ""
    ensures es != [] ==> Lines(es, |es|, indent) == Join(EntryList(es, indent), ",\n") + "\n"
  {
    var prefixes := seq(|es| + 1, n requires 0 <= n <= |es| => Lines(es, n, indent));
    var entries := EntryList(es, indent);
    forall n | 0 < n <= |es| ensures prefixes[n] == prefixes[n - 1] + entries[n - 1] + Separator(n - 1, |es|) {
      LinesStep(es, n, indent);
      assert prefixes[n] == Lines(es, n, indent) && prefixes[n - 1] == Lines(es, n - 1, indent);
    }
    if es != [] {
      JoinPrefixes(prefixes, entries, |es|);
      assert entries[..|es|] == entries;
    }
  }

  lemma LinesStep(es: seq<TEntry>, n: nat, indent: string)
    requires 0 < n <= |es|
    ensures Lines(es, n, indent) == Lines(es, n - 1, indent) + EntryList(es, indent)[n - 1] + Separator(n - 1, |es|)
  {
  }

  /** Texts built by appending each part and its separator are the parts
      joined by `,\n` and the last separator. */
  lemma {:induction false} JoinPrefixes(prefixes: seq<string>, parts: seq<string>, n: nat)
    requires 0 < n <= |parts| && |prefixes| == |parts| + 1 && prefixes[0] == ""
    requires forall k :: 0 < k <= |parts| ==> prefixes[k] == prefixes[k - 1] + parts[k - 1] + Separator(k - 1, |parts|)
    ensures prefixes[n] == Join(parts[..n], ",\n") + Separator(n - 1, |parts|)
  {
    if n == 1 {
      assert parts[..1] == [parts[0]];
      EmptyAppend(parts[0]);
    } else {
      JoinPrefixes(prefixes, parts, n - 1);
      assert parts[..n] == parts[..n - 1] + [parts[n - 1]];
      JoinSnoc(parts[..n - 1], parts[n - 1], ",\n");
    }
  }

  /** Each entry starts with the indent and its quoted key. */
  lemma EntryKey(es: seq<TEntry>, key: string, indent: string)
    requires key in Keys(es)
    ensures |Entry(es, key, indent)| > |indent| + |key| + 2
    ensures Entry(es, key, indent)[..|indent| + |key| + 2] == Quoted(indent, key)
  {
    var head := Quoted(indent, key);
    assert |head| == |indent| + |key| + 2;
    var val := ValueOf(es, key);
    if val.Dict? {
      PrefixOfAppend(head, ": " + Render(val.entries, indent + "   "));
    } else {
      PrefixOfAppend(head, LeafTail(MaxLen(Keys(es)) - |key| + 1, val.text));
    }
  }

  lemma PrefixOfAppend(head: string, rest: string)
    requires rest != []
    ensures |head + rest| > |head| && (head + rest)[..|head|] == head
  {
  }

  /** A string entry: the padding after the key reaches the same column for
      every key of the level, so the colons line up; the value between its
      quotes holds no double quote. */
  lemma LeafLine(es: seq<TEntry>, key: string, indent: string)
    requires key in Keys(es) && ValueOf(es, key).Leaf?
    ensures var e, w := Entry(es, key, indent), MaxLen(Keys(es));
      && |e| >= |indent| + w + 7
      && (forall i :: |indent| + |key| + 2 <= i < |indent| + w + 3 ==> e[i] == ' ')
      && e[|indent| + w + 3] == ':' && e[|indent| + w + 5] == '"'
      && (forall i :: |indent| + w + 6 <= i < |e| - 1 ==> e[i] != '"')
      && e[|e| - 1] == '"'
  {
    var keys := Keys(es);
    var w := MaxLen(keys);
    MaxLenBound(keys, key);
    EntryLeaf(es, key, indent);
    QuotedLeafShape(indent, key, w - |key| + 1, ValueOf(es, key).text);
  }

  /** Sorting the keys does not change the longest one. */
  lemma SameWidth(es: seq<TEntry>)
    ensures MaxLen(SortedKeys(es)) == MaxLen(Keys(es))
  {
    var sorted, keys := SortedKeys(es), Keys(es);
    var a, b := MaxLen(sorted), MaxLen(keys);
    if a != 0 {
      var i :| 0 <= i < |sorted| && |sorted[i]| == a;
      assert sorted[i] in keys;
      MaxLenBound(keys, sorted[i]);
    }
    if b != 0 {
      var i :| 0 <= i < |keys| && |keys[i]| == b;
      assert keys[i] in sorted;
      MaxLenBound(sorted, keys[i]);
    }
  }

  lemma MaxLenBound(keys: seq<string>, key: string)
    requires key in keys
    ensures |key| <= MaxLen(keys)
  {
    var k :| 0 <= k < |keys| && keys[k] == key;
  }

  lemma EntryLeaf(es: seq<TEntry>, key: string, indent: string)
    requires key in Keys(es) && ValueOf(es, key).Leaf?
    ensures Entry(es, key, indent) == Quoted(indent, key) + LeafTail(MaxLen(Keys(es)) - |key| + 1, ValueOf(es, key).text)
  {
    var val := ValueOf(es, key);
    assert !val.Dict?;
  }

  lemma QuotedLeafShape(indent: string, key: string, padding: nat, text: string)
    ensures var e, c := Quoted(indent, key) + LeafTail(padding, text), |indent| + |key| + 2 + padding;
      && |e| >= c + 4
      && (forall i :: |indent| + |key| + 2 <= i < c ==> e[i] == ' ')
      && e[c] == ':' && e[c + 2] == '"'
      && (forall i :: c + 3 <= i < |e| - 1 ==> e[i] != '"')
      && e[|e| - 1] == '"'
  {
    var head, t := Quoted(indent, key), LeafTail(padding, text);
    assert |head| == |indent| + |key| + 2;
    LeafTailShape(padding, text);
    var e := head + t;
    forall i | |head| <= i < |e| ensures e[i] == t[i - |head|] {
    }
  }

  /** After a padding of `padding` spaces come the colon, a space, and the
      quoted value without double quotes. */
  lemma LeafTailShape(padding: nat, text: string)
    ensures var t := LeafTail(padding, text);
      && |t| == padding + |text| + 4
      && (forall i :: 0 <= i < padding ==> t[i] == ' ')
      && t[padding] == ':' && t[padding + 1] == ' ' && t[padding + 2] == '"'
      && (forall i :: padding + 3 <= i < |t| - 1 ==> t[i] != '"')
      && t[|t| - 1] == '"'
  {
    var pad, v := Padding(padding), ReplaceAllChar(text, '"', '\'');
    var t := LeafTail(padding, text);
    assert t == pad + (": \"" + v + "\"");
    var rest := ": \"" + v + "\"";
    assert rest[0] == ':' && rest[1] == ' ' && rest[2] == '"' && |rest| == |v| + 4;
    forall i | 3 <= i < |rest| - 1 ensures rest[i] != '"' {
      assert rest[i] == v[i - 3];
    }
  }
}

=== FILE: vouchers.dfy ===
/** Vouchers and voucher lines as the payroll commitment code writes them
    to the `voucher` and `voucher_item` tables, and the pay rubrics they
    are built from. */
module Vouchers {
  import opened Common

  /** An opaque identifier handed out by the database layer's uuid source.
      The model numbers them in the order they are requested, so two ids
      requested at different times are different. */
  datatype Uuid = Uuid(n: nat)

  /** The employee fields the commitment builders read. */
  datatype Employee = Employee(displayName: string, costCenterId: Option<nat>)

  /** A pay rubric as configured for one employee in a payroll period. The
      rubric kind predicates of the payroll helpers are not part of this
      model; callers pass them as parameters over this record. */
  datatype Rubric = Rubric(
    id: nat,
    abbr: string,
    name: string,  // the rubric label
    value: real,
    debtorAccountId: nat,
    expenseAccountId: nat)

  /** One `voucher_item` row: uuid, account_id, debit, credit, voucher_uuid,
      entity_uuid, cost_center_id. The translated description column is
      not modelled. */
  datatype VoucherItem = VoucherItem(
    uuid: Uuid,
    accountId: nat,
    debit: real,
    credit: real,
    voucherUuid: Uuid,
    entityUuid: Option<Uuid>,
    costCenterId: Option<nat>)

  function ValueOf(r: Rubric): real { r.value }
  function DebitOf(item: VoucherItem): real { item.debit }
  function CreditOf(item: VoucherItem): real { item.credit }

  /** The sum of the rubrics' values (the payroll helper `sumRubricValues`). */
  function SumValues(rubrics: seq<Rubric>): real { SumOf(rubrics, ValueOf) }
  function TotalDebit(items: seq<VoucherItem>): real { SumOf(items, DebitOf) }
  function TotalCredit(items: seq<VoucherItem>): real { SumOf(items, CreditOf) }

  lemma TotalsAppend(a: seq<VoucherItem>, b: seq<VoucherItem>)
    ensures TotalDebit(a + b) == TotalDebit(a) + TotalDebit(b)
    ensures TotalCredit(a + b) == TotalCredit(a) + TotalCredit(b)
  {
    SumOfAppend(a, b, DebitOf);
    SumOfAppend(a, b, CreditOf);
  }
}
